=== FILE: README.md ===
# nvda-webservices: service actors, OBS client and GitHub PR tracker

This project models the core of the NVDA "web services" add-on in Dafny.

Each web service runs as a sequential actor. It takes at most one event dictionary from its input queue per loop step, runs its `execute` step once, stops calling `execute` after the first exception, and posts events (LOG, READY, DISCONNECTED, MENU_UPDATE, …) to an output queue for the host. The actor also keeps an id-addressed menu table: a counter, a dictionary of menus and an ordered list of `(id, name)` pairs.

On top of that base the project models:

- the event code table (`Events`, from `web_services/events.py`);
- the base actor (`ServiceActor`, from `web_services/service.py`) and its older copy (`LegacyServiceActor`, from `obs_control/service.py`);
- the obs-websocket 5.x client (`ObsClient`, from `web_services/services/obs.py`) and its older copy (`LegacyObsClient`, from `obs_control/obs.py`);
- the GitHub PR tracker (`web_services/services/github.py`), split three ways:
  - `GitHubStatus`: review approval and CI classification, and their indicators;
  - `GitHubMenus`: the settings menu, the pull-request rows and the comment rows;
  - `GitHubTracker`: the service object itself, i.e. its OAuth device flow, `execute` scheduling, the repository menus and menu activation.

`Runtime` holds the Python values the code handles (JSON frames, event dictionaries, exceptions) and the Python operations on them that can raise: subscripts, `.get`, hashing for dictionary lookup, `.upper()` (on ASCII letters only), `.replace()`. `Messages` holds the log messages and the menu items and menus.

Objects whose methods update fields in place are classes:

- `Service`, `LegacyService`, `ObsService`, `LegacyObsService` and `GitHubService`;
- queues and lists are `seq` fields, dictionaries are `map` fields;
- each concrete service holds its base as a `base` field, and calls it where Python calls an inherited method.

Loops of the source (`run`, `_getApprovalStatus`, `_buildPRItems`, the comment loops of `_showPRComments`, `_updateSettingsMenu`, `_buildMenus`, `_refreshPRs`) are methods with loop invariants. All but `_buildMenus` are proved against a function that states what they build, and the properties are proved about that function. For `_buildMenus` the invariants state only that every repository handled so far has a menu and that older menus are kept.

The model follows the code as written, including where the code does not do what it evidently means to:

- `removeMenu` calls `_menuList.remove(0)` on a list of pairs. It therefore raises ValueError for every listed menu, and the pair stays in the list.
- The QUIT event sets `should_quit`, while the loop tests `_should_quit`. So QUIT never ends `run`; only the GitHub service's `terminate` writes the loop's flag.
- Input events are dispatched to `"on_" + toString(code)`, a camel-case name such as `on_menuGetItems`. None of the `on_menu_*` handlers is ever reached.
- In the newer OBS client, a stream status that is reconnecting or has skipped frames raises (a misspelt `appene`, and a call of the list itself). So does a record status with a running timecode. The older base never defines `_menuList`, so its `addMenu` and `postMenuUpdate` always raise, and its `removeMenu` raises for a known id.

Host I/O becomes parameters:

- the websocket's connect and receive outcomes are `connectOk` and `Incoming`;
- HTTP answers are a `Network` record of given results;
- `time.time()` is a `now` parameter, or a `clock` function read through a counter for request ids;
- sent frames are appended to a `sent` sequence.

## Model

| member | source | states |
|---|---|---|
| Events.ToString | addon/globalPlugins/web_services/events.py:12-26 | the name is "unknownEvent" exactly for codes outside the table; a code in the table gets one of the table's names |
| Events.ToStringValue | addon/globalPlugins/web_services/events.py:24-26 | an integer code gets its table name; True and False get the names of 1 and 0, as they hash like those ints; a string or None code gets "unknownEvent"; a list or dictionary code raises, being unhashable |
| Events.TableDomain | addon/globalPlugins/web_services/events.py:1-22 | the table's keys are exactly the nine codes QUIT through SERVICE_DEL, and a code is in the table exactly when it is one of them |
| Events.ToStringInjective | addon/globalPlugins/web_services/events.py:12-22 | two known codes with the same name are the same code |
| Messages.ItemValue | addon/globalPlugins/web_services/services/github.py:619-633 | a menu item becomes a dictionary holding its name and its "action" (None for a row without one), and an "actionData" key holding the data exactly when the item carries action data (separator rows carry none); it has no other keys |
| Messages.ItemsValue | addon/globalPlugins/web_services/service.py:92-93 | a list of items becomes a Python list of the same length whose entries are the items' dictionaries, in order |
| ServiceActor.OutEvent.Code | addon/globalPlugins/web_services/service.py:115-141 | every posted event carries a known code other than QUIT; the code is LOG exactly for logs and MENU_UPDATE exactly for menu updates |
| ServiceActor.ReactTo | addon/globalPlugins/web_services/service.py:56-71 | an event is always consumed; it is a quit request exactly when its "event" field equals QUIT; a dispatch goes only to an existing handler, with the event's own data; handling fails exactly when the "event" key is missing or toString of a non-QUIT code raises |
| ServiceActor.NoDispatchWithoutMatchingHandler | addon/globalPlugins/web_services/service.py:63-67 | a service with no method named "on_" plus any event name never has an input event dispatched to it |
| ServiceActor.ReactionEventsAreNotExecuteFailures | addon/globalPlugins/web_services/service.py:54-71 | nothing handleInputEvent posts is an "execute() failed" log, so such logs count execute's exceptions only |
| ServiceActor.Service.constructor | addon/globalPlugins/web_services/service.py:17-29 | a new service records its names, is unavailable, has empty queues, no menus, an empty menu list and counter 0 |
| ServiceActor.Service.Describe | addon/globalPlugins/web_services/service.py:31-36 | the text starts with the display name; it is exactly the display name when the service is available, and the display name followed by " disabled" when it is not |
| ServiceActor.Service.PostEvent | addon/globalPlugins/web_services/service.py:115-117 | the output queue gains exactly the given event at its end |
| ServiceActor.Service.PostDisconnected | addon/globalPlugins/web_services/service.py:119-121 | the output queue gains one event, and its code is DISCONNECTED |
| ServiceActor.Service.PostReady | addon/globalPlugins/web_services/service.py:123-125 | the output queue gains one event, and its code is READY |
| ServiceActor.Service.PostLog | addon/globalPlugins/web_services/service.py:127-129 | the output queue gains one LOG event carrying the message |
| ServiceActor.Service.PostUserNotification | addon/globalPlugins/web_services/service.py:131-133 | the output queue gains one USER_NOTIFICATION event carrying the text |
| ServiceActor.Service.PostMenuUpdate | addon/globalPlugins/web_services/service.py:135-137 | the output queue gains one MENU_UPDATE event carrying the current menu list |
| ServiceActor.Service.PostMenuItemsList | addon/globalPlugins/web_services/service.py:139-141 | the output queue gains one MENU_GET_ITEMS event carrying the menu |
| ServiceActor.Service.Enable | addon/globalPlugins/web_services/service.py:39-41 | logs "enabled" and makes the service available |
| ServiceActor.Service.Disable | addon/globalPlugins/web_services/service.py:43-45 | logs "Disabled" and makes the service unavailable |
| ServiceActor.Service.OnMenuUpdate | addon/globalPlugins/web_services/service.py:149-151 | posts one MENU_UPDATE with the current menu list |
| ServiceActor.Service.AddMenu | addon/globalPlugins/web_services/service.py:91-99 | returns the old counter plus one, an id not yet in use; the menu table gains that id with the given name and items; the list gains exactly `(id, name)` at its end; an empty name only adds an "Invalid arguments" log; exactly one MENU_UPDATE with the new list follows; table and list stay in agreement |
| ServiceActor.Service.RemoveMenu | addon/globalPlugins/web_services/service.py:101-111 | an unknown id changes nothing and posts nothing; a known id is logged and deleted from the table; the call raises ValueError exactly when the id is in the list, which it leaves as it was |
| ServiceActor.Service.RemovingAListedMenuFinds | addon/globalPlugins/web_services/service.py:101-110 | while table and list agree, every menu in the table is in the list, so removing any existing menu raises |
| ServiceActor.Service.HandleInputEvent | addon/globalPlugins/web_services/service.py:54-71 | an empty queue changes nothing; otherwise exactly the head event is taken and reacted to; the output gains exactly the reaction's events; QUIT sets `should_quit` and nothing else does |
| ServiceActor.Service.Iteration | addon/globalPlugins/web_services/service.py:77-85 | one loop step takes at most one input event, calls execute only while it is enabled, disables it exactly when that call raises, and posts exactly one failure log in that case and none otherwise |
| ServiceActor.Service.Run | addon/globalPlugins/web_services/service.py:73-85 | over any number of steps the loop flag stays unset (QUIT does not end the loop); input is drained one event per step; execute is called every step until its first exception and never after; exactly one failure log is posted when it raised; earlier output is kept |
| LegacyServiceActor.LegacyReactTo | addon/globalPlugins/obs_control/service.py:26-43 | an event is always consumed; it is a quit request exactly when its code equals QUIT; a code with a name is dispatched to its existing `on_` handler or reported unhandled; a code without a name fails |
| LegacyServiceActor.LegacyService.constructor | addon/globalPlugins/obs_control/service.py:17-24 | a new service has empty queues, no menus and counter 0 |
| LegacyServiceActor.LegacyService.PostEvent | addon/globalPlugins/obs_control/service.py:87-89 | the output queue gains exactly the given event |
| LegacyServiceActor.LegacyService.PostDisconnected | addon/globalPlugins/obs_control/service.py:91-93 | the output queue gains exactly one DISCONNECTED event |
| LegacyServiceActor.LegacyService.PostReady | addon/globalPlugins/obs_control/service.py:95-97 | the output queue gains exactly one READY event |
| LegacyServiceActor.LegacyService.PostLog | addon/globalPlugins/obs_control/service.py:99-101 | the output queue gains exactly one LOG event with the message |
| LegacyServiceActor.LegacyService.PostUserNotification | addon/globalPlugins/obs_control/service.py:103-105 | the output queue gains exactly one USER_NOTIFICATION event with the text |
| LegacyServiceActor.LegacyService.PostMenuUpdate | addon/globalPlugins/obs_control/service.py:107-109 | always raises, since `_menuList` is never defined |
| LegacyServiceActor.LegacyService.PostMenuItemsList | addon/globalPlugins/obs_control/service.py:111-113 | the output queue gains exactly one menu-items event with the menu |
| LegacyServiceActor.LegacyService.AddMenu | addon/globalPlugins/obs_control/service.py:63-71 | the counter goes up by one and the table gains the new menu; the call then raises at the append to the undefined list, so no MENU_UPDATE is ever posted |
| LegacyServiceActor.LegacyService.RemoveMenu | addon/globalPlugins/obs_control/service.py:73-83 | an unknown id changes nothing; a known id is logged and deleted, and the call then raises on the undefined list |
| LegacyServiceActor.LegacyService.HandleInputEvent | addon/globalPlugins/obs_control/service.py:26-43 | an empty queue changes nothing; otherwise exactly the head event is taken and reacted to, and QUIT sets `should_quit` |
| LegacyServiceActor.LegacyService.Iteration | addon/globalPlugins/obs_control/service.py:49-57 | one loop step takes at most one input event, calls execute only while it is enabled, and disables it with exactly one failure log when it raises |
| LegacyServiceActor.LegacyService.Run | addon/globalPlugins/obs_control/service.py:45-57 | the loop never ends by QUIT; input is drained one event per step; execute runs every step until its first exception and never after; exactly one failure log follows an exception |
| ObsClient.RouteFrame | addon/globalPlugins/web_services/services/obs.py:77-84 | a frame is routed exactly when it decodes, has "op" and "d", and its op is supported; the route carries those fields and the op's handler name; an unsupported op is reported with the op; an undecodable frame is a JSON error |
| ObsClient.DefinedHandlers | addon/globalPlugins/web_services/services/obs.py:85-101 | every routed handler name except obsEvent has an `on_` method |
| ObsClient.RoutedOpcodes | addon/globalPlugins/web_services/services/obs.py:27-30 | only the opcodes 0, 2, 5 and 7 are ever routed |
| ObsClient.Payload | addon/globalPlugins/web_services/services/obs.py:160-169 | an Identify frame is op 1 with exactly `rpcVersion`; a request frame is op 6 with the request type and id, and carries "requestData" exactly when the data is non-empty |
| ObsClient.PayloadRoundTrip | addon/globalPlugins/web_services/services/obs.py:94-95 | the JSON of every outgoing frame decodes back to the same frame, so frames carry everything the request says |
| ObsClient.PlanResponse | addon/globalPlugins/web_services/services/obs.py:103-158 | a status code other than 100 gives exactly a failure log with the type and status; every handled or unhandled response type requires code 100 and response data |
| ObsClient.PlanResponseByType | addon/globalPlugins/web_services/services/obs.py:109-158 | each reconciliation is chosen by its request type and acts on that response's data; any other type is reported with its arguments |
| ObsClient.StreamReport | addon/globalPlugins/web_services/services/obs.py:116-136 | the message is "Stream Status: streaming." when the output is active and "Stream Status: disconnected." otherwise; it is produced exactly when all four fields exist and the output is neither reconnecting nor active with skipped frames, which raise |
| ObsClient.RecordReport | addon/globalPlugins/web_services/services/obs.py:138-155 | the message is "Record Status: recording." when active and "Record Status: off." otherwise; it is produced exactly when both fields exist and an active output is not at a non-zero timecode, which raises |
| ObsClient.InputEventsNeverDispatched | addon/globalPlugins/web_services/services/obs.py:58-60 | the OBS service's `on_menu_get_items` is never reached by an input event |
| ObsClient.ObsService.constructor | addon/globalPlugins/web_services/services/obs.py:21-35 | a new client is unconnected, with unknown stream and record status, no status or scene menu, no scenes, request id 0 and nothing sent |
| ObsClient.ObsService.Terminate | addon/globalPlugins/web_services/services/obs.py:36-37 | sets `should_quit` |
| ObsClient.ObsService.Disconnect | addon/globalPlugins/web_services/services/obs.py:39-47 | drops the socket, empties categories and scenes, resets the request id to 0 and makes the service unavailable; posts "Disabled" then exactly one DISCONNECTED |
| ObsClient.ObsService.TryConnect | addon/globalPlugins/web_services/services/obs.py:49-57 | a successful connect logs "Connected to OBS" then "enabled" and makes the service available; a failed one changes nothing |
| ObsClient.ObsService.ObsRequest | addon/globalPlugins/web_services/services/obs.py:160-169 | without a socket nothing happens; otherwise one clock reading becomes the request id, is stored, and one request frame with that id is sent |
| ObsClient.ObsService.GetScenesList | addon/globalPlugins/web_services/services/obs.py:171-173 | sends exactly one GetSceneList request when connected, nothing otherwise |
| ObsClient.ObsService.GetStatus | addon/globalPlugins/web_services/services/obs.py:176-178 | sends GetStreamStatus then GetRecordStatus when connected, each with its own clock reading as id |
| ObsClient.ObsService.OnHello | addon/globalPlugins/web_services/services/obs.py:93-95 | sends exactly one Identify frame with `rpcVersion` 1 |
| ObsClient.ObsService.OnIdentified | addon/globalPlugins/web_services/services/obs.py:97-101 | posts "authenticated" and READY, then sends the scene-list, stream-status and record-status requests in that order |
| ObsClient.ObsService.OnMenuGetItems | addon/globalPlugins/web_services/services/obs.py:58-60 | posts the menu's items exactly when "id" is present, hashable and a known menu; raises otherwise, posting nothing |
| ObsClient.ObsService.OnSceneList | addon/globalPlugins/web_services/services/obs.py:109-113 | sets the current scene, then the scenes, then adds a new "Scenes" menu on every response; a missing field raises after the assignments before it |
| ObsClient.ObsService.OnSceneChanged | addon/globalPlugins/web_services/services/obs.py:114-115 | sets the current scene from "sceneName", or raises leaving it unchanged |
| ObsClient.ObsService.OnStreamStatus | addon/globalPlugins/web_services/services/obs.py:116-136 | creates the Status menu only when there is none; stores and notifies the report only when it differs from the stored stream status; a raising report leaves the status alone |
| ObsClient.ObsService.OnRecordStatus | addon/globalPlugins/web_services/services/obs.py:138-155 | creates the Status menu only when there is none; stores the report as the record status without notifying |
| ObsClient.ResponseError | addon/globalPlugins/web_services/services/obs.py:103-155 | a malformed header raises; failed and unknown requests raise nothing; a scene list raises exactly when it lacks the current scene or the scenes, a scene change exactly when it lacks the scene name, a stream or record status exactly when its message computation raises |
| ObsClient.ObsService.OnResponse | addon/globalPlugins/web_services/services/obs.py:103-158 | a failed request is only logged; an unknown type is only logged; a malformed response raises with no change; what it raises is exactly ResponseError of the plan |
| ObsClient.ObsService.ApplyResponse | addon/globalPlugins/web_services/services/obs.py:109-155 | each handled type changes only its own part of the state: scenes and scene menu, current scene, or the stream and record status; it raises exactly ResponseError of the plan (a missing scene field, or a raising stream or record message) |
| ObsClient.ObsService.HandleFrame | addon/globalPlugins/web_services/services/obs.py:77-91 | a malformed frame, an unsupported op and op 5 are each only logged, with no state change and nothing sent |
| ObsClient.ObsService.Dispatch | addon/globalPlugins/web_services/services/obs.py:85-101 | op 5 is logged as unhandled; Hello answers with Identify; Identified posts its log and READY and sends the three requests |
| ObsClient.ObsService.DispatchResponse | addon/globalPlugins/web_services/services/obs.py:87-91 | a malformed response is caught and logged with no state change; every response whose handling raises (ResponseError) ends with the log "Exception while handling {data}: {ex}" carrying that exception; output is only ever appended |
| ObsClient.ObsService.Execute | addon/globalPlugins/web_services/services/obs.py:62-91 | unconnected with a failed connect: disconnects, posting another DISCONNECTED, and waits 3 s; a receive timeout changes nothing; a receive error disconnects; a frame keeps the connection |
| ObsClient.ObsService.Receive | addon/globalPlugins/web_services/services/obs.py:69-91 | a timeout changes nothing; any other receive error runs disconnect; a received frame keeps the connection and availability |
| LegacyObsClient.Category | addon/globalPlugins/obs_control/obs.py:109-116 | a category entry is a `(kind, name)` pair, so it is never equal to a name string and the membership test is always true |
| LegacyObsClient.StatusTail | addon/globalPlugins/obs_control/obs.py:133-135 | the stored status gets the message at its slot, and a notification is due exactly when the message differs from what was stored |
| LegacyObsClient.StatusTailIdempotent | addon/globalPlugins/obs_control/obs.py:153-155 | reporting the same message twice notifies only once and leaves the status as after the first |
| LegacyObsClient.LegacyObsService.constructor | addon/globalPlugins/obs_control/obs.py:20-33 | a new client is unconnected, with no categories, unknown status, no scenes, request id 0 and nothing sent |
| LegacyObsClient.LegacyObsService.Terminate | addon/globalPlugins/obs_control/obs.py:34-35 | sets `should_quit` |
| LegacyObsClient.LegacyObsService.Disconnect | addon/globalPlugins/obs_control/obs.py:37-44 | drops the socket, empties categories and scenes, resets the request id, and posts exactly one DISCONNECTED without disabling |
| LegacyObsClient.LegacyObsService.TryConnect | addon/globalPlugins/obs_control/obs.py:46-53 | a successful connect only logs "Connected to OBS"; a failed one changes nothing |
| LegacyObsClient.LegacyObsService.ObsRequest | addon/globalPlugins/obs_control/obs.py:160-169 | without a socket nothing happens; otherwise one fresh request id is stored and one request frame sent |
| LegacyObsClient.LegacyObsService.OnHello | addon/globalPlugins/obs_control/obs.py:89-91 | sends exactly one Identify frame with `rpcVersion` 1 |
| LegacyObsClient.LegacyObsService.OnIdentified | addon/globalPlugins/obs_control/obs.py:93-97 | posts "authenticated" and READY, then sends the scene-list, stream-status and record-status requests in that order |
| LegacyObsClient.LegacyObsService.OnMenuGetItems | addon/globalPlugins/obs_control/obs.py:54-56 | posts the menu's items exactly when "id" is present, hashable and a known menu; raises otherwise |
| LegacyObsClient.LegacyObsService.AddCategory | addon/globalPlugins/obs_control/obs.py:109-117 | appends another `(kind, name)` entry every time, then raises at `postMenuUpdate` |
| LegacyObsClient.LegacyObsService.OnSceneList | addon/globalPlugins/obs_control/obs.py:106-112 | sets the current scene and scenes, appends a "scenes" category, and always raises |
| LegacyObsClient.LegacyObsService.OnResponse | addon/globalPlugins/obs_control/obs.py:99-158 | a failed request or an unknown type is only logged; stream and record responses append a "status" category and raise before any notification; scene changes are an unknown type here |
| LegacyObsClient.LegacyObsService.DispatchResponse | addon/globalPlugins/obs_control/obs.py:83-87 | handling a response adds only log events and never changes the status or the menus |
| LegacyObsClient.LegacyObsService.HandleFrame | addon/globalPlugins/obs_control/obs.py:73-87 | a malformed frame, an unsupported op and op 5 are each only logged; Hello answers with Identify and nothing else |
| LegacyObsClient.LegacyObsService.Execute | addon/globalPlugins/obs_control/obs.py:58-87 | a failed connect disconnects and waits 3 s; a timeout changes nothing besides a first connect's log; a receive error disconnects; the status strings and menus are never changed |
| GitHubStatus.LatestReviews | addon/globalPlugins/web_services/services/github.py:195-200 | only APPROVED, CHANGES_REQUESTED and DISMISSED states are kept |
| GitHubStatus.LatestReviewIsLast | addon/globalPlugins/web_services/services/github.py:195-200 | the table maps a user to a state exactly when that is the user's last counted review, so later reviews override earlier ones |
| GitHubStatus.ApprovalOf | addon/globalPlugins/web_services/services/github.py:202-213 | the verdict is one of the three words, and PENDING for an empty table |
| GitHubStatus.GetApprovalStatus | addon/globalPlugins/web_services/services/github.py:192-213 | the loop builds the latest-review table and classifies it |
| GitHubStatus.ApprovalStatusMeaning | addon/globalPlugins/web_services/services/github.py:192-213 | CHANGES_REQUESTED exactly when some reviewer's last counted review requests changes; APPROVED exactly when none does and some reviewer's last one approves; PENDING otherwise |
| GitHubStatus.ChecksVerdict | addon/globalPlugins/web_services/services/github.py:219-227 | the verdict over check runs is one of FAILURE, PENDING, SUCCESS and MIXED |
| GitHubStatus.ChecksVerdictIgnoresOrder | addon/globalPlugins/web_services/services/github.py:221-227 | two lists holding the same runs get the same verdict |
| GitHubStatus.FailureDominates | addon/globalPlugins/web_services/services/github.py:221-222 | one failed run makes the verdict FAILURE whatever the others are |
| GitHubStatus.CIStatus | addon/globalPlugins/web_services/services/github.py:215-234 | with check runs the verdict is theirs; without runs a combined status gives its upper-cased state, UNKNOWN when absent; no combined status gives NONE |
| GitHubStatus.ApprovalIndicator | addon/globalPlugins/web_services/services/github.py:845-852 | "[A]" exactly for APPROVED, "[R]" exactly for CHANGES_REQUESTED, "[?]" for anything else |
| GitHubStatus.CIIndicator | addon/globalPlugins/web_services/services/github.py:854-864 | the table's indicator for a listed status, and an empty one exactly for NONE and unlisted statuses |
| GitHubStatus.VerdictIndicatorsDistinct | addon/globalPlugins/web_services/services/github.py:219-227 | two check-run verdicts with the same indicator are the same verdict |
| GitHubStatus.UnlistedStatusShowsNoIndicator | addon/globalPlugins/web_services/services/github.py:230-232 | every combined state whose upper-cased form is not in the indicator table is reported upper-cased and shows no indicator, the same as a commit without CI |
| GitHubStatus.ErroredStatusShowsNoIndicator | addon/globalPlugins/web_services/services/github.py:230-232 | a combined state "error" becomes ERROR, which shows no indicator, the same as a commit without CI |
| GitHubMenus.SettingsItems | addon/globalPlugins/web_services/services/github.py:616-661 | the settings rows open with "Add repository" and end with "Refresh all"; there is one removal block only when repositories exist, and five or four fixed rows depending on sign-in |
| GitHubMenus.RemoveRepoItemInjective | addon/globalPlugins/web_services/services/github.py:628-633 | two removal rows are equal only for the same repository |
| GitHubMenus.SettingsRemovalRows | addon/globalPlugins/web_services/services/github.py:625-633 | the removal rows follow "Add repository" and a separator, one per repository in order, and every removal row is one of them |
| GitHubMenus.SettingsOffersRemoval | addon/globalPlugins/web_services/services/github.py:625-633 | the menu offers to remove a repository exactly when it is configured |
| GitHubMenus.SettingsSignInRows | addon/globalPlugins/web_services/services/github.py:637-654 | the one `startOAuth` row is second to last; a sign-out row is present exactly when signed in and sits just before it |
| GitHubMenus.BuildSettingsItems | addon/globalPlugins/web_services/services/github.py:616-661 | the row-by-row loop builds exactly the settings rows |
| GitHubMenus.PREntries | addon/globalPlugins/web_services/services/github.py:737-770 | one pull request gives exactly six rows |
| GitHubMenus.PREntriesRows | addon/globalPlugins/web_services/services/github.py:737-770 | the header comes first; the actions are openPR, openPR, copyLink, approvePR, requestChanges, viewComments; the first three carry the URL and the last three the repository and number |
| GitHubMenus.PRItemsLayout | addon/globalPlugins/web_services/services/github.py:719-772 | no pull requests give exactly one "No open PRs" row without action; otherwise six rows per pull request in order, each block being that pull request's rows |
| GitHubMenus.AppendPREntries | addon/globalPlugins/web_services/services/github.py:739-770 | the six appends add exactly one pull request's rows |
| GitHubMenus.BuildPRItems | addon/globalPlugins/web_services/services/github.py:719-772 | the loop builds exactly the menu's rows |
| GitHubMenus.LineText | addon/globalPlugins/web_services/services/github.py:793 | a non-zero line is shown; otherwise the original line; nothing when neither is present |
| GitHubMenus.CombinedComments | addon/globalPlugins/web_services/services/github.py:779-801 | the general comments come first, then the inline ones, each in fetched order and none lost |
| GitHubMenus.CollectComments | addon/globalPlugins/web_services/services/github.py:779-801 | the two loops build exactly the combined list |
| GitHubMenus.SortByDateSorts | addon/globalPlugins/web_services/services/github.py:804 | the sort orders the comments by creation date and keeps exactly the same comments |
| GitHubMenus.SortByDateStable | addon/globalPlugins/web_services/services/github.py:804 | the sort is stable: for every creation date, the comments created then appear in the same order as before the sort, so general comments still precede inline ones of the same date |
| GitHubMenus.ShownBody | addon/globalPlugins/web_services/services/github.py:831-833 | a body over 100 characters is cut to its first 100 plus "..."; newlines become spaces; the shown text has no newline |
| GitHubMenus.CommentItem | addon/globalPlugins/web_services/services/github.py:825-840 | a comment row speaks the comment; its label is author, location and shortened body; its action data keeps the full text |
| GitHubMenus.CommentItems | addon/globalPlugins/web_services/services/github.py:818-840 | "Back to PR list" comes first, then one row per comment in order |
| GitHubMenus.BuildCommentItems | addon/globalPlugins/web_services/services/github.py:818-840 | the loop builds exactly the comment rows |
| Runtime.Upper | addon/globalPlugins/web_services/services/github.py:232 | upper-casing keeps the length, maps each ASCII lower-case letter to its capital and keeps every other character |
| Runtime.ReplaceChar | addon/globalPlugins/web_services/services/github.py:833 | replacing a character keeps the length and changes exactly the occurrences of that character |
| GitHubTracker.FetchedPRs | addon/globalPlugins/web_services/services/github.py:508-513 | every configured repository maps to its fetched list, and every other entry is kept as it was |
| GitHubTracker.ShownMenusShow | addon/globalPlugins/web_services/services/github.py:685-717 | after a refresh the menu ids are the same, menus of no repository are untouched, and each configured repository's menu shows its fetched rows |
| GitHubTracker.IssueNextId | addon/globalPlugins/web_services/services/github.py:671-672 | recording the next counter value for a new repository keeps repository menu ids distinct and issued |
| GitHubTracker.RemoveFirst | addon/globalPlugins/web_services/services/github.py:546 | `list.remove` takes out the first occurrence and keeps the other repositories in their order; the multiset loses exactly one copy |
| GitHubTracker.ClassifyPoll | addon/globalPlugins/web_services/services/github.py:316-357 | for an object answer: pending, expired and denied exactly for those error strings; slow-down exactly for "slow_down" with a numeric old interval, taking the server interval or the old one plus 5; an OAuth failure carrying the error exactly for any other truthy error; a grant carrying the token exactly when there is no truthy error and a truthy access_token; no token exactly when neither is truthy; a poll failure exactly for transport and HTTP errors, non-object answers, and slow_down with a non-numeric old interval |
| GitHubTracker.GitHubService.constructor | addon/globalPlugins/web_services/services/github.py:43-102 | a new tracker is unavailable with no menus, no pull requests and idle OAuth state with interval 5; a loaded configuration sets the token and repositories and logs how many |
| GitHubTracker.GitHubService.Terminate | addon/globalPlugins/web_services/services/github.py:80-81 | sets the loop's own quit flag |
| GitHubTracker.GitHubService.SaveConfig | addon/globalPlugins/web_services/services/github.py:104-116 | posts exactly "Configuration saved" |
| GitHubTracker.GitHubService.ResetOAuthState | addon/globalPlugins/web_services/services/github.py:359-365 | clears all five OAuth fields |
| GitHubTracker.GitHubService.SetMenuItems | addon/globalPlugins/web_services/services/github.py:663-664 | an unknown menu raises KeyError with no change; otherwise only that menu's items are replaced, and one MENU_UPDATE follows |
| GitHubTracker.GitHubService.UpdateSettingsMenu | addon/globalPlugins/web_services/services/github.py:611-664 | no settings menu means no change; otherwise its items become the settings rows for the current repositories and sign-in, and one MENU_UPDATE follows |
| GitHubTracker.GitHubService.UpdateRepoMenu | addon/globalPlugins/web_services/services/github.py:685-717 | a repository without a menu means no change; otherwise its menu's items become its pull-request rows, and one MENU_UPDATE follows |
| GitHubTracker.GitHubService.AddRepoMenu | addon/globalPlugins/web_services/services/github.py:671-673 | records the new menu id for the repository and an empty pull-request list |
| GitHubTracker.GitHubService.BuildRepoMenu | addon/globalPlugins/web_services/services/github.py:666-674 | a repository that already has a menu changes nothing; otherwise it gets a new menu showing "No open PRs"; existing menus are untouched |
| GitHubTracker.GitHubService.RemoveRepoMenu | addon/globalPlugins/web_services/services/github.py:676-683 | an unknown repository changes nothing; removing a live menu raises in the base's removeMenu, so the repository keeps its menu id and pull requests |
| GitHubTracker.GitHubService.BuildSettingsMenu | addon/globalPlugins/web_services/services/github.py:603-605 | the settings menu takes the next id, holds the settings rows, and two MENU_UPDATEs follow |
| GitHubTracker.GitHubService.BuildRepoMenus | addon/globalPlugins/web_services/services/github.py:607-609 | every configured repository gets a menu; existing repository menus and menus are kept |
| GitHubTracker.GitHubService.BuildMenus | addon/globalPlugins/web_services/services/github.py:601-609 | the settings menu comes first and shows the settings rows; then every configured repository has a menu |
| GitHubTracker.GitHubService.RefreshRepo | addon/globalPlugins/web_services/services/github.py:511-513 | stores the repository's fetched pull requests and shows them in its menu, or raises KeyError when that menu is gone |
| GitHubTracker.GitHubService.RefreshPRs | addon/globalPlugins/web_services/services/github.py:508-513 | records the refresh time; each configured repository gets its fetched pull requests, shown in its menu; only a removed repository menu raises |
| GitHubTracker.GitHubService.StartService | addon/globalPlugins/web_services/services/github.py:502-506 | logs the login, enables, posts READY, builds the menus and refreshes |
| GitHubTracker.GitHubService.InitializeService | addon/globalPlugins/web_services/services/github.py:490-506 | no token means no change; a rejected user notifies and clears the token; a non-dictionary user raises; otherwise the service starts |
| GitHubTracker.GitHubService.DeviceFlowFailed | addon/globalPlugins/web_services/services/github.py:287-292 | a failed device-code request is logged and the user told |
| GitHubTracker.GitHubService.StartOAuthDeviceFlow | addon/globalPlugins/web_services/services/github.py:238-292 | always announces the start; polling starts exactly when the answer is an object with a numeric (or absent) "expires_in" and both a device and a user code; the code is announced and the expiry set from "expires_in"; otherwise the user is told of the failure |
| GitHubTracker.GitHubService.AcceptDeviceCode | addon/globalPlugins/web_services/services/github.py:259-285 | stores the codes and interval from the answer; a non-numeric "expires_in" fails the flow; with a numeric expiry and both codes it sets the expiry, announces the user code and starts polling; with a numeric expiry and a code missing it reports the missing code |
| GitHubTracker.GitHubService.StoreToken | addon/globalPlugins/web_services/services/github.py:347-351 | stores the token, saves, resets the OAuth state and announces success |
| GitHubTracker.GitHubService.CompleteOAuth | addon/globalPlugins/web_services/services/github.py:345-352 | a granted token is kept if the user check accepts it and the service starts |
| GitHubTracker.GitHubService.EndOAuth | addon/globalPlugins/web_services/services/github.py:330-342 | expired, denied and other errors each post their message and reset the OAuth state |
| GitHubTracker.GitHubService.ApplyPollVerdict | addon/globalPlugins/web_services/services/github.py:321-357 | pending changes nothing; slow-down changes only the interval and logs it; a poll failure only logs; expiry, denial and errors reset; a grant stores the token |
| GitHubTracker.GitHubService.PollOAuthToken | addon/globalPlugins/web_services/services/github.py:294-357 | without polling or a device code nothing happens; an expired flow resets; otherwise the answer's verdict is applied |
| GitHubTracker.GitHubService.PollIfDue | addon/globalPlugins/web_services/services/github.py:469-473 | polls only once the interval has passed since the last poll, recording the time; a non-numeric interval raises |
| GitHubTracker.GitHubService.Execute | addon/globalPlugins/web_services/services/github.py:464-488 | while polling, only polling happens; without a token an unavailable service starts the device flow; with a token an unavailable service initializes; an available one refreshes only after 60 s |
| GitHubTracker.GitHubService.OnMenuGetItems | addon/globalPlugins/web_services/services/github.py:517-521 | a missing or unhashable "id" raises; a known id posts that menu's items; an unknown one posts nothing |
| GitHubTracker.GitHubService.RemoveRepository | addon/globalPlugins/web_services/services/github.py:543-550 | acts only for a configured repository: removes it, saves, and notifies; a live repository menu makes the base raise, and the repository keeps its menu id |
| GitHubTracker.GitHubService.SignOut | addon/globalPlugins/web_services/services/github.py:553-558 | clears the token, saves, disables, offers sign-in in the settings menu and notifies |
| GitHubTracker.GitHubService.ShowComments | addon/globalPlugins/web_services/services/github.py:806-843 | no comments only notify; otherwise the count is announced and the repository's menu shows the comment rows |
| GitHubTracker.GitHubService.ShowPRComments | addon/globalPlugins/web_services/services/github.py:774-843 | announces the number of comments and shows them sorted by date in the repository's menu, or says there are none |
| GitHubTracker.GitHubService.Announce | addon/globalPlugins/web_services/services/github.py:563-589 | opening and copying announce only with a URL; speaking a comment announces it only when present; other actions post nothing |
| GitHubTracker.GitHubService.RefreshAll | addon/globalPlugins/web_services/services/github.py:559-561 | refreshes every repository and then notifies "Refreshing PRs..." |
| GitHubTracker.GitHubService.PerformRowAction | addon/globalPlugins/web_services/services/github.py:563-589 | only viewComments changes a menu; with no comments it only says so; with comments it announces their count and, when the row's repository has a live menu, replaces that menu's items with the comment rows sorted by date; dialog actions post nothing; the others announce per the item's data |
| GitHubTracker.GitHubService.PerformListAction | addon/globalPlugins/web_services/services/github.py:559-589 | only refreshAll changes the pull requests and refresh time; dialog actions change nothing |
| GitHubTracker.GitHubService.PerformAccountAction | addon/globalPlugins/web_services/services/github.py:541-558 | removeRepo removes a configured repository; startOAuth starts the device flow; signOut clears the token and disables |
| GitHubTracker.GitHubService.PerformAction | addon/globalPlugins/web_services/services/github.py:540-589 | each action name has its effect; dialog actions and unknown names change nothing |
| GitHubTracker.GitHubService.OnMenuActivate | addon/globalPlugins/web_services/services/github.py:523-589 | non-dictionary arguments raise; an unknown or unhashable menu id and an item index outside the menu change nothing; otherwise the item's action is performed |

## Left out

- HTTP and the websocket: `_apiRequest`, `_fetchPRs`, `_fetchPRComments` and `_submitReview` become given results (`Network`, `HttpOutcome`). The side effects of HTTP 401, 403 and 404 answers inside `_apiRequest` are not modelled.
- `_fetchPRs` enrichment: pull requests arrive already carrying their approval and CI words (`PullRequest`). `GitHubStatus` states how those words are computed.
- Dialogs: adding a repository, approving or requesting changes, and the token dialog are not modelled; their actions change nothing in the model.
- The browser (`webbrowser.open`) and the clipboard (`api.copyToClip`, `_copyToClipboard`) are not modelled; only the notifications around them are.
- Configuration files: `_saveConfig` only posts its log line, and `_loadConfig` receives its result as a constructor parameter. A failure to load or save is not modelled.
- `Show` is Python's `str` for scalars, but renders any list as "[...]" and any dictionary as "{...}", unlike Python's repr; messages that interpolate a list or dictionary are not modelled character for character.
- Time: `time.time()` is an integer `now` parameter, and `time.sleep` is recorded in a `sleeps` list. Request ids come from a `clock` function.
- Floating point: numbers in JSON are integers.
- Threads and `queue.Queue` are `seq` fields. Only one instance is modelled, so the class-level attributes that all instances share are not.
- `_()` translation is the identity.
- The unused fields `_prDetails`, `_currentPR`, `_inDetailView`, `_pendingDialogType` and `_pendingDialogResult` are not modelled.
- `_updateRepoMenu` builds an item list (github.py:699-714) that it then discards. That dead loop is not modelled.
- Dispatch by `getattr`: a service's handler names are a set of strings, and the OBS handlers are an explicit match.
- `_showPRComments` does not use its `prNumber` parameter. The model takes the fetched comments instead.
- obs_control/events.py is not part of this model. The older base's event names and QUIT code are constructor parameters.
- `getScenesList` and `getStatus` of the older client are not separate members. `LegacyObsClient.LegacyObsService.OnIdentified` states the frames they send.
- netservice.py and the two `__init__.py` files are not part of this model.
- Runtime.Upper: upper-cases ASCII letters only. Python's `str.upper` also maps non-ASCII letters and can lengthen the text ("ß" becomes "SS"). GitHub's combined states ("error", "failure", "pending", "success") are ASCII, so `_getCIStatus` is not affected.
- ServiceActor.Service.AddMenu: the name is a string, so `if not name` is modelled for the empty name only; a `None` name is not expressible.
- ServiceActor.Service.PostMenuUpdate and ServiceActor.Service.PostMenuItemsList: the posted event holds a copy of the menu list or menu. Python posts the live list and dictionary, so the host would also see later changes to them; that aliasing is not modelled.
- ServiceActor.Service.Run and LegacyServiceActor.LegacyService.Run: the loop exit and the closing "thread exiting" log are not modelled. QUIT never sets the loop's flag, so the models cover any number of steps of a loop that has not ended.
- ObsClient.ObsService.ObsRequest, ObsClient.ObsService.OnHello, LegacyObsClient.LegacyObsService.ObsRequest and LegacyObsClient.LegacyObsService.OnHello: sending a frame always succeeds. In Python `self._socket.send` can raise on a dropped connection, and that exception would escape `execute` and make `run` stop calling it.
- GitHubStatus.GetApprovalStatus and GitHubMenus.CollectComments: a review's or comment's author is a string. Python reads `["user"]["login"]`, which raises TypeError when `user` is null (a deleted account) and aborts the status lookup or the comment listing; that error path is not modelled.
- ObsClient.ObsService.ApplyResponse: its contract states which part of the state each response type may change. The full effect of each type is stated by the members it calls (OnSceneList, OnSceneChanged, OnStreamStatus, OnRecordStatus).
- ObsClient.ObsService.HandleFrame: its contract states only the frames that are logged. Routed Hello, Identified and responses are stated by Dispatch and DispatchResponse.
- ObsClient.ObsService.DispatchResponse: states the logged exception for every raising response and that output is only appended. For responses that do not raise it does not restate the effects; OnResponse and ApplyResponse state those.
- ObsClient.ObsService.Receive: for a received frame, it states only that the connection and availability are kept.
- ObsClient.ObsService.Execute: after a successful connect it states only the connect logs as a prefix of the output.
- LegacyObsClient.LegacyObsService.DispatchResponse: states only that the events added are logs and that the status and menus are kept.
- GitHubTracker.GitHubService.BuildRepoMenus: states that every repository has a menu and that old menus are kept. It does not state the new menus' contents.
- GitHubTracker.GitHubService.BuildMenus: states the settings menu and that every repository has a menu. It does not state the repository menus' contents.
- GitHubTracker.GitHubService.RefreshPRs: when a removed menu raises, it does not state how far the refresh got.
- GitHubTracker.GitHubService.StartService: states the three opening events as a prefix of the output, not the events that follow them.
- GitHubTracker.GitHubService.InitializeService: when the service starts, it states the opening events only as a prefix of the output.
- GitHubTracker.GitHubService.CompleteOAuth: states the success events only as a prefix of the output.
- GitHubTracker.GitHubService.StartOAuthDeviceFlow: when no flow starts, it states only the last notification.
- GitHubTracker.GitHubService.PollIfDue: when a poll is due, it states only that the poll time is recorded while polling goes on. PollOAuthToken states the poll itself.
- GitHubTracker.GitHubService.Execute: states each scheduling branch by its main effect, not its full output.
- GitHubTracker.GitHubService.RemoveRepository: states the saved-configuration log as a prefix of the output, and the final notification only when nothing raised.
- GitHubTracker.GitHubService.ShowComments: when the repository has no menu, it states only that the menus are kept.
- GitHubTracker.GitHubService.PerformAction: states the main effect of each action. PerformAccountAction, PerformListAction and PerformRowAction state the rest.
- GitHubTracker.GitHubService.OnMenuActivate: for an item in range, it defers to PerformAction rather than restating each action.

=== FILE: events.dfy ===
/**
 * The event codes that travel on a service's two queues, and the names
 * `toString` gives them (web_services/events.py).
 */
module Events {
  import opened Runtime

  const QUIT := 0
  const DISCONNECTED := 1
  const LOG := 2
  const USER_NOTIFICATION := 3
  const READY := 4
  const MENU_UPDATE := 5
  const MENU_GET_ITEMS := 6
  const SERVICE_NEW := 7
  const SERVICE_DEL := 8

  /** The name table, `EVT_NAMES`. */
  const EVT_NAMES: map<int, string> := map[
    QUIT := "quit",
    DISCONNECTED := "disconnected",
    LOG := "log",
    USER_NOTIFICATION := "userNotification",
    READY := "ready",
    MENU_UPDATE := "menuUpdate",
    MENU_GET_ITEMS := "menuGetItems",
    SERVICE_NEW := "serviceNew",
    SERVICE_DEL := "serviceDel"
  ]

  const UNKNOWN_EVENT := "unknownEvent"

  /** A code defined in the table. */
  predicate Known(code: int) {
    QUIT <= code <= SERVICE_DEL
  }

  /** `toString(code)`: the table's name, or "unknownEvent" for any other code. */
  function ToString(code: int): (name: string)
    ensures name == UNKNOWN_EVENT <==> !Known(code)
    ensures Known(code) ==> name in EVT_NAMES.Values
  {
    if code in EVT_NAMES then EVT_NAMES[code] else UNKNOWN_EVENT
  }

  /** `toString(code)` for any Python value handed to it (a dict lookup with a default). */
  function ToStringValue(code: Value): (r: Result<string>)
    ensures code.Int? ==> r == Ok(ToString(code.i))
    ensures r.Err? <==> code.List? || code.Dict?
    ensures code.Str? || code.Null? ==> r == Ok(UNKNOWN_EVENT)
    ensures code.Bool? ==> r == Ok(ToString(if code.b then 1 else 0))
  {
    match IntKey(code)
    case Err(e) => Err(e)
    case Ok(Some(k)) => Ok(ToString(k))
    case Ok(None) => Ok(UNKNOWN_EVENT)
  }

  /** The table holds exactly the nine codes 0..8. */
  lemma TableDomain()
    ensures EVT_NAMES.Keys == {QUIT, DISCONNECTED, LOG, USER_NOTIFICATION, READY,
                               MENU_UPDATE, MENU_GET_ITEMS, SERVICE_NEW, SERVICE_DEL}
    ensures forall c :: c in EVT_NAMES <==> Known(c)
  {
  }

  /** Two defined codes with the same name are the same code: toString is injective on the table. */
  lemma ToStringInjective(c1: int, c2: int)
    requires Known(c1) && Known(c2)
    requires ToString(c1) == ToString(c2)
    ensures c1 == c2
  {
  }
}

=== FILE: github.dfy ===
/**
 * The GitHub PR tracker service (services/github.py): it keeps one menu per
 * configured repository listing its open pull requests, a settings menu,
 * and runs GitHub's OAuth device flow to obtain a token.
 *
 * HTTP is not modelled: each answer the service would wait for is an input
 * (`HttpOutcome` for the OAuth endpoints, `Network` for one `execute` call or
 * one menu activation). The configuration file, dialogs, the clipboard and
 * the browser are left out; saving the configuration posts its log line.
 */
module GitHubTracker {
  import opened Runtime
  import opened Messages
  import opened ServiceActor
  import opened GitHubStatus
  import opened GitHubMenus

  const SERVICE_DISPLAY_NAME := "GitHub PR Tracker"
  /** The service's `on_*` methods, its own two and the base's `on_menu_update`. */
  const HANDLERS: set<string> := {"on_menu_update", "on_menu_get_items", "on_menu_activate"}
  /** Seconds between two refreshes of the pull requests. */
  const REFRESH_INTERVAL := 60
  const DEFAULT_POLL_INTERVAL := 5
  const DEFAULT_EXPIRES_IN := 900

  /** The service's log lines and notifications. */
  const SETTINGS_MENU := "Settings"
  const CONFIG_LOADED := "Loaded config: {} repositories"
  const CONFIG_SAVED := "Configuration saved"
  const FLOW_STARTING := "Starting OAuth device flow"
  const FLOW_STARTING_NOTE := "Starting GitHub authentication..."
  const FLOW_FAILED := "Failed to start GitHub authentication"
  const DEVICE_CODE_FAILED := "OAuth device code request failed: {}"
  const DEVICE_CODE_HTTP_FAILED := "OAuth device code request failed: {} {}"
  const NO_DEVICE_CODE := "Failed to get device code from GitHub"
  const CODE_PREFIX := "Your code "
  const CODE_COPIED := " has been copied to the clipboard. Opening browser to authorize..."
  const POLLING_STARTED := "Device code obtained, polling for token (interval: {}s)"
  const POLL_FAILED := "OAuth token poll failed: {}"
  const POLL_HTTP_FAILED := "OAuth token poll failed: {} {}"
  const SLOWING_DOWN := "Slowing down OAuth polling to {}s"
  const EXPIRED_MESSAGE := "Authentication expired. Please try again."
  const DENIED_MESSAGE := "Authentication was denied."
  const OAUTH_ERROR := "OAuth error: {}"
  const AUTH_FAILED_PREFIX := "Authentication failed: "
  const OAUTH_DONE_NOTE := "GitHub authentication successful!"
  const OAUTH_DONE := "OAuth authentication completed successfully"
  const USER_REJECTED := "Failed to authenticate with GitHub"
  const AUTHENTICATED_AS := "Authenticated as {}"
  const REPO_REMOVED := "Repository removed: "
  const SIGNED_OUT := "Signed out from GitHub"
  const REFRESHING := "Refreshing PRs..."
  const OPENING := "Opening in browser"
  const LINK_COPIED := "Link copied"
  const NO_COMMENTS := "No comments on this PR"
  const COMMENTS_SUFFIX := " comments"

  /** Every field of the service and of its base, for statements that nothing changed. */
  datatype TrackerState = TrackerState(
    token: Value, repositories: seq<string>, prs: map<string, seq<PullRequest>>,
    settingsMenuId: Option<int>, repoMenuIds: map<string, int>, lastRefresh: int,
    deviceCode: Value, userCode: Value, pollInterval: Value, expiresAt: int, polling: bool, lastPoll: int,
    available: bool, menuId: int, menus: map<int, Menu>, menuList: seq<MenuEntry>, outqueue: seq<OutEvent>)

  /** The answer to an HTTP request: a decoded JSON body, an HTTP error, or another failure. */
  datatype HttpOutcome =
    | Answered(json: Value)
    | HttpError(code: int, reason: string)
    | TransportError(error: Exn)

  /**
   * What the network answers while one call runs: the OAuth endpoint, the
   * `/user` request (`None` when it failed), `_fetchPRs` for each
   * repository, and the two comment lists of a pull request.
   */
  datatype Network = Network(
    oauth: HttpOutcome,
    user: Option<Value>,
    pulls: string -> seq<PullRequest>,
    issueComments: seq<IssueComment>,
    reviewComments: seq<ReviewComment>)

  /** A value used as a number (`time.time() + v`, `now - last >= v`): ints and bools only. */
  function NumberOf(v: Value): Result<int> {
    match v
    case Int(i) => Ok(i)
    case Bool(b) => Ok(if b then 1 else 0)
    case _ => Err(TypeError("unsupported operand type(s)"))
  }

  /** How `v` behaves as the key of a dictionary keyed by strings. */
  function StrKey(v: Value): Result<Option<string>> {
    match v
    case Str(s) => Ok(Some(s))
    case List(_) => Err(TypeError("unhashable type: 'list'"))
    case Dict(_) => Err(TypeError("unhashable type: 'dict'"))
    case _ => Ok(None)
  }

  /** `str(v)` as a notification shows it; a list or dict shows only its kind. */
  function Show(v: Value): string {
    match v
    case Null => "None"
    case Bool(b) => if b then "True" else "False"
    case Int(i) => IntToString(i)
    case Str(s) => s
    case List(_) => "[...]"
    case Dict(_) => "{...}"
  }

  /**
   * `_prs` after `_refreshPRs` stored, in order, the pull requests of each
   * repository of `rs`: every one of them maps to its fetch, every other
   * entry is kept.
   */
  function FetchedPRs(prs: map<string, seq<PullRequest>>, rs: seq<string>, pulls: string -> seq<PullRequest>): (fetched: map<string, seq<PullRequest>>)
    ensures forall j :: 0 <= j < |rs| ==> rs[j] in fetched && fetched[rs[j]] == pulls(rs[j])
    ensures forall r :: r !in rs ==> (r in fetched <==> r in prs) && (r in prs ==> fetched[r] == prs[r])
  {
    if rs == [] then prs
    else
      var init := rs[..|rs| - 1];
      assert forall j :: 0 <= j < |rs| - 1 ==> rs[j] == init[j];
      assert forall r :: r in init ==> r in rs;
      FetchedPRs(prs, init, pulls)[rs[|rs| - 1] := pulls(rs[|rs| - 1])]
  }

  /** The menus after `_updateRepoMenu(repo)` lists `ps`, when the repository has a live menu. */
  function Rebuilt(menus: map<int, Menu>, ids: map<string, int>, repo: string, ps: seq<PullRequest>): map<int, Menu>
  {
    if repo in ids && ids[repo] in menus then menus[ids[repo] := Menu(menus[ids[repo]].name, PRItems(repo, ps))] else menus
  }

  /** The menus after rebuilding, in order, the menu of each repository of `rs`. */
  function ShownMenus(menus: map<int, Menu>, ids: map<string, int>, rs: seq<string>, pulls: string -> seq<PullRequest>): map<int, Menu>
  {
    if rs == [] then menus
    else Rebuilt(ShownMenus(menus, ids, rs[..|rs| - 1], pulls), ids, rs[|rs| - 1], pulls(rs[|rs| - 1]))
  }

  /** Refreshing one more repository extends both the stored lists and the shown menus by that repository. */
  lemma RefreshStep(prs: map<string, seq<PullRequest>>, menus: map<int, Menu>, ids: map<string, int>,
                    rs: seq<string>, k: int, pulls: string -> seq<PullRequest>)
    requires 0 <= k < |rs|
    ensures FetchedPRs(prs, rs[..k + 1], pulls) == FetchedPRs(prs, rs[..k], pulls)[rs[k] := pulls(rs[k])]
    ensures ShownMenus(menus, ids, rs[..k + 1], pulls) == Rebuilt(ShownMenus(menus, ids, rs[..k], pulls), ids, rs[k], pulls(rs[k]))
  {
    assert rs[..k + 1][..k] == rs[..k];
  }

  /** Writing a key twice leaves the second value. */
  lemma OverwriteTwice(m: map<int, Menu>, k: int, a: Menu, b: Menu)
    ensures m[k := a][k := b] == m[k := b]
  {
  }

  /** Menu ids of distinct repositories are distinct and were handed out by a counter now at `top`. */
  ghost predicate IdsIssued(ids: map<string, int>, top: int) {
    && (forall r :: r in ids ==> 1 <= ids[r] <= top)
    && (forall a, b :: a in ids && b in ids && ids[a] == ids[b] ==> a == b)
  }

  /** Recording the counter's next id for a new repository keeps the ids distinct. */
  lemma IssueNextId(ids: map<string, int>, top: int, repo: string)
    requires 0 <= top && IdsIssued(ids, top) && repo !in ids
    ensures IdsIssued(ids[repo := top + 1], top + 1)
  {
    var next := ids[repo := top + 1];
    forall r | r in next
      ensures 1 <= next[r] <= top + 1
    {
      if r != repo {
        assert next[r] == ids[r];
      }
    }
    forall a, b | a in next && b in next && a != b
      ensures next[a] != next[b]
    {
      if a == repo {
        assert next[b] == ids[b] <= top;
      } else if b == repo {
        assert next[a] == ids[a] <= top;
      } else {
        assert next[a] == ids[a] && next[b] == ids[b];
      }
    }
  }

  /** The repository's live menu lists `ps`. */
  ghost predicate MenuShows(ids: map<string, int>, menus: map<int, Menu>, repo: string, ps: seq<PullRequest>) {
    repo in ids && ids[repo] in menus ==> menus[ids[repo]].items == PRItems(repo, ps)
  }

  /**
   * With distinct menu ids, rebuilding keeps the set of menus, leaves every
   * menu that belongs to no repository (the settings menu) as it was, and
   * every rebuilt repository's live menu ends up listing its own pull
   * requests, whatever order the repositories come in.
   */
  lemma {:induction false} ShownMenusShow(menus: map<int, Menu>, ids: map<string, int>, rs: seq<string>, pulls: string -> seq<PullRequest>)
    requires forall a, b :: a in ids && b in ids && ids[a] == ids[b] ==> a == b
    ensures ShownMenus(menus, ids, rs, pulls).Keys == menus.Keys
    ensures forall id :: id in menus && id !in ids.Values ==> ShownMenus(menus, ids, rs, pulls)[id] == menus[id]
    ensures forall r :: r in rs ==> MenuShows(ids, ShownMenus(menus, ids, rs, pulls), r, pulls(r))
  {
    if rs != [] {
      var init := rs[..|rs| - 1];
      var last := rs[|rs| - 1];
      ShownMenusShow(menus, ids, init, pulls);
      forall r | r in rs
        ensures MenuShows(ids, ShownMenus(menus, ids, rs, pulls), r, pulls(r))
      {
        if r != last {
          assert r in init by {
            var i :| 0 <= i < |rs| && rs[i] == r;
            assert init[i] == r;
          }
          if r in ids && last in ids {
            assert ids[r] != ids[last];
          }
        }
      }
    }
  }

  /** `d.get(key)` on a dictionary: None when the key is missing. */
  function DataGet(d: map<string, Value>, key: string): Value {
    if key in d then d[key] else Null
  }

  /** The `action` names menu items carry, as `on_menu_activate` tells them apart. */
  datatype ItemAction =
    | DoAddRepo | DoRemoveRepo | DoStartOAuth | DoSignOut | DoRefreshAll
    | DoOpenPR | DoCopyLink | DoApprovePR | DoRequestChanges | DoViewComments | DoSpeakComment
    | NoAction

  function ActionOf(action: Option<string>): ItemAction {
    match action
    case None => NoAction
    case Some(name) =>
      if name == "addRepo" then DoAddRepo
      else if name == "removeRepo" then DoRemoveRepo
      else if name == "startOAuth" then DoStartOAuth
      else if name == "signOut" then DoSignOut
      else if name == "refreshAll" then DoRefreshAll
      else if name == "openPR" then DoOpenPR
      else if name == "copyLink" then DoCopyLink
      else if name == "approvePR" then DoApprovePR
      else if name == "requestChanges" then DoRequestChanges
      else if name == "viewComments" then DoViewComments
      else if name == "speakComment" then DoSpeakComment
      else NoAction
  }

  /** `_apiRequest("/user")` answered with a non-empty value. */
  predicate UserAccepted(user: Option<Value>) {
    user.Some? && Truthy(user.value)
  }

  /** The position of the first occurrence of `x`. */
  function FirstIndex(xs: seq<string>, x: string): (i: nat)
    requires x in xs
    ensures i < |xs| && xs[i] == x && x !in xs[..i]
  {
    if xs[0] == x then 0
    else
      var k := FirstIndex(xs[1..], x);
      assert xs[..k + 1] == [xs[0]] + xs[1..][..k];
      k + 1
  }

  /** `list.remove(x)`: drops the first occurrence and keeps the rest in order. */
  function RemoveFirst(xs: seq<string>, x: string): (ys: seq<string>)
    requires x in xs
    ensures |ys| == |xs| - 1
    ensures multiset(ys) == multiset(xs) - multiset{x}
    ensures exists i :: 0 <= i < |xs| && xs[i] == x && x !in xs[..i] && ys == xs[..i] + xs[i + 1..]
  {
    var i := FirstIndex(xs, x);
    assert xs == xs[..i] + [xs[i]] + xs[i + 1..];
    xs[..i] + xs[i + 1..]
  }

  /** What an answer of the token endpoint means to `_pollOAuthToken`. */
  datatype PollVerdict =
    | Pending
    | SlowDown(interval: Value)
    | Expired
    | Denied
    | OAuthFailure(error: Value)
    | Granted(token: Value)
    | NoToken
    | PollFailed(message: LogMessage)

  /** Whether the token endpoint answered with a JSON object. */
  predicate AnsweredObject(outcome: HttpOutcome) {
    outcome.Answered? && outcome.json.Dict?
  }

  /** `result.get(key)` on an object answer. */
  function AnswerField(outcome: HttpOutcome, key: string): Value
    requires AnsweredObject(outcome)
  {
    Get(outcome.json, key, Null).value
  }

  /** The `error` values `_pollOAuthToken` tests by name. */
  predicate NamedPollError(error: Value) {
    error == Str("authorization_pending") || error == Str("slow_down")
    || error == Str("expired_token") || error == Str("access_denied")
  }

  /**
   * The `error` field decides: authorization_pending, slow_down (the new
   * interval is the server's, else the old one plus 5), expired_token,
   * access_denied, any other non-empty error; without an error a non-empty
   * `access_token` is granted. A failed request, a body that is not an
   * object and a non-numeric old interval are caught and logged.
   */
  function ClassifyPoll(outcome: HttpOutcome, interval: Value): (v: PollVerdict)
    ensures v.Pending? <==> AnsweredObject(outcome) && AnswerField(outcome, "error") == Str("authorization_pending")
    ensures v.SlowDown? <==> AnsweredObject(outcome) && AnswerField(outcome, "error") == Str("slow_down") && NumberOf(interval).Ok?
    ensures v.SlowDown? ==> v.interval == Get(outcome.json, "interval", Int(NumberOf(interval).value + 5)).value
    ensures v.Expired? <==> AnsweredObject(outcome) && AnswerField(outcome, "error") == Str("expired_token")
    ensures v.Denied? <==> AnsweredObject(outcome) && AnswerField(outcome, "error") == Str("access_denied")
    ensures v.OAuthFailure? <==> AnsweredObject(outcome) && Truthy(AnswerField(outcome, "error"))
                                 && !NamedPollError(AnswerField(outcome, "error"))
    ensures v.OAuthFailure? ==> v.error == AnswerField(outcome, "error")
    ensures v.Granted? <==> AnsweredObject(outcome) && !Truthy(AnswerField(outcome, "error"))
                            && Truthy(AnswerField(outcome, "access_token"))
    ensures v.Granted? ==> v.token == AnswerField(outcome, "access_token")
    ensures v.NoToken? <==> AnsweredObject(outcome) && !Truthy(AnswerField(outcome, "error"))
                            && !Truthy(AnswerField(outcome, "access_token"))
    ensures v.PollFailed? <==> !AnsweredObject(outcome)
                               || (AnswerField(outcome, "error") == Str("slow_down") && NumberOf(interval).Err?)
  {
    match outcome
    case HttpError(code, reason) => PollFailed(Formatted(POLL_HTTP_FAILED, [Int(code), Str(reason)]))
    case TransportError(e) => PollFailed(Failed(POLL_FAILED, [], e))
    case Answered(result) =>
      match Get(result, "error", Null)
      case Err(e) => PollFailed(Failed(POLL_FAILED, [], e))
      case Ok(error) =>
        if error == Str("authorization_pending") then Pending
        else if error == Str("slow_down") then
          match NumberOf(interval)
          case Err(e) => PollFailed(Failed(POLL_FAILED, [], e))
          case Ok(n) => SlowDown(Get(result, "interval", Int(n + 5)).value)
        else if error == Str("expired_token") then Expired
        else if error == Str("access_denied") then Denied
        else if Truthy(error) then OAuthFailure(error)
        else
          var token := Get(result, "access_token", Null).value;
          if Truthy(token) then Granted(token) else NoToken
  }

  /** Whether a device-code answer starts polling: an object with a numeric expiry and both codes. */
  predicate DeviceFlowStarts(outcome: HttpOutcome) {
    && outcome.Answered? && outcome.json.Dict?
    && NumberOf(Get(outcome.json, "expires_in", Int(DEFAULT_EXPIRES_IN)).value).Ok?
    && Truthy(Get(outcome.json, "device_code", Null).value)
    && Truthy(Get(outcome.json, "user_code", Null).value)
  }

  class GitHubService {
    const base: Service

    /** `_token`: None until loaded, entered or granted. */
    var token: Value
    var repositories: seq<string>
    /** `_prs`: each repository's open pull requests. */
    var prs: map<string, seq<PullRequest>>
    var settingsMenuId: Option<int>
    var repoMenuIds: map<string, int>
    var lastRefresh: int
    /** The OAuth device flow: `_oauthDeviceCode`, `_oauthUserCode`, `_oauthPollInterval`, ... */
    var deviceCode: Value
    var userCode: Value
    var pollInterval: Value
    var expiresAt: int
    var polling: bool
    var lastPoll: int

    /**
     * The base's menu bookkeeping holds, and repository menus have distinct
     * ids handed out by the base's counter.
     */
    ghost predicate Valid()
      reads this`repoMenuIds, base`menuId, base`menus, base`menuList
    {
      && base.Valid() && base.Listed() && base.handlers == HANDLERS && base.hasExecute
      && IdsIssued(repoMenuIds, base.menuId)
    }

    /** The pull requests `_prs.get(repo, [])` gives. */
    function PRsOf(repo: string): seq<PullRequest>
      reads this`prs
    {
      if repo in prs then prs[repo] else []
    }

    /** `loaded` is the token and repository list of the configuration file, when there is one. */
    constructor (loaded: Option<(Value, seq<string>)>)
      ensures Valid() && fresh(base)
      ensures base.displayName == SERVICE_DISPLAY_NAME && base.name == "GitHub" && !base.available
      ensures loaded.None? ==> token == Null && repositories == [] && base.outqueue == []
      ensures loaded.Some? ==> token == loaded.value.0 && repositories == loaded.value.1
      ensures loaded.Some? ==> base.outqueue == [Log(Formatted(CONFIG_LOADED, [Int(|loaded.value.1|)]))]
      ensures prs == map[] && settingsMenuId == None && repoMenuIds == map[] && lastRefresh == 0
      ensures deviceCode == Null && userCode == Null && pollInterval == Int(DEFAULT_POLL_INTERVAL)
      ensures expiresAt == 0 && !polling && lastPoll == 0
      ensures base.menus == map[] && base.menuList == []
    {
      base := new Service(SERVICE_DISPLAY_NAME, "GitHub", "Service", HANDLERS, true);
      token := Null;
      repositories := [];
      prs := map[];
      settingsMenuId := None;
      repoMenuIds := map[];
      lastRefresh := 0;
      deviceCode := Null;
      userCode := Null;
      pollInterval := Int(DEFAULT_POLL_INTERVAL);
      expiresAt := 0;
      polling := false;
      lastPoll := 0;
      new;
      if loaded.Some? {
        token := loaded.value.0;
        repositories := loaded.value.1;
        base.PostLog(Formatted(CONFIG_LOADED, [Int(|loaded.value.1|)]));
      }
    }

    /** `terminate` sets the attribute the loop tests, so the loop ends. */
    method Terminate()
      modifies base`loopQuit
      ensures base.loopQuit
    {
      base.loopQuit := true;
    }

    method SaveConfig()
      modifies base`outqueue
      ensures base.outqueue == old(base.outqueue) + [Log(Text(CONFIG_SAVED))]
    {
      base.PostLog(Text(CONFIG_SAVED));
    }

    /** `_resetOAuthState` clears all five fields of the flow. */
    method ResetOAuthState()
      modifies this`deviceCode, this`userCode, this`polling, this`expiresAt, this`lastPoll
      ensures deviceCode == Null && userCode == Null && !polling && expiresAt == 0 && lastPoll == 0
    {
      deviceCode := Null;
      userCode := Null;
      polling := false;
      expiresAt := 0;
      lastPoll := 0;
    }

    /** Stores `items` in an existing menu, or raises KeyError, as `_menus[id]["items"] = items` does. */
    method SetMenuItems(id: int, items: seq<MenuItem>) returns (raised: Option<Exn>)
      requires Valid()
      modifies base`menus, base`outqueue
      ensures Valid()
      ensures id !in old(base.menus) ==> raised == Some(KeyError(Int(id))) && base.menus == old(base.menus) && base.outqueue == old(base.outqueue)
      ensures id in old(base.menus) ==>
                && raised == None
                && base.menus == old(base.menus)[id := Menu(old(base.menus)[id].name, items)]
                && base.outqueue == old(base.outqueue) + [MenuUpdate(base.menuList)]
    {
      if id !in base.menus {
        return Some(KeyError(Int(id)));
      }
      base.menus := base.menus[id := Menu(base.menus[id].name, items)];
      base.PostMenuUpdate();
      raised := None;
    }

    /** `_updateSettingsMenu`: nothing before the settings menu exists. */
    method UpdateSettingsMenu() returns (raised: Option<Exn>)
      requires Valid()
      modifies base`menus, base`outqueue
      ensures Valid()
      ensures settingsMenuId.None? ==> raised == None && base.menus == old(base.menus) && base.outqueue == old(base.outqueue)
      ensures settingsMenuId.Some? && settingsMenuId.value !in old(base.menus) ==>
                raised == Some(KeyError(Int(settingsMenuId.value))) && base.menus == old(base.menus) && base.outqueue == old(base.outqueue)
      ensures settingsMenuId.Some? && settingsMenuId.value in old(base.menus) ==>
                && raised == None
                && base.menus == old(base.menus)[settingsMenuId.value := Menu(old(base.menus)[settingsMenuId.value].name, SettingsItems(repositories, Truthy(token)))]
                && base.outqueue == old(base.outqueue) + [MenuUpdate(base.menuList)]
    {
      if settingsMenuId.None? {
        return None;
      }
      var items := BuildSettingsItems(repositories, Truthy(token));
      raised := SetMenuItems(settingsMenuId.value, items);
    }

    /** `_updateRepoMenu`: a repository without a menu is skipped. */
    method UpdateRepoMenu(repo: string) returns (raised: Option<Exn>)
      requires Valid()
      modifies base`menus, base`outqueue
      ensures Valid()
      ensures repo !in repoMenuIds ==> raised == None && base.menus == old(base.menus) && base.outqueue == old(base.outqueue)
      ensures repo in repoMenuIds && repoMenuIds[repo] !in old(base.menus) ==>
                raised == Some(KeyError(Int(repoMenuIds[repo]))) && base.menus == old(base.menus) && base.outqueue == old(base.outqueue)
      ensures repo in repoMenuIds && repoMenuIds[repo] in old(base.menus) ==>
                && raised == None
                && base.menus == old(base.menus)[repoMenuIds[repo] := Menu(old(base.menus)[repoMenuIds[repo]].name, PRItems(repo, PRsOf(repo)))]
                && base.outqueue == old(base.outqueue) + [MenuUpdate(base.menuList)]
    {
      if repo !in repoMenuIds {
        return None;
      }
      var items := BuildPRItems(repo, PRsOf(repo));
      raised := SetMenuItems(repoMenuIds[repo], items);
    }

    /** The first half of `_buildRepoMenu`: a fresh menu named after the repository, recorded with no pull requests. */
    method AddRepoMenu(repo: string) returns (id: int)
      requires Valid() && repo !in repoMenuIds
      modifies this`repoMenuIds, this`prs, base`menuId, base`menus, base`menuList, base`outqueue
      ensures Valid()
      ensures id == old(base.menuId) + 1 && base.menuId == id && id !in old(base.menus)
      ensures repoMenuIds == old(repoMenuIds)[repo := id] && prs == old(prs)[repo := []]
      ensures base.menus == old(base.menus)[id := Menu(repo, [])]
      ensures base.menuList == old(base.menuList) + [(id, repo)]
      ensures base.outqueue == old(base.outqueue)
                               + (if repo == "" then [Log(Formatted(INVALID_MENU_ARGS, [Str(repo), ItemsValue([])]))] else [])
                               + [MenuUpdate(base.menuList)]
    {
      IssueNextId(repoMenuIds, base.menuId, repo);
      id := base.AddMenu(repo, []);
      repoMenuIds := repoMenuIds[repo := id];
      prs := prs[repo := []];
    }

    /**
     * `_buildRepoMenu`: a repository that has a menu keeps it. Otherwise a
     * fresh menu named after it is added, recorded, and filled with the
     * "No open PRs" row, its pull requests reset to none.
     */
    method BuildRepoMenu(repo: string)
      requires Valid()
      modifies this`repoMenuIds, this`prs, base`menuId, base`menus, base`menuList, base`outqueue
      ensures Valid()
      ensures repo in old(repoMenuIds) ==>
                && repoMenuIds == old(repoMenuIds) && prs == old(prs) && base.menuId == old(base.menuId)
                && base.menus == old(base.menus) && base.menuList == old(base.menuList) && base.outqueue == old(base.outqueue)
      ensures repo !in old(repoMenuIds) ==>
                && base.menuId == old(base.menuId) + 1
                && repoMenuIds == old(repoMenuIds)[repo := base.menuId]
                && prs == old(prs)[repo := []]
                && base.menus == old(base.menus)[base.menuId := Menu(repo, [NO_OPEN_PRS])]
                && base.menuList == old(base.menuList) + [(base.menuId, repo)]
                && base.outqueue == old(base.outqueue)
                                    + (if repo == "" then [Log(Formatted(INVALID_MENU_ARGS, [Str(repo), ItemsValue([])]))] else [])
                                    + [MenuUpdate(base.menuList), MenuUpdate(base.menuList)]
      ensures old(base.outqueue) <= base.outqueue
      ensures forall id :: id in old(base.menus) ==> id in base.menus && base.menus[id] == old(base.menus)[id]
    {
      if repo in repoMenuIds {
        return;
      }
      ghost var menus0 := base.menus;
      var id := AddRepoMenu(repo);
      ghost var menus1 := base.menus;
      var raised := UpdateRepoMenu(repo);
      assert PRItems(repo, PRsOf(repo)) == [NO_OPEN_PRS];
      assert menus1[id := Menu(repo, [NO_OPEN_PRS])] == menus0[id := Menu(repo, [NO_OPEN_PRS])];
    }

    /**
     * `_removeRepoMenu`: a repository without a menu is skipped. For a live
     * menu the base's `removeMenu` drops it from the table and then raises,
     * so the repository keeps its (now stale) id and its pull requests; only
     * once the menu is gone does a call forget the repository.
     */
    method RemoveRepoMenu(repo: string) returns (raised: Option<Exn>)
      requires Valid()
      modifies this`repoMenuIds, this`prs, base`menus, base`outqueue
      ensures Valid()
      ensures repo !in old(repoMenuIds) ==>
                raised == None && repoMenuIds == old(repoMenuIds) && prs == old(prs)
                && base.menus == old(base.menus) && base.outqueue == old(base.outqueue)
      ensures repo in old(repoMenuIds) && old(repoMenuIds)[repo] in old(base.menus) ==>
                && raised == Some(ValueError(NOT_IN_LIST))
                && repoMenuIds == old(repoMenuIds) && prs == old(prs)
                && base.menus == old(base.menus) - {old(repoMenuIds)[repo]}
                && base.outqueue == old(base.outqueue) + [Log(Formatted(REMOVING_MENU, [Str(old(base.menus)[old(repoMenuIds)[repo]].name)]))]
      ensures repo in old(repoMenuIds) && old(repoMenuIds)[repo] !in old(base.menus) ==>
                raised == None && repoMenuIds == old(repoMenuIds) - {repo} && prs == old(prs) - {repo}
                && base.menus == old(base.menus) && base.outqueue == old(base.outqueue)
    {
      if repo !in repoMenuIds {
        return None;
      }
      var id := repoMenuIds[repo];
      if id in base.menus {
        base.RemovingAListedMenuFinds(id);
      }
      raised := base.RemoveMenu(id);
      if raised.Some? {
        return;
      }
      repoMenuIds := repoMenuIds - {repo};
      if repo in prs {
        prs := prs - {repo};
      }
    }

    /** The first half of `_buildMenus`: a new settings menu, filled from the configuration. */
    method BuildSettingsMenu()
      requires Valid()
      modifies this`settingsMenuId, base`menuId, base`menus, base`menuList, base`outqueue
      ensures Valid()
      ensures settingsMenuId == Some(old(base.menuId) + 1) && base.menuId == old(base.menuId) + 1
      ensures base.menus == old(base.menus)[settingsMenuId.value := Menu(SETTINGS_MENU, SettingsItems(repositories, Truthy(token)))]
      ensures base.menuList == old(base.menuList) + [(settingsMenuId.value, SETTINGS_MENU)]
      ensures base.outqueue == old(base.outqueue) + [MenuUpdate(base.menuList), MenuUpdate(base.menuList)]
    {
      ghost var menus0 := base.menus;
      assert SETTINGS_MENU[0] == 'S';
      var id := base.AddMenu(SETTINGS_MENU, []);
      settingsMenuId := Some(id);
      var raised := UpdateSettingsMenu();
      OverwriteTwice(menus0, id, Menu(SETTINGS_MENU, []), Menu(SETTINGS_MENU, SettingsItems(repositories, Truthy(token))));
    }

    /**
     * The second half of `_buildMenus`: every configured repository gets a
     * menu; repositories that had one keep it and menus that existed are
     * left as they were.
     */
    method BuildRepoMenus()
      requires Valid()
      modifies this`repoMenuIds, this`prs, base`menuId, base`menus, base`menuList, base`outqueue
      ensures Valid()
      ensures forall r :: r in repositories ==> r in repoMenuIds
      ensures forall r :: r in old(repoMenuIds) ==> r in repoMenuIds && repoMenuIds[r] == old(repoMenuIds)[r]
      ensures forall id :: id in old(base.menus) ==> id in base.menus && base.menus[id] == old(base.menus)[id]
      ensures old(base.outqueue) <= base.outqueue
    {
      for k := 0 to |repositories|
        invariant Valid()
        invariant forall j :: 0 <= j < k ==> repositories[j] in repoMenuIds
        invariant forall r :: r in old(repoMenuIds) ==> r in repoMenuIds && repoMenuIds[r] == old(repoMenuIds)[r]
        invariant forall id :: id in old(base.menus) ==> id in base.menus && base.menus[id] == old(base.menus)[id]
        invariant old(base.outqueue) <= base.outqueue
      {
        BuildRepoMenu(repositories[k]);
      }
    }

    /**
     * `_buildMenus`: a new settings menu, filled, then a menu for every
     * configured repository that has none; existing repository menus are
     * kept.
     */
    method BuildMenus()
      requires Valid()
      modifies this`settingsMenuId, this`repoMenuIds, this`prs, base`menuId, base`menus, base`menuList, base`outqueue
      ensures Valid()
      ensures settingsMenuId == Some(old(base.menuId) + 1)
      ensures settingsMenuId.value in base.menus
      ensures base.menus[settingsMenuId.value] == Menu(SETTINGS_MENU, SettingsItems(repositories, Truthy(token)))
      ensures forall r :: r in repositories ==> r in repoMenuIds
      ensures forall r :: r in old(repoMenuIds) ==> r in repoMenuIds && repoMenuIds[r] == old(repoMenuIds)[r]
      ensures old(base.outqueue) <= base.outqueue
    {
      BuildSettingsMenu();
      BuildRepoMenus();
    }

    /** One step of `_refreshPRs`: store the repository's pull requests and rebuild its menu. */
    method RefreshRepo(repo: string, pulls: string -> seq<PullRequest>) returns (raised: Option<Exn>)
      requires Valid()
      modifies this`prs, base`menus, base`outqueue
      ensures Valid()
      ensures prs == old(prs)[repo := pulls(repo)]
      ensures base.menus.Keys == old(base.menus).Keys && old(base.outqueue) <= base.outqueue
      ensures raised.None? ==> base.menus == Rebuilt(old(base.menus), repoMenuIds, repo, pulls(repo))
      ensures raised.Some? ==> repo in repoMenuIds && repoMenuIds[repo] !in base.menus && raised == Some(KeyError(Int(repoMenuIds[repo])))
    {
      prs := prs[repo := pulls(repo)];
      raised := UpdateRepoMenu(repo);
    }

    /**
     * `_refreshPRs`: each configured repository's pull requests are fetched
     * and its menu rebuilt, in order. A repository whose recorded menu is
     * gone stops the refresh with a KeyError.
     */
    method RefreshPRs(now: int, pulls: string -> seq<PullRequest>) returns (raised: Option<Exn>)
      requires Valid()
      modifies this`lastRefresh, this`prs, base`menus, base`outqueue
      ensures Valid() && lastRefresh == now
      ensures base.menus.Keys == old(base.menus).Keys && old(base.outqueue) <= base.outqueue
      ensures raised.None? ==> prs == FetchedPRs(old(prs), repositories, pulls)
      ensures raised.None? ==> base.menus == ShownMenus(old(base.menus), repoMenuIds, repositories, pulls)
      ensures raised.Some? ==> raised.value.KeyError? && raised.value.key.Int? && raised.value.key.i in repoMenuIds.Values && raised.value.key.i !in base.menus
    {
      lastRefresh := now;
      raised := None;
      ghost var prs0, menus0 := prs, base.menus;
      var k := 0;
      while k < |repositories| && raised.None?
        invariant 0 <= k <= |repositories|
        invariant Valid()
        invariant base.menus.Keys == old(base.menus).Keys && old(base.outqueue) <= base.outqueue
        invariant raised.None? ==> prs == FetchedPRs(old(prs), repositories[..k], pulls)
        invariant raised.None? ==> base.menus == ShownMenus(old(base.menus), repoMenuIds, repositories[..k], pulls)
        invariant raised.Some? ==> raised.value.KeyError? && raised.value.key.Int? && raised.value.key.i in repoMenuIds.Values && raised.value.key.i !in base.menus
        modifies this`prs, base`menus, base`outqueue
        decreases |repositories| - k
      {
        RefreshStep(prs0, menus0, repoMenuIds, repositories, k, pulls);
        raised := RefreshRepo(repositories[k], pulls);
        k := k + 1;
      }
      assert repositories[..|repositories|] == repositories;
    }

    /** The rest of `_initializeService` once the login is known: log, enable, READY, menus, refresh. */
    method StartService(now: int, login: Value, pulls: string -> seq<PullRequest>) returns (raised: Option<Exn>)
      requires Valid()
      modifies this`settingsMenuId, this`repoMenuIds, this`prs, this`lastRefresh
      modifies base`available, base`menuId, base`menus, base`menuList, base`outqueue
      ensures Valid()
      ensures base.available && lastRefresh == now
      ensures settingsMenuId == Some(old(base.menuId) + 1)
      ensures old(base.outqueue) + [Log(Formatted(AUTHENTICATED_AS, [login])), Log(Text(ENABLED)), Ready] <= base.outqueue
      ensures forall r :: r in repositories ==> r in repoMenuIds
      ensures raised.None? ==> forall j :: 0 <= j < |repositories| ==> repositories[j] in prs && prs[repositories[j]] == pulls(repositories[j])
    {
      base.PostLog(Formatted(AUTHENTICATED_AS, [login]));
      base.Enable();
      base.PostReady();
      ghost var posted := base.outqueue;
      BuildMenus();
      raised := RefreshPRs(now, pulls);
      assert posted <= base.outqueue;
    }

    /**
     * `_initializeService`: without a token nothing happens. A rejected
     * `/user` request drops the token; an accepted one logs the login,
     * enables the service, posts READY, builds the menus and refreshes.
     */
    method InitializeService(now: int, user: Option<Value>, pulls: string -> seq<PullRequest>) returns (raised: Option<Exn>)
      requires Valid()
      modifies this`token, this`settingsMenuId, this`repoMenuIds, this`prs, this`lastRefresh
      modifies base`available, base`menuId, base`menus, base`menuList, base`outqueue
      ensures Valid()
      ensures !Truthy(old(token)) ==>
                raised == None && token == old(token) && settingsMenuId == old(settingsMenuId)
                && base.available == old(base.available) && base.menus == old(base.menus) && base.outqueue == old(base.outqueue)
      ensures Truthy(old(token)) && !UserAccepted(user) ==>
                raised == None && token == Null && settingsMenuId == old(settingsMenuId)
                && base.available == old(base.available) && base.menus == old(base.menus)
                && base.outqueue == old(base.outqueue) + [UserNotification(USER_REJECTED)]
      ensures Truthy(old(token)) && UserAccepted(user) && !user.value.Dict? ==>
                raised == Some(AttributeError("get")) && token == old(token) && settingsMenuId == old(settingsMenuId)
                && base.available == old(base.available) && base.menus == old(base.menus) && base.outqueue == old(base.outqueue)
      ensures Truthy(old(token)) && UserAccepted(user) && user.value.Dict? ==>
                && token == old(token) && base.available && lastRefresh == now
                && settingsMenuId == Some(old(base.menuId) + 1)
                && old(base.outqueue) + [Log(Formatted(AUTHENTICATED_AS, [Get(user.value, "login", Str("unknown")).value])),
                                         Log(Text(ENABLED)), Ready] <= base.outqueue
                && (forall r :: r in repositories ==> r in repoMenuIds)
                && (raised.None? ==> forall j :: 0 <= j < |repositories| ==> repositories[j] in prs && prs[repositories[j]] == pulls(repositories[j]))
    {
      if !Truthy(token) {
        return None;
      }
      if !UserAccepted(user) {
        base.PostUserNotification(USER_REJECTED);
        token := Null;
        return None;
      }
      var login := Get(user.value, "login", Str("unknown"));
      if login.Err? {
        return Some(login.error);
      }
      raised := StartService(now, login.value, pulls);
    }

    ghost function State(): TrackerState
      reads this, base
    {
      TrackerState(token, repositories, prs, settingsMenuId, repoMenuIds, lastRefresh,
                   deviceCode, userCode, pollInterval, expiresAt, polling, lastPoll,
                   base.available, base.menuId, base.menus, base.menuList, base.outqueue)
    }

    /** The device flow is not running: the state `_resetOAuthState` leaves. */
    ghost predicate OAuthIdle()
      reads this`deviceCode, this`userCode, this`polling, this`expiresAt, this`lastPoll
    {
      deviceCode == Null && userCode == Null && !polling && expiresAt == 0 && lastPoll == 0
    }

    method DeviceFlowFailed(e: Exn)
      modifies base`outqueue
      ensures base.outqueue == old(base.outqueue) + [Log(Failed(DEVICE_CODE_FAILED, [], e)),
                                                      UserNotification(FLOW_FAILED)]
    {
      base.PostLog(Failed(DEVICE_CODE_FAILED, [], e));
      base.PostUserNotification(FLOW_FAILED);
    }

    /**
     * `_startOAuthDeviceFlow`: polling starts only when the device-code
     * answer is an object with a numeric expiry and both codes. The codes
     * and the interval are stored from any object answer, before the expiry
     * is computed.
     */
    method StartOAuthDeviceFlow(now: int, outcome: HttpOutcome)
      modifies this`deviceCode, this`userCode, this`pollInterval, this`expiresAt, this`polling, base`outqueue
      ensures polling == (old(polling) || DeviceFlowStarts(outcome))
      ensures old(base.outqueue) + [Log(Text(FLOW_STARTING)), UserNotification(FLOW_STARTING_NOTE)] <= base.outqueue
      ensures outcome.Answered? && outcome.json.Dict? ==>
                && deviceCode == Get(outcome.json, "device_code", Null).value
                && userCode == Get(outcome.json, "user_code", Null).value
                && pollInterval == Get(outcome.json, "interval", Int(DEFAULT_POLL_INTERVAL)).value
      ensures !(outcome.Answered? && outcome.json.Dict?) ==>
                deviceCode == old(deviceCode) && userCode == old(userCode) && pollInterval == old(pollInterval) && expiresAt == old(expiresAt)
      ensures DeviceFlowStarts(outcome) ==>
                && expiresAt == now + NumberOf(Get(outcome.json, "expires_in", Int(DEFAULT_EXPIRES_IN)).value).value
                && base.outqueue == old(base.outqueue)
                     + [Log(Text(FLOW_STARTING)), UserNotification(FLOW_STARTING_NOTE),
                        UserNotification(CODE_PREFIX + Show(userCode) + CODE_COPIED),
                        Log(Formatted(POLLING_STARTED, [pollInterval]))]
      ensures !DeviceFlowStarts(outcome) ==>
                base.outqueue[|base.outqueue| - 1] in {UserNotification(FLOW_FAILED),
                                                       UserNotification(NO_DEVICE_CODE)}
    {
      base.PostLog(Text(FLOW_STARTING));
      base.PostUserNotification(FLOW_STARTING_NOTE);
      match outcome {
        case HttpError(code, reason) =>
          base.PostLog(Formatted(DEVICE_CODE_HTTP_FAILED, [Int(code), Str(reason)]));
          base.PostUserNotification(FLOW_FAILED);
        case TransportError(e) =>
          DeviceFlowFailed(e);
        case Answered(result) =>
          if !result.Dict? {
            DeviceFlowFailed(Get(result, "device_code", Null).error);
            return;
          }
          AcceptDeviceCode(now, result);
      }
    }

    /** `_startOAuthDeviceFlow` once the device-code answer is an object. */
    method AcceptDeviceCode(now: int, result: Value)
      requires result.Dict?
      modifies this`deviceCode, this`userCode, this`pollInterval, this`expiresAt, this`polling, base`outqueue
      ensures polling == (old(polling) || DeviceFlowStarts(Answered(result)))
      ensures deviceCode == Get(result, "device_code", Null).value && userCode == Get(result, "user_code", Null).value
      ensures pollInterval == Get(result, "interval", Int(DEFAULT_POLL_INTERVAL)).value
      ensures DeviceFlowStarts(Answered(result)) ==>
                && expiresAt == now + NumberOf(Get(result, "expires_in", Int(DEFAULT_EXPIRES_IN)).value).value
                && base.outqueue == old(base.outqueue)
                     + [UserNotification(CODE_PREFIX + Show(userCode) + CODE_COPIED),
                        Log(Formatted(POLLING_STARTED, [pollInterval]))]
      ensures !DeviceFlowStarts(Answered(result)) ==>
                old(base.outqueue) < base.outqueue
                && base.outqueue[|base.outqueue| - 1] in {UserNotification(FLOW_FAILED),
                                                         UserNotification(NO_DEVICE_CODE)}
    {
      deviceCode := Get(result, "device_code", Null).value;
      userCode := Get(result, "user_code", Null).value;
      pollInterval := Get(result, "interval", Int(DEFAULT_POLL_INTERVAL)).value;
      var expiresIn := NumberOf(Get(result, "expires_in", Int(DEFAULT_EXPIRES_IN)).value);
      if expiresIn.Err? {
        DeviceFlowFailed(expiresIn.error);
        return;
      }
      expiresAt := now + expiresIn.value;
      if !Truthy(deviceCode) || !Truthy(userCode) {
        base.PostUserNotification(NO_DEVICE_CODE);
        return;
      }
      base.PostUserNotification(CODE_PREFIX + Show(userCode) + CODE_COPIED);
      polling := true;
      base.PostLog(Formatted(POLLING_STARTED, [pollInterval]));
    }

    /**
     * The success branch of `_pollOAuthToken`: store and save the token,
     * reset the flow, announce it, then `_initializeService`, whose
     * exception the poll's handler logs.
     */
    method StoreToken(tok: Value)
      modifies this`token, this`deviceCode, this`userCode, this`expiresAt, this`polling, this`lastPoll, base`outqueue
      ensures OAuthIdle() && token == tok
      ensures base.outqueue == old(base.outqueue) + [Log(Text(CONFIG_SAVED)), UserNotification(OAUTH_DONE_NOTE),
                                                      Log(Text(OAUTH_DONE))]
    {
      token := tok;
      SaveConfig();
      ResetOAuthState();
      base.PostUserNotification(OAUTH_DONE_NOTE);
      base.PostLog(Text(OAUTH_DONE));
    }

    method CompleteOAuth(tok: Value, now: int, user: Option<Value>, pulls: string -> seq<PullRequest>)
      requires Valid() && Truthy(tok)
      modifies this`token, this`deviceCode, this`userCode, this`expiresAt, this`polling, this`lastPoll
      modifies this`settingsMenuId, this`repoMenuIds, this`prs, this`lastRefresh
      modifies base`available, base`menuId, base`menus, base`menuList, base`outqueue
      ensures Valid() && OAuthIdle()
      ensures token == (if UserAccepted(user) then tok else Null)
      ensures UserAccepted(user) && user.value.Dict? ==> base.available && lastRefresh == now
      ensures old(base.outqueue) + [Log(Text(CONFIG_SAVED)), UserNotification(OAUTH_DONE_NOTE),
                                    Log(Text(OAUTH_DONE))] <= base.outqueue
    {
      StoreToken(tok);
      ghost var posted := base.outqueue;
      var raised := InitializeService(now, user, pulls);
      if raised.Some? {
        base.PostLog(Failed(POLL_FAILED, [], raised.value));
      }
      assert posted <= base.outqueue;
    }

    /** The verdicts that end the flow without a token: announce and reset. */
    method EndOAuth(v: PollVerdict)
      requires v.Expired? || v.Denied? || v.OAuthFailure?
      modifies this`deviceCode, this`userCode, this`expiresAt, this`polling, this`lastPoll, base`outqueue
      ensures OAuthIdle()
      ensures v.Expired? ==> base.outqueue == old(base.outqueue) + [UserNotification(EXPIRED_MESSAGE)]
      ensures v.Denied? ==> base.outqueue == old(base.outqueue) + [UserNotification(DENIED_MESSAGE)]
      ensures v.OAuthFailure? ==>
                base.outqueue == old(base.outqueue) + [Log(Formatted(OAUTH_ERROR, [v.error])),
                                                       UserNotification(AUTH_FAILED_PREFIX + Show(v.error))]
    {
      match v {
        case Expired =>
          base.PostUserNotification(EXPIRED_MESSAGE);
        case Denied =>
          base.PostUserNotification(DENIED_MESSAGE);
        case OAuthFailure(error) =>
          base.PostLog(Formatted(OAUTH_ERROR, [error]));
          base.PostUserNotification(AUTH_FAILED_PREFIX + Show(error));
      }
      ResetOAuthState();
    }

    /** What `_pollOAuthToken` does with the classified answer of the token endpoint. */
    method ApplyPollVerdict(v: PollVerdict, now: int, user: Option<Value>, pulls: string -> seq<PullRequest>)
      requires Valid()
      requires v.Granted? ==> Truthy(v.token)
      modifies this`token, this`deviceCode, this`userCode, this`pollInterval, this`expiresAt, this`polling, this`lastPoll
      modifies this`settingsMenuId, this`repoMenuIds, this`prs, this`lastRefresh
      modifies base`available, base`menuId, base`menus, base`menuList, base`outqueue
      ensures Valid()
      ensures v.Pending? || v.NoToken? ==> State() == old(State())
      ensures v.PollFailed? ==> State() == old(State()).(outqueue := old(base.outqueue) + [Log(v.message)])
      ensures v.SlowDown? ==>
                State() == old(State()).(pollInterval := v.interval,
                                         outqueue := old(base.outqueue) + [Log(Formatted(SLOWING_DOWN, [v.interval]))])
      ensures v.Expired? || v.Denied? || v.OAuthFailure? ==>
                OAuthIdle() && token == old(token) && pollInterval == old(pollInterval) && base.menus == old(base.menus)
      ensures v.Expired? ==> base.outqueue == old(base.outqueue) + [UserNotification(EXPIRED_MESSAGE)]
      ensures v.Denied? ==> base.outqueue == old(base.outqueue) + [UserNotification(DENIED_MESSAGE)]
      ensures v.OAuthFailure? ==>
                base.outqueue == old(base.outqueue) + [Log(Formatted(OAUTH_ERROR, [v.error])),
                                                       UserNotification(AUTH_FAILED_PREFIX + Show(v.error))]
      ensures v.Granted? ==> OAuthIdle() && token == (if UserAccepted(user) then v.token else Null)
    {
      match v {
        case Pending =>
        case NoToken =>
        case PollFailed(message) =>
          base.PostLog(message);
        case SlowDown(interval) =>
          pollInterval := interval;
          base.PostLog(Formatted(SLOWING_DOWN, [interval]));
        case Expired =>
          EndOAuth(v);
        case Denied =>
          EndOAuth(v);
        case OAuthFailure(error) =>
          EndOAuth(v);
        case Granted(tok) =>
          CompleteOAuth(tok, now, user, pulls);
      }
    }

    /**
     * `_pollOAuthToken`: nothing happens unless a flow with a device code is
     * running; an expired flow is reset; otherwise the endpoint's answer
     * decides. Every exception of the request and of the initialization
     * that follows a grant is caught and logged.
     */
    method PollOAuthToken(now: int, outcome: HttpOutcome, user: Option<Value>, pulls: string -> seq<PullRequest>)
      requires Valid()
      modifies this`token, this`deviceCode, this`userCode, this`pollInterval, this`expiresAt, this`polling, this`lastPoll
      modifies this`settingsMenuId, this`repoMenuIds, this`prs, this`lastRefresh
      modifies base`available, base`menuId, base`menus, base`menuList, base`outqueue
      ensures Valid()
      ensures !old(polling) || !Truthy(old(deviceCode)) ==> State() == old(State())
      ensures old(polling) && Truthy(old(deviceCode)) && now > old(expiresAt) ==>
                && OAuthIdle() && token == old(token) && pollInterval == old(pollInterval)
                && base.outqueue == old(base.outqueue) + [UserNotification(EXPIRED_MESSAGE)]
      ensures old(polling) && Truthy(old(deviceCode)) && now <= old(expiresAt) ==>
                var v := ClassifyPoll(outcome, old(pollInterval));
                && (v.Pending? ==> State() == old(State()))
                && (v.SlowDown? ==> polling && pollInterval == v.interval && token == old(token))
                && (v.Expired? || v.Denied? || v.OAuthFailure? ==> OAuthIdle() && token == old(token))
                && (v.Granted? ==> OAuthIdle() && token == (if UserAccepted(user) then v.token else Null))
      ensures polling ==> lastPoll == old(lastPoll)
    {
      if !polling || !Truthy(deviceCode) {
        return;
      }
      if now > expiresAt {
        base.PostUserNotification(EXPIRED_MESSAGE);
        ResetOAuthState();
        return;
      }
      ApplyPollVerdict(ClassifyPoll(outcome, pollInterval), now, user, pulls);
    }

    /** The polling branch of `execute`: poll when the interval has passed since the last poll. */
    method PollIfDue(now: int, net: Network) returns (raised: Option<Exn>)
      requires Valid()
      modifies this`token, this`deviceCode, this`userCode, this`pollInterval, this`expiresAt, this`polling, this`lastPoll
      modifies this`settingsMenuId, this`repoMenuIds, this`prs, this`lastRefresh
      modifies base`available, base`menuId, base`menus, base`menuList, base`outqueue
      ensures Valid()
      ensures NumberOf(old(pollInterval)).Err? ==> raised == Some(NumberOf(old(pollInterval)).error) && State() == old(State())
      ensures NumberOf(old(pollInterval)).Ok? && now - old(lastPoll) < NumberOf(old(pollInterval)).value ==>
                raised == None && State() == old(State())
      ensures NumberOf(old(pollInterval)).Ok? && now - old(lastPoll) >= NumberOf(old(pollInterval)).value ==>
                raised == None && (polling ==> lastPoll == now)
    {
      match NumberOf(pollInterval) {
        case Err(e) =>
          return Some(e);
        case Ok(interval) =>
          if now - lastPoll >= interval {
            lastPoll := now;
            PollOAuthToken(now, net.oauth, net.user, net.pulls);
          }
          return None;
      }
    }

    /**
     * `execute`: while the device flow runs only polling happens; without a
     * token the flow starts unless the service is available; a service not
     * yet available is initialized; otherwise the pull requests are
     * refreshed once the last refresh is more than a minute old.
     */
    method Execute(now: int, net: Network) returns (raised: Option<Exn>)
      requires Valid()
      modifies this`token, this`deviceCode, this`userCode, this`pollInterval, this`expiresAt, this`polling, this`lastPoll
      modifies this`settingsMenuId, this`repoMenuIds, this`prs, this`lastRefresh
      modifies base`available, base`menuId, base`menus, base`menuList, base`outqueue
      ensures Valid()
      ensures old(polling) && NumberOf(old(pollInterval)).Ok? && now - old(lastPoll) < NumberOf(old(pollInterval)).value ==>
                raised == None && State() == old(State())
      ensures old(polling) && NumberOf(old(pollInterval)).Ok? && now - old(lastPoll) >= NumberOf(old(pollInterval)).value ==>
                raised == None && (polling ==> lastPoll == now)
      ensures old(polling) && NumberOf(old(pollInterval)).Err? ==> raised.Some? && State() == old(State())
      ensures !old(polling) && !Truthy(old(token)) && old(base.available) ==> raised == None && State() == old(State())
      ensures !old(polling) && !Truthy(old(token)) && !old(base.available) ==>
                && raised == None && token == old(token) && (polling <==> DeviceFlowStarts(net.oauth))
                && old(base.outqueue) + [Log(Text(FLOW_STARTING)), UserNotification(FLOW_STARTING_NOTE)] <= base.outqueue
      ensures !old(polling) && Truthy(old(token)) && !old(base.available) ==>
                && !polling
                && (!UserAccepted(net.user) ==> raised == None && token == Null && !base.available)
                && (UserAccepted(net.user) && net.user.value.Dict? ==> token == old(token) && base.available && lastRefresh == now)
      ensures !old(polling) && Truthy(old(token)) && old(base.available) && now - old(lastRefresh) > REFRESH_INTERVAL ==>
                lastRefresh == now && token == old(token) && !polling
      ensures !old(polling) && Truthy(old(token)) && old(base.available) && now - old(lastRefresh) <= REFRESH_INTERVAL ==>
                raised == None && State() == old(State())
    {
      if polling {
        raised := PollIfDue(now, net);
        return;
      }
      if !Truthy(token) {
        if !base.available {
          StartOAuthDeviceFlow(now, net.oauth);
        }
        return None;
      }
      if !base.available {
        raised := InitializeService(now, net.user, net.pulls);
        return;
      }
      raised := None;
      if now - lastRefresh > REFRESH_INTERVAL {
        raised := RefreshPRs(now, net.pulls);
      }
    }

    /** `on_menu_get_items`: the items of a known menu are posted; an unknown id is ignored. */
    method OnMenuGetItems(args: Value) returns (raised: Option<Exn>)
      modifies base`outqueue
      ensures Index(args, "id").Err? ==> raised == Some(Index(args, "id").error) && base.outqueue == old(base.outqueue)
      ensures Index(args, "id").Ok? && IntKey(Index(args, "id").value).Err? ==>
                raised == Some(IntKey(Index(args, "id").value).error) && base.outqueue == old(base.outqueue)
      ensures Index(args, "id").Ok? && IntKey(Index(args, "id").value).Ok? ==>
                && raised == None
                && var key := IntKey(Index(args, "id").value).value;
                   base.outqueue == old(base.outqueue) + (if key.Some? && key.value in base.menus then [MenuItemsList(base.menus[key.value])] else [])
    {
      match Index(args, "id") {
        case Err(e) =>
          return Some(e);
        case Ok(id) =>
          match IntKey(id) {
            case Err(e) =>
              return Some(e);
            case Ok(key) =>
              if key.Some? && key.value in base.menus {
                base.PostMenuItemsList(base.menus[key.value]);
              }
              return None;
          }
      }
    }

    /**
     * `removeRepo`: only a configured repository is removed; the
     * configuration is saved, then its menu and the settings menu are
     * updated. A repository whose menu is live makes `_removeRepoMenu`
     * raise, so the settings menu is not updated and nothing is announced.
     */
    method RemoveRepository(repoV: Value) returns (raised: Option<Exn>)
      requires Valid()
      modifies this`repositories, this`repoMenuIds, this`prs, base`menus, base`outqueue
      ensures Valid()
      ensures !(repoV.Str? && repoV.s in old(repositories)) ==> raised == None && State() == old(State())
      ensures repoV.Str? && repoV.s in old(repositories) ==>
                && repositories == RemoveFirst(old(repositories), repoV.s)
                && old(base.outqueue) + [Log(Text(CONFIG_SAVED))] <= base.outqueue
                && (raised.None? ==> base.outqueue[|base.outqueue| - 1] == UserNotification(REPO_REMOVED + repoV.s))
      ensures repoV.Str? && repoV.s in old(repositories) && repoV.s in old(repoMenuIds) && old(repoMenuIds)[repoV.s] in old(base.menus) ==>
                raised == Some(ValueError(NOT_IN_LIST)) && repoMenuIds == old(repoMenuIds)
    {
      if !(repoV.Str? && repoV.s in repositories) {
        return None;
      }
      var repo := repoV.s;
      repositories := RemoveFirst(repositories, repo);
      SaveConfig();
      raised := RemoveRepoMenu(repo);
      if raised.Some? {
        return;
      }
      raised := UpdateSettingsMenu();
      if raised.Some? {
        return;
      }
      base.PostUserNotification(REPO_REMOVED + repo);
    }

    /** `signOut`: drop and save the token, disable, rebuild the settings menu, announce. */
    method SignOut() returns (raised: Option<Exn>)
      requires Valid()
      modifies this`token, base`available, base`menus, base`outqueue
      ensures Valid()
      ensures token == Null && !base.available
      ensures old(base.outqueue) + [Log(Text(CONFIG_SAVED)), Log(Text(DISABLED))] <= base.outqueue
      ensures raised.None? ==> base.outqueue[|base.outqueue| - 1] == UserNotification(SIGNED_OUT)
      ensures settingsMenuId.Some? && settingsMenuId.value in old(base.menus) ==>
                && raised == None
                && base.menus == old(base.menus)[settingsMenuId.value := Menu(old(base.menus)[settingsMenuId.value].name, SettingsItems(repositories, false))]
    {
      token := Null;
      SaveConfig();
      base.Disable();
      raised := UpdateSettingsMenu();
      if raised.Some? {
        return;
      }
      base.PostUserNotification(SIGNED_OUT);
    }

    /**
     * The second half of `_showPRComments`, given the sorted comments: the
     * count is announced and the rows replace the items of the repository's
     * menu behind a "Back to PR list" row; with no comments only that is
     * announced.
     */
    method ShowComments(repoV: Value, cs: seq<Comment>) returns (raised: Option<Exn>)
      requires Valid()
      modifies base`menus, base`outqueue
      ensures Valid()
      ensures cs == [] ==>
                raised == None && base.menus == old(base.menus) && base.outqueue == old(base.outqueue) + [UserNotification(NO_COMMENTS)]
      ensures cs != [] ==> old(base.outqueue) + [UserNotification(NatToString(|cs|) + COMMENTS_SUFFIX)] <= base.outqueue
      ensures cs != [] && StrKey(repoV).Err? ==> raised == Some(StrKey(repoV).error) && base.menus == old(base.menus)
      ensures cs != [] && !(repoV.Str? && repoV.s in repoMenuIds) ==> base.menus == old(base.menus)
      ensures cs != [] && repoV.Str? && repoV.s in repoMenuIds && repoMenuIds[repoV.s] in old(base.menus) ==>
                && raised == None
                && base.menus == old(base.menus)[repoMenuIds[repoV.s] := Menu(old(base.menus)[repoMenuIds[repoV.s]].name, CommentItems(cs))]
    {
      if |cs| == 0 {
        base.PostUserNotification(NO_COMMENTS);
        return None;
      }
      base.PostUserNotification(NatToString(|cs|) + COMMENTS_SUFFIX);
      match StrKey(repoV) {
        case Err(e) =>
          return Some(e);
        case Ok(key) =>
          if key.None? || key.value !in repoMenuIds {
            return None;
          }
          var items := BuildCommentItems(cs);
          raised := SetMenuItems(repoMenuIds[key.value], items);
      }
    }

    /**
     * `_showPRComments`: the pull request's comments, issue comments then
     * review comments, sorted by date, are shown in the repository's menu.
     */
    method ShowPRComments(repoV: Value, issue: seq<IssueComment>, review: seq<ReviewComment>) returns (raised: Option<Exn>)
      requires Valid()
      modifies base`menus, base`outqueue
      ensures Valid()
      ensures |issue| + |review| == 0 ==>
                raised == None && base.menus == old(base.menus) && base.outqueue == old(base.outqueue) + [UserNotification(NO_COMMENTS)]
      ensures |issue| + |review| > 0 ==>
                old(base.outqueue) + [UserNotification(NatToString(|issue| + |review|) + COMMENTS_SUFFIX)] <= base.outqueue
      ensures |issue| + |review| > 0 && repoV.Str? && repoV.s in repoMenuIds && repoMenuIds[repoV.s] in old(base.menus) ==>
                && raised == None
                && base.menus == old(base.menus)[repoMenuIds[repoV.s] := Menu(old(base.menus)[repoMenuIds[repoV.s]].name,
                                                                            CommentItems(SortByDate(CombinedComments(issue, review))))]
    {
      var all := CollectComments(issue, review);
      var sorted := SortByDate(all);
      SortByDateSorts(all);
      raised := ShowComments(repoV, sorted);
    }

    /** The actions of `on_menu_activate` that only announce something: open a link, copy it, speak a comment. */
    method Announce(action: ItemAction, data: map<string, Value>)
      modifies base`outqueue
      ensures action == DoOpenPR ==>
                base.outqueue == old(base.outqueue) + if Truthy(DataGet(data, "url")) then [UserNotification(OPENING)] else []
      ensures action == DoCopyLink ==>
                base.outqueue == old(base.outqueue) + if Truthy(DataGet(data, "url")) then [UserNotification(LINK_COPIED)] else []
      ensures action == DoSpeakComment ==>
                base.outqueue == old(base.outqueue) + if Truthy(DataGet(data, "comment")) then [UserNotification(Show(DataGet(data, "comment")))] else []
      ensures !(action.DoOpenPR? || action.DoCopyLink? || action.DoSpeakComment?) ==> base.outqueue == old(base.outqueue)
    {
      match action {
        case DoOpenPR =>
          if Truthy(DataGet(data, "url")) {
            base.PostUserNotification(OPENING);
          }
        case DoCopyLink =>
          if Truthy(DataGet(data, "url")) {
            base.PostUserNotification(LINK_COPIED);
          }
        case DoSpeakComment =>
          var comment := DataGet(data, "comment");
          if Truthy(comment) {
            base.PostUserNotification(Show(comment));
          }
        case _ =>
      }
    }

    /** `refreshAll`: refresh every repository, then announce it. */
    method RefreshAll(now: int, pulls: string -> seq<PullRequest>) returns (raised: Option<Exn>)
      requires Valid()
      modifies this`lastRefresh, this`prs, base`menus, base`outqueue
      ensures Valid() && lastRefresh == now
      ensures raised.None? ==>
                && prs == FetchedPRs(old(prs), repositories, pulls)
                && base.menus == ShownMenus(old(base.menus), repoMenuIds, repositories, pulls)
                && |base.outqueue| > 0 && base.outqueue[|base.outqueue| - 1] == UserNotification(REFRESHING)
    {
      raised := RefreshPRs(now, pulls);
      if raised.None? {
        base.PostUserNotification(REFRESHING);
      }
    }

    /**
     * The actions of `on_menu_activate` on a pull request's rows: show its
     * comments, or announce the link or comment. Reviewing a pull request
     * opens a dialog, which is not part of this model, and so does adding
     * a repository; those and an item without an action do nothing.
     */
    method PerformRowAction(action: ItemAction, data: map<string, Value>, net: Network) returns (raised: Option<Exn>)
      requires Valid()
      modifies base`menus, base`outqueue
      ensures Valid()
      ensures action != DoViewComments ==> raised == None && base.menus == old(base.menus)
      ensures action.DoAddRepo? || action.DoApprovePR? || action.DoRequestChanges? || action.NoAction? ==> base.outqueue == old(base.outqueue)
      ensures action == DoOpenPR && Truthy(DataGet(data, "url")) ==> base.outqueue == old(base.outqueue) + [UserNotification(OPENING)]
      ensures action == DoCopyLink && Truthy(DataGet(data, "url")) ==> base.outqueue == old(base.outqueue) + [UserNotification(LINK_COPIED)]
      ensures action == DoSpeakComment && Truthy(DataGet(data, "comment")) ==>
                base.outqueue == old(base.outqueue) + [UserNotification(Show(DataGet(data, "comment")))]
      ensures action == DoViewComments && |net.issueComments| + |net.reviewComments| == 0 ==>
                raised == None && base.menus == old(base.menus) && base.outqueue == old(base.outqueue) + [UserNotification(NO_COMMENTS)]
      ensures action == DoViewComments && |net.issueComments| + |net.reviewComments| > 0 ==>
                old(base.outqueue) + [UserNotification(NatToString(|net.issueComments| + |net.reviewComments|) + COMMENTS_SUFFIX)] <= base.outqueue
      ensures action == DoViewComments && |net.issueComments| + |net.reviewComments| > 0
              && DataGet(data, "repo").Str? && DataGet(data, "repo").s in repoMenuIds && repoMenuIds[DataGet(data, "repo").s] in old(base.menus) ==>
                && raised == None
                && base.menus == old(base.menus)[repoMenuIds[DataGet(data, "repo").s] :=
                     Menu(old(base.menus)[repoMenuIds[DataGet(data, "repo").s]].name,
                          CommentItems(SortByDate(CombinedComments(net.issueComments, net.reviewComments))))]
    {
      if action == DoViewComments {
        raised := ShowPRComments(DataGet(data, "repo"), net.issueComments, net.reviewComments);
      } else {
        Announce(action, data);
        raised := None;
      }
    }

    /** `refreshAll`, from the settings menu or a "Back to PR list" row, and the rest through `PerformRowAction`. */
    method PerformListAction(now: int, action: ItemAction, data: map<string, Value>, net: Network) returns (raised: Option<Exn>)
      requires Valid()
      modifies this`prs, this`lastRefresh, base`menus, base`outqueue
      ensures Valid()
      ensures action == DoRefreshAll ==> lastRefresh == now && (raised.None? ==> prs == FetchedPRs(old(prs), repositories, net.pulls))
      ensures action != DoRefreshAll ==> lastRefresh == old(lastRefresh) && prs == old(prs)
      ensures action.DoAddRepo? || action.DoApprovePR? || action.DoRequestChanges? || action.NoAction? ==>
                raised == None && base.menus == old(base.menus) && base.outqueue == old(base.outqueue)
    {
      if action == DoRefreshAll {
        raised := RefreshAll(now, net.pulls);
      } else {
        raised := PerformRowAction(action, data, net);
      }
    }

    /** The account actions of `on_menu_activate`: remove a repository, sign in, sign out. */
    method PerformAccountAction(now: int, action: ItemAction, data: map<string, Value>, net: Network) returns (raised: Option<Exn>)
      requires Valid()
      requires action.DoRemoveRepo? || action.DoStartOAuth? || action.DoSignOut?
      modifies this`token, this`repositories, this`deviceCode, this`userCode, this`pollInterval, this`expiresAt, this`polling
      modifies this`repoMenuIds, this`prs, base`available, base`menus, base`outqueue
      ensures Valid()
      ensures action == DoRemoveRepo ==>
                repositories == (if DataGet(data, "repo").Str? && DataGet(data, "repo").s in old(repositories)
                                 then RemoveFirst(old(repositories), DataGet(data, "repo").s) else old(repositories))
      ensures action == DoStartOAuth ==> polling == (old(polling) || DeviceFlowStarts(net.oauth)) && token == old(token)
      ensures action == DoSignOut ==> token == Null && !base.available
    {
      if action == DoRemoveRepo {
        raised := RemoveRepository(DataGet(data, "repo"));
      } else if action == DoStartOAuth {
        StartOAuthDeviceFlow(now, net.oauth);
        raised := None;
      } else {
        raised := SignOut();
      }
    }

    /** The actions of `on_menu_activate`, told apart by the item's `action`. */
    method PerformAction(now: int, action: ItemAction, data: map<string, Value>, net: Network) returns (raised: Option<Exn>)
      requires Valid()
      modifies this`token, this`repositories, this`deviceCode, this`userCode, this`pollInterval, this`expiresAt, this`polling
      modifies this`repoMenuIds, this`prs, this`lastRefresh
      modifies base`available, base`menus, base`outqueue
      ensures Valid()
      ensures action.DoAddRepo? || action.DoApprovePR? || action.DoRequestChanges? || action.NoAction? ==>
                raised == None && State() == old(State())
      ensures action == DoRemoveRepo ==>
                repositories == (if DataGet(data, "repo").Str? && DataGet(data, "repo").s in old(repositories)
                                 then RemoveFirst(old(repositories), DataGet(data, "repo").s) else old(repositories))
      ensures action == DoStartOAuth ==> polling == (old(polling) || DeviceFlowStarts(net.oauth)) && token == old(token)
      ensures action == DoSignOut ==> token == Null && !base.available
      ensures action == DoRefreshAll ==> lastRefresh == now && (raised.None? ==> prs == FetchedPRs(old(prs), repositories, net.pulls))
    {
      if action.DoRemoveRepo? || action.DoStartOAuth? || action.DoSignOut? {
        raised := PerformAccountAction(now, action, data, net);
      } else {
        raised := PerformListAction(now, action, data, net);
      }
    }

    /**
     * `on_menu_activate`: an unknown menu id or an index outside the menu's
     * items does nothing; otherwise the chosen item's action runs with its
     * `actionData` (none for a separator).
     */
    method OnMenuActivate(now: int, args: Value, net: Network) returns (raised: Option<Exn>)
      requires Valid()
      modifies this`token, this`repositories, this`deviceCode, this`userCode, this`pollInterval, this`expiresAt, this`polling
      modifies this`repoMenuIds, this`prs, this`lastRefresh
      modifies base`available, base`menus, base`outqueue
      ensures Valid()
      ensures !args.Dict? ==> raised == Some(AttributeError("get")) && State() == old(State())
      ensures args.Dict? && IntKey(DataGet(args.entries, "menuId")).Err? ==> raised.Some? && State() == old(State())
      ensures args.Dict? && IntKey(DataGet(args.entries, "menuId")) == Ok(None) ==> raised == None && State() == old(State())
      ensures (args.Dict? && IntKey(DataGet(args.entries, "menuId")).Ok? && IntKey(DataGet(args.entries, "menuId")).value.Some?
               && IntKey(DataGet(args.entries, "menuId")).value.value !in old(base.menus)) ==> raised == None && State() == old(State())
      ensures (args.Dict? && IntKey(DataGet(args.entries, "menuId")).Ok? && IntKey(DataGet(args.entries, "menuId")).value.Some?
               && IntKey(DataGet(args.entries, "menuId")).value.value in old(base.menus)
               && NumberOf(DataGet(args.entries, "itemIdx")).Ok?
               && !(0 <= NumberOf(DataGet(args.entries, "itemIdx")).value < |old(base.menus)[IntKey(DataGet(args.entries, "menuId")).value.value].items|)) ==>
                raised == None && State() == old(State())
    {
      if !args.Dict? {
        return Some(AttributeError("get"));
      }
      var menuId := DataGet(args.entries, "menuId");
      var itemIdx := DataGet(args.entries, "itemIdx");
      match IntKey(menuId) {
        case Err(e) =>
          return Some(e);
        case Ok(key) =>
          if key.None? || key.value !in base.menus {
            return None;
          }
          var items := base.menus[key.value].items;
          match NumberOf(itemIdx) {
            case Err(e) =>
              return Some(e);
            case Ok(idx) =>
              if idx < 0 || idx >= |items| {
                return None;
              }
              var item := items[idx];
              raised := PerformAction(now, ActionOf(item.action), item.actionData.GetOr(map[]), net);
          }
      }
    }
  }
}

=== FILE: github_menus.dfy ===
/**
 * The menus the GitHub PR tracker builds: the settings menu, the rows of a
 * repository's open pull requests, and the temporary list of a pull
 * request's comments.
 */
module GitHubMenus {
  import opened Runtime
  import opened Messages
  import opened GitHubStatus

  // ---------------------------------------------------------------- settings

  const ADD_REPO := MenuItem("Add repository", Some("addRepo"), Some(map[]))
  /** A separator row: its dictionary has no "actionData" key. */
  const SEPARATOR := MenuItem("---", None, None)
  const SIGN_OUT := MenuItem("Sign out", Some("signOut"), Some(map[]))
  const REAUTHENTICATE := MenuItem("Re-authenticate with GitHub", Some("startOAuth"), Some(map[]))
  const SIGN_IN := MenuItem("Sign in with GitHub", Some("startOAuth"), Some(map[]))
  const REFRESH_ALL := MenuItem("Refresh all", Some("refreshAll"), Some(map[]))

  function RemoveRepoItem(repo: string): MenuItem {
    MenuItem("Remove " + repo, Some("removeRepo"), Some(map["repo" := Str(repo)]))
  }

  /**
   * The rows of the settings menu: "Add repository"; a separator and one
   * removal row per configured repository, only when there are any; a
   * separator; sign-out and re-authentication when a token is held, sign-in
   * otherwise; "Refresh all" last.
   */
  function SettingsItems(repos: seq<string>, signedIn: bool): (items: seq<MenuItem>)
    ensures |items| == (if repos == [] then 0 else 1 + |repos|) + (if signedIn then 5 else 4)
    ensures items[0] == ADD_REPO && items[|items| - 1] == REFRESH_ALL
  {
    [ADD_REPO]
    + (if repos == [] then [] else [SEPARATOR] + seq(|repos|, i requires 0 <= i < |repos| => RemoveRepoItem(repos[i])))
    + [SEPARATOR]
    + (if signedIn then [SIGN_OUT, REAUTHENTICATE] else [SIGN_IN])
    + [REFRESH_ALL]
  }

  lemma RemoveRepoItemInjective(a: string, b: string)
    requires RemoveRepoItem(a) == RemoveRepoItem(b)
    ensures a == b
  {
    assert a == RemoveRepoItem(a).name[7..];
    assert b == RemoveRepoItem(b).name[7..];
  }

  /** The removal rows sit after "Add repository" and a separator, one per configured repository, in order. */
  lemma SettingsRemovalRows(repos: seq<string>, signedIn: bool)
    ensures forall i :: 0 <= i < |repos| ==> SettingsItems(repos, signedIn)[2 + i] == RemoveRepoItem(repos[i])
    ensures forall i :: 0 <= i < |SettingsItems(repos, signedIn)| && SettingsItems(repos, signedIn)[i].action == Some("removeRepo") ==>
              2 <= i < 2 + |repos|
  {
    var items := SettingsItems(repos, signedIn);
    var removals := seq(|repos|, i requires 0 <= i < |repos| => RemoveRepoItem(repos[i]));
    var head := [ADD_REPO] + (if repos == [] then [] else [SEPARATOR] + removals);
    var tail := [SEPARATOR] + (if signedIn then [SIGN_OUT, REAUTHENTICATE] else [SIGN_IN]) + [REFRESH_ALL];
    assert items == head + tail;
    assert forall i :: |head| <= i < |items| ==> items[i] == tail[i - |head|];
  }

  /** The settings menu offers to remove exactly the configured repositories. */
  lemma SettingsOffersRemoval(repos: seq<string>, signedIn: bool, repo: string)
    ensures (exists i :: 0 <= i < |SettingsItems(repos, signedIn)| && SettingsItems(repos, signedIn)[i] == RemoveRepoItem(repo)) <==> repo in repos
  {
    var items := SettingsItems(repos, signedIn);
    SettingsRemovalRows(repos, signedIn);
    if repo in repos {
      var k :| 0 <= k < |repos| && repos[k] == repo;
      assert items[2 + k] == RemoveRepoItem(repo);
    }
    if exists i :: 0 <= i < |items| && items[i] == RemoveRepoItem(repo) {
      var i :| 0 <= i < |items| && items[i] == RemoveRepoItem(repo);
      RemoveRepoItemInjective(repos[i - 2], repo);
    }
  }

  /**
   * The one row starting the sign-in flow is second to last; the one
   * sign-out row, present exactly when signed in, comes just before it.
   */
  lemma SettingsSignInRows(repos: seq<string>, signedIn: bool)
    ensures var items := SettingsItems(repos, signedIn);
      && items[|items| - 2].action == Some("startOAuth")
      && (forall i :: 0 <= i < |items| && items[i].action == Some("startOAuth") ==> i == |items| - 2)
      && (signedIn ==> items[|items| - 3] == SIGN_OUT)
      && (forall i :: 0 <= i < |items| && items[i].action == Some("signOut") ==> signedIn && i == |items| - 3)
  {
    var items := SettingsItems(repos, signedIn);
    var removals := seq(|repos|, i requires 0 <= i < |repos| => RemoveRepoItem(repos[i]));
    var head := [ADD_REPO] + (if repos == [] then [] else [SEPARATOR] + removals);
    var tail := [SEPARATOR] + (if signedIn then [SIGN_OUT, REAUTHENTICATE] else [SIGN_IN]) + [REFRESH_ALL];
    assert items == head + tail;
    assert forall i :: 0 <= i < |head| ==> items[i] == head[i];
    assert forall i :: 0 <= i < |head| ==> head[i].action != Some("startOAuth") && head[i].action != Some("signOut");
    assert forall i :: |head| <= i < |items| ==> items[i] == tail[i - |head|];
  }

  /** The list `_updateSettingsMenu` builds row by row. */
  method BuildSettingsItems(repos: seq<string>, signedIn: bool) returns (items: seq<MenuItem>)
    ensures items == SettingsItems(repos, signedIn)
  {
    items := [ADD_REPO];
    if repos != [] {
      items := items + [SEPARATOR];
      for k := 0 to |repos|
        invariant items == [ADD_REPO, SEPARATOR] + seq(k, i requires 0 <= i < k => RemoveRepoItem(repos[i]))
      {
        items := items + [RemoveRepoItem(repos[k])];
      }
    }
    items := items + [SEPARATOR];
    if signedIn {
      items := items + [SIGN_OUT];
      items := items + [REAUTHENTICATE];
    } else {
      items := items + [SIGN_IN];
    }
    items := items + [REFRESH_ALL];
  }

  // ------------------------------------------------------------ pull requests

  /** A pull request as `_fetchPRs` enriches it: the fields the menus use. */
  datatype PullRequest = PullRequest(
    number: int, title: string, author: string, url: string,
    approvalStatus: string, ciStatus: string, draft: bool)

  /** The single row of a repository without open pull requests. */
  const NO_OPEN_PRS := MenuItem("No open PRs", None, Some(map[]))

  /** The actions of the six rows each pull request gets, in order. */
  const PR_ACTIONS: seq<string> := ["openPR", "openPR", "copyLink", "approvePR", "requestChanges", "viewComments"]

  /** The header: draft mark, approval and CI indicators, number, title and author. */
  function PRLabel(pr: PullRequest): string {
    (if pr.draft then "[Draft] " else "") + ApprovalIndicator(pr.approvalStatus) + CIIndicator(pr.ciStatus)
    + " #" + IntToString(pr.number) + ": " + pr.title + " (" + pr.author + ")"
  }

  /**
   * A pull request's rows: the header and the indented actions. The two
   * browser rows and the copy row carry its URL; the review and comment
   * rows carry the repository and its number.
   */
  function PREntries(repo: string, pr: PullRequest): (items: seq<MenuItem>)
    ensures |items| == 6
  {
    var url := Some(map["url" := Str(pr.url)]);
    var ref := Some(map["repo" := Str(repo), "prNumber" := Int(pr.number)]);
    [MenuItem(PRLabel(pr), Some("openPR"), url),
     MenuItem("  Open in browser", Some("openPR"), url),
     MenuItem("  Copy link", Some("copyLink"), url),
     MenuItem("  Approve", Some("approvePR"), ref),
     MenuItem("  Request changes", Some("requestChanges"), ref),
     MenuItem("  View comments", Some("viewComments"), ref)]
  }

  /**
   * The rows of one pull request: the header first, the actions in the order
   * of PR_ACTIONS, the URL on the browser and copy rows, the repository and
   * number on the review and comment rows.
   */
  lemma PREntriesRows(repo: string, pr: PullRequest)
    ensures PREntries(repo, pr)[0].name == PRLabel(pr)
    ensures forall k :: 0 <= k < 6 ==> PREntries(repo, pr)[k].action == Some(PR_ACTIONS[k])
    ensures forall k :: 0 <= k < 3 ==> PREntries(repo, pr)[k].actionData == Some(map["url" := Str(pr.url)])
    ensures forall k :: 3 <= k < 6 ==> PREntries(repo, pr)[k].actionData == Some(map["repo" := Str(repo), "prNumber" := Int(pr.number)])
  {
  }

  /** The blocks one after another. */
  function Flatten<T>(blocks: seq<seq<T>>): seq<T> {
    if blocks == [] then [] else Flatten(blocks[..|blocks| - 1]) + blocks[|blocks| - 1]
  }

  /** Blocks of six elements each stay where they were put. */
  lemma {:induction false} FlattenSixes<T>(blocks: seq<seq<T>>)
    requires forall i :: 0 <= i < |blocks| ==> |blocks[i]| == 6
    ensures |Flatten(blocks)| == 6 * |blocks|
    ensures forall i :: 0 <= i < |blocks| ==> Flatten(blocks)[6 * i .. 6 * i + 6] == blocks[i]
  {
    if blocks != [] {
      var n := |blocks| - 1;
      FlattenSixes(blocks[..n]);
      var before := Flatten(blocks[..n]);
      var all := Flatten(blocks);
      assert all == before + blocks[n];
      forall i | 0 <= i < |blocks| ensures all[6 * i .. 6 * i + 6] == blocks[i] {
        if i < n {
          assert all[6 * i .. 6 * i + 6] == before[6 * i .. 6 * i + 6];
          assert blocks[..n][i] == blocks[i];
        }
      }
    }
  }

  /** Each pull request's rows, one block per pull request. */
  function PRBlocks(repo: string, prs: seq<PullRequest>): (blocks: seq<seq<MenuItem>>)
    ensures |blocks| == |prs| && forall i :: 0 <= i < |prs| ==> blocks[i] == PREntries(repo, prs[i])
  {
    seq(|prs|, i requires 0 <= i < |prs| => PREntries(repo, prs[i]))
  }

  /** Every pull request's rows, in order. */
  function AllPREntries(repo: string, prs: seq<PullRequest>): seq<MenuItem> {
    if prs == [] then [] else AllPREntries(repo, prs[..|prs| - 1]) + PREntries(repo, prs[|prs| - 1])
  }

  lemma {:induction false} AllPREntriesFlatten(repo: string, prs: seq<PullRequest>)
    ensures AllPREntries(repo, prs) == Flatten(PRBlocks(repo, prs))
  {
    if prs != [] {
      var n := |prs| - 1;
      AllPREntriesFlatten(repo, prs[..n]);
      assert PRBlocks(repo, prs)[..n] == PRBlocks(repo, prs[..n]);
    }
  }

  /** `_buildPRItems` as a value. */
  function PRItems(repo: string, prs: seq<PullRequest>): seq<MenuItem> {
    if prs == [] then [NO_OPEN_PRS] else AllPREntries(repo, prs)
  }

  /**
   * The rows of a repository's menu: one "No open PRs" row without action
   * when there are none, otherwise six rows per pull request in order, each
   * block opening with the header and following the action order.
   */
  lemma PRItemsLayout(repo: string, prs: seq<PullRequest>)
    ensures prs == [] ==> PRItems(repo, prs) == [NO_OPEN_PRS] && PRItems(repo, prs)[0].action.None?
    ensures prs != [] ==> |PRItems(repo, prs)| == 6 * |prs|
    ensures prs != [] ==> forall i :: 0 <= i < |prs| ==> PRItems(repo, prs)[6 * i .. 6 * i + 6] == PREntries(repo, prs[i])
  {
    if prs != [] {
      FlattenSixes(PRBlocks(repo, prs));
      AllPREntriesFlatten(repo, prs);
    }
  }

  /** The six appends of one pull request's rows in `_buildPRItems`. */
  method AppendPREntries(items: seq<MenuItem>, repo: string, pr: PullRequest) returns (extended: seq<MenuItem>)
    ensures extended == items + PREntries(repo, pr)
  {
    ghost var rows := PREntries(repo, pr);
    var url := Some(map["url" := Str(pr.url)]);
    var ref := Some(map["repo" := Str(repo), "prNumber" := Int(pr.number)]);
    extended := items + [MenuItem(PRLabel(pr), Some("openPR"), url)];
    assert extended == items + rows[..1];
    extended := extended + [MenuItem("  Open in browser", Some("openPR"), url)];
    assert extended == items + rows[..2];
    extended := extended + [MenuItem("  Copy link", Some("copyLink"), url)];
    assert extended == items + rows[..3];
    extended := extended + [MenuItem("  Approve", Some("approvePR"), ref)];
    assert extended == items + rows[..4];
    extended := extended + [MenuItem("  Request changes", Some("requestChanges"), ref)];
    assert extended == items + rows[..5];
    extended := extended + [MenuItem("  View comments", Some("viewComments"), ref)];
    assert rows == rows[..6];
  }

  /** `_buildPRItems`: one "No open PRs" row, or each pull request's rows in turn. */
  method BuildPRItems(repo: string, prs: seq<PullRequest>) returns (items: seq<MenuItem>)
    ensures items == PRItems(repo, prs)
  {
    items := [];
    if prs == [] {
      items := items + [NO_OPEN_PRS];
      return;
    }
    for k := 0 to |prs|
      invariant items == AllPREntries(repo, prs[..k])
    {
      assert prs[..k + 1][..k] == prs[..k];
      assert AllPREntries(repo, prs[..k + 1]) == AllPREntries(repo, prs[..k]) + PREntries(repo, prs[k]);
      items := AppendPREntries(items, repo, prs[k]);
    }
    assert prs[..|prs|] == prs;
  }

  // ----------------------------------------------------------------- comments

  /** A general comment on the pull request. */
  datatype IssueComment = IssueComment(author: string, body: string, createdAt: string)

  /**
   * An inline review comment: `path` is absent or a string, `line` is null
   * or a number, and `originalLine` is absent, null or a number.
   */
  datatype ReviewComment = ReviewComment(
    author: string, body: string, createdAt: string,
    path: Option<string>, line: Option<int>, originalLine: Option<Option<int>>)

  /** An entry of `allComments`; `path` and `line` are shown for inline ones only. */
  datatype Comment = Comment(inline: bool, author: string, body: string, path: string, line: string, createdAt: string)

  /** `c.get("line") or c.get("original_line", "")`, as the label prints it. */
  function LineText(c: ReviewComment): (s: string)
    ensures c.line.Some? && c.line.value != 0 ==> s == IntToString(c.line.value)
    ensures (c.line.None? || c.line.value == 0) && c.originalLine.None? ==> s == ""
  {
    if c.line.Some? && c.line.value != 0 then IntToString(c.line.value)
    else
      match c.originalLine
      case None => ""
      case Some(None) => "None"
      case Some(Some(n)) => IntToString(n)
  }

  function FromIssue(c: IssueComment): Comment {
    Comment(false, c.author, c.body, "", "", c.createdAt)
  }

  function FromReview(c: ReviewComment): Comment {
    Comment(true, c.author, c.body, c.path.GetOr(""), LineText(c), c.createdAt)
  }

  /** The general comments, then the inline ones, each in the order fetched. */
  function CombinedComments(issue: seq<IssueComment>, review: seq<ReviewComment>): (all: seq<Comment>)
    ensures |all| == |issue| + |review|
    ensures forall i :: 0 <= i < |issue| ==> all[i] == FromIssue(issue[i])
    ensures forall i :: 0 <= i < |review| ==> all[|issue| + i] == FromReview(review[i])
  {
    seq(|issue|, i requires 0 <= i < |issue| => FromIssue(issue[i]))
    + seq(|review|, i requires 0 <= i < |review| => FromReview(review[i]))
  }

  /** The two loops of `_showPRComments` that build `allComments`. */
  method CollectComments(issue: seq<IssueComment>, review: seq<ReviewComment>) returns (all: seq<Comment>)
    ensures all == CombinedComments(issue, review)
  {
    all := [];
    for k := 0 to |issue|
      invariant all == seq(k, i requires 0 <= i < k => FromIssue(issue[i]))
    {
      all := all + [FromIssue(issue[k])];
    }
    ghost var general := all;
    for k := 0 to |review|
      invariant all == general + seq(k, i requires 0 <= i < k => FromReview(review[i]))
    {
      all := all + [FromReview(review[k])];
    }
  }

  ghost predicate SortedByDate(cs: seq<Comment>) {
    forall i, j :: 0 <= i < j < |cs| ==> LexLe(cs[i].createdAt, cs[j].createdAt)
  }

  /** Puts `c` after the last comment not later than it. */
  function InsertByDate(cs: seq<Comment>, c: Comment): (r: seq<Comment>)
    ensures |r| == |cs| + 1
  {
    if cs == [] then [c]
    else if LexLe(cs[|cs| - 1].createdAt, c.createdAt) then cs + [c]
    else InsertByDate(cs[..|cs| - 1], c) + [cs[|cs| - 1]]
  }

  /** `allComments.sort(key=lambda x: x["created_at"])`, as an insertion sort. */
  function SortByDate(cs: seq<Comment>): (sorted: seq<Comment>)
    ensures |sorted| == |cs|
  {
    if cs == [] then [] else InsertByDate(SortByDate(cs[..|cs| - 1]), cs[|cs| - 1])
  }

  /** Appending a comment no older than the last one keeps the list sorted. */
  lemma AppendLatestSorted(cs: seq<Comment>, c: Comment)
    requires SortedByDate(cs)
    requires cs != [] ==> LexLe(cs[|cs| - 1].createdAt, c.createdAt)
    ensures SortedByDate(cs + [c])
  {
    if cs == [] {
      return;
    }
    var last := cs[|cs| - 1];
    forall i, j | 0 <= i < j < |cs| + 1 ensures LexLe((cs + [c])[i].createdAt, (cs + [c])[j].createdAt) {
      assert (cs + [c])[i] == cs[i];
      if j == |cs| && i < |cs| - 1 {
        LexLeTransitive(cs[i].createdAt, last.createdAt, c.createdAt);
      } else if j < |cs| {
        assert (cs + [c])[j] == cs[j];
      }
    }
  }

  /** Every comment of a rearrangement of `init` plus `c` is no later than `last` when each of those is. */
  lemma NoLaterThan(r: seq<Comment>, init: seq<Comment>, c: Comment, last: Comment)
    requires multiset(r) == multiset(init) + multiset{c}
    requires forall k :: 0 <= k < |init| ==> LexLe(init[k].createdAt, last.createdAt)
    requires LexLe(c.createdAt, last.createdAt)
    ensures forall i :: 0 <= i < |r| ==> LexLe(r[i].createdAt, last.createdAt)
  {
    forall i | 0 <= i < |r| ensures LexLe(r[i].createdAt, last.createdAt) {
      assert r[i] in multiset(r);
      if r[i] != c {
        assert r[i] in multiset(init);
        var k :| 0 <= k < |init| && init[k] == r[i];
      }
    }
  }

  lemma {:induction false} InsertByDateSorted(cs: seq<Comment>, c: Comment)
    requires SortedByDate(cs)
    ensures SortedByDate(InsertByDate(cs, c))
    ensures multiset(InsertByDate(cs, c)) == multiset(cs) + multiset{c}
  {
    if cs == [] {
      return;
    }
    var n := |cs| - 1;
    var last := cs[n];
    if LexLe(last.createdAt, c.createdAt) {
      AppendLatestSorted(cs, c);
    } else {
      var init := cs[..n];
      assert SortedByDate(init);
      InsertByDateSorted(init, c);
      var r := InsertByDate(init, c);
      LexLeTotal(last.createdAt, c.createdAt);
      NoLaterThan(r, init, c, last);
      AppendLatestSorted(r, last);
      assert cs == init + [last];
    }
  }

  /** The sort orders the comments by creation date and keeps each of them. */
  lemma {:induction false} SortByDateSorts(cs: seq<Comment>)
    ensures SortedByDate(SortByDate(cs))
    ensures multiset(SortByDate(cs)) == multiset(cs)
  {
    if cs != [] {
      var n := |cs| - 1;
      SortByDateSorts(cs[..n]);
      InsertByDateSorted(SortByDate(cs[..n]), cs[n]);
      assert cs == cs[..n] + [cs[n]];
    }
  }

  /** The comments created at `date`, in the order of `cs`. */
  function WithDate(cs: seq<Comment>, date: string): seq<Comment> {
    if cs == [] then []
    else WithDate(cs[..|cs| - 1], date) + (if cs[|cs| - 1].createdAt == date then [cs[|cs| - 1]] else [])
  }

  lemma {:induction false} LexLeReflexive(a: string)
    ensures LexLe(a, a)
    decreases |a|
  {
    if a != [] {
      LexLeReflexive(a[1..]);
    }
  }

  /** Inserting `c` puts it after every comment of its own date. */
  lemma {:induction false} InsertByDateStable(cs: seq<Comment>, c: Comment, date: string)
    ensures WithDate(InsertByDate(cs, c), date) == WithDate(cs, date) + (if c.createdAt == date then [c] else [])
  {
    if cs == [] {
      assert [c][..0] == [];
      return;
    }
    var n := |cs| - 1;
    var last := cs[n];
    if LexLe(last.createdAt, c.createdAt) {
      assert (cs + [c])[..|cs|] == cs;
    } else {
      var init := cs[..n];
      InsertByDateStable(init, c, date);
      LexLeReflexive(c.createdAt);
      assert last.createdAt != c.createdAt;
      var r := InsertByDate(init, c);
      assert (r + [last])[..|r|] == r;
    }
  }

  /** The sort is stable: comments created at the same time keep their relative order. */
  lemma {:induction false} SortByDateStable(cs: seq<Comment>, date: string)
    ensures WithDate(SortByDate(cs), date) == WithDate(cs, date)
  {
    if cs != [] {
      var n := |cs| - 1;
      SortByDateStable(cs[..n], date);
      InsertByDateStable(SortByDate(cs[..n]), cs[n], date);
    }
  }

  /** The body a comment row shows: cut to 100 characters plus "..." when longer, newlines as spaces. */
  function ShownBody(body: string): (shown: string)
    ensures |shown| == if |body| > 100 then 103 else |body|
    ensures forall i :: 0 <= i < |shown| ==> shown[i] != '\n'
    ensures forall i :: 0 <= i < |shown| && i < 100 ==> shown[i] == (if body[i] == '\n' then ' ' else body[i])
    ensures |body| > 100 ==> shown[100..] == "..."
  {
    ReplaceChar(if |body| > 100 then body[..100] + "..." else body, '\n', ' ')
  }

  const BACK_TO_PR_LIST := MenuItem("Back to PR list", Some("refreshAll"), Some(map[]))

  /** The path and line of an inline comment, nothing for a general one. */
  function LocationPrefix(c: Comment): string {
    if c.inline then "[" + c.path + ":" + c.line + "] " else ""
  }

  /** A comment's row: the label shows the shortened body, the action data keeps it whole. */
  function CommentItem(c: Comment): (item: MenuItem)
    ensures item.action == Some("speakComment")
    ensures item.name == c.author + ": " + LocationPrefix(c) + ShownBody(c.body)
    ensures item.actionData == Some(map["comment" := Str(c.author + ": " + c.body)])
  {
    MenuItem(c.author + ": " + LocationPrefix(c) + ShownBody(c.body), Some("speakComment"),
             Some(map["comment" := Str(c.author + ": " + c.body)]))
  }

  /** The comment menu: a row back to the list, then one row per comment in order. */
  function CommentItems(cs: seq<Comment>): (items: seq<MenuItem>)
    ensures |items| == |cs| + 1 && items[0] == BACK_TO_PR_LIST
    ensures forall i :: 0 <= i < |cs| ==> items[i + 1] == CommentItem(cs[i])
  {
    [BACK_TO_PR_LIST] + seq(|cs|, i requires 0 <= i < |cs| => CommentItem(cs[i]))
  }

  /** The loop of `_showPRComments` that builds the comment rows. */
  method BuildCommentItems(cs: seq<Comment>) returns (items: seq<MenuItem>)
    ensures items == CommentItems(cs)
  {
    items := [BACK_TO_PR_LIST];
    for k := 0 to |cs|
      invariant items == [BACK_TO_PR_LIST] + seq(k, i requires 0 <= i < k => CommentItem(cs[i]))
    {
      var c := cs[k];
      var prefix := if c.inline then "[" + c.path + ":" + c.line + "] " else "";
      var body := if |c.body| > 100 then c.body[..100] + "..." else c.body;
      body := ReplaceChar(body, '\n', ' ');
      items := items + [MenuItem(c.author + ": " + prefix + body, Some("speakComment"),
                                 Some(map["comment" := Str(c.author + ": " + c.body)]))];
    }
  }
}

=== FILE: github_status.dfy ===
/**
 * How the GitHub PR tracker condenses a pull request's reviews and CI runs
 * into one status word each, and the indicator it shows for each word.
 */
module GitHubStatus {
  import opened Runtime

  /** A review as the reviews endpoint lists it: the reviewer's login and the review state. */
  datatype Review = Review(user: string, state: string)

  /** The states that decide approval; COMMENTED and PENDING reviews are skipped. */
  predicate Counted(state: string) {
    state == "APPROVED" || state == "CHANGES_REQUESTED" || state == "DISMISSED"
  }

  /**
   * `latestReviews`: each reviewer's last counted state. Reviews are taken in
   * the order listed, so a later review overrides an earlier one.
   */
  function LatestReviews(reviews: seq<Review>): (latest: map<string, string>)
    ensures forall u :: u in latest ==> Counted(latest[u])
  {
    if reviews == [] then map[]
    else
      var latest := LatestReviews(reviews[..|reviews| - 1]);
      var r := reviews[|reviews| - 1];
      if Counted(r.state) then latest[r.user := r.state] else latest
  }

  /** `state` is the state of `user`'s last counted review in `reviews`. */
  ghost predicate LastCountedState(reviews: seq<Review>, user: string, state: string) {
    exists i :: 0 <= i < |reviews| && reviews[i] == Review(user, state) && Counted(state)
      && forall j :: i < j < |reviews| && reviews[j].user == user ==> !Counted(reviews[j].state)
  }

  /** A counted review by `user` at the end decides that user's last counted state. */
  lemma LastCountedAtEnd(reviews: seq<Review>, user: string, state: string)
    requires reviews != [] && reviews[|reviews| - 1].user == user && Counted(reviews[|reviews| - 1].state)
    ensures LastCountedState(reviews, user, state) <==> state == reviews[|reviews| - 1].state
  {
    var n := |reviews| - 1;
    if LastCountedState(reviews, user, state) {
      var i :| 0 <= i < |reviews| && reviews[i] == Review(user, state) && Counted(state)
        && forall j :: i < j < |reviews| && reviews[j].user == user ==> !Counted(reviews[j].state);
      assert i == n;
    }
    if state == reviews[n].state {
      assert reviews[n] == Review(user, state);
    }
  }

  /** A review at the end that is by someone else or not counted leaves `user`'s last counted state alone. */
  lemma LastCountedPastOther(reviews: seq<Review>, user: string, state: string)
    requires reviews != [] && (reviews[|reviews| - 1].user != user || !Counted(reviews[|reviews| - 1].state))
    ensures LastCountedState(reviews, user, state) <==> LastCountedState(reviews[..|reviews| - 1], user, state)
  {
    var n := |reviews| - 1;
    var init := reviews[..n];
    if LastCountedState(init, user, state) {
      var i :| 0 <= i < |init| && init[i] == Review(user, state) && Counted(state)
        && forall j :: i < j < |init| && init[j].user == user ==> !Counted(init[j].state);
      assert reviews[i] == init[i];
      forall j | i < j < |reviews| && reviews[j].user == user
        ensures !Counted(reviews[j].state)
      {
        if j < n {
          assert reviews[j] == init[j];
        }
      }
    }
    if LastCountedState(reviews, user, state) {
      var i :| 0 <= i < |reviews| && reviews[i] == Review(user, state) && Counted(state)
        && forall j :: i < j < |reviews| && reviews[j].user == user ==> !Counted(reviews[j].state);
      assert i < n && init[i] == reviews[i];
      forall j | i < j < |init| && init[j].user == user
        ensures !Counted(init[j].state)
      {
        assert init[j] == reviews[j];
      }
    }
  }

  /** The table holds exactly each reviewer's last counted state. */
  lemma {:induction false} LatestReviewIsLast(reviews: seq<Review>, user: string, state: string)
    ensures user in LatestReviews(reviews) && LatestReviews(reviews)[user] == state <==> LastCountedState(reviews, user, state)
  {
    if reviews != [] {
      var n := |reviews| - 1;
      LatestReviewIsLast(reviews[..n], user, state);
      if reviews[n].user == user && Counted(reviews[n].state) {
        LastCountedAtEnd(reviews, user, state);
      } else {
        LastCountedPastOther(reviews, user, state);
      }
    }
  }

  /** The verdict over the latest states: a change request wins over an approval. */
  function ApprovalOf(latest: map<string, string>): (status: string)
    ensures status == "CHANGES_REQUESTED" || status == "APPROVED" || status == "PENDING"
    ensures |latest| == 0 ==> status == "PENDING"
  {
    if |latest| == 0 then "PENDING"
    else if exists u :: u in latest && latest[u] == "CHANGES_REQUESTED" then "CHANGES_REQUESTED"
    else if exists u :: u in latest && latest[u] == "APPROVED" then "APPROVED"
    else "PENDING"
  }

  /**
   * `_getApprovalStatus`: builds the table of latest states by a loop over
   * the reviews, then classifies it.
   */
  method GetApprovalStatus(reviews: seq<Review>) returns (status: string)
    ensures status == ApprovalOf(LatestReviews(reviews))
  {
    var latest: map<string, string> := map[];
    for k := 0 to |reviews|
      invariant latest == LatestReviews(reviews[..k])
    {
      var review := reviews[k];
      if review.state == "APPROVED" || review.state == "CHANGES_REQUESTED" || review.state == "DISMISSED" {
        latest := latest[review.user := review.state];
      }
      assert reviews[..k + 1][..k] == reviews[..k];
    }
    assert reviews[..|reviews|] == reviews;
    if |latest| == 0 {
      return "PENDING";
    }
    if exists u :: u in latest && latest[u] == "CHANGES_REQUESTED" {
      return "CHANGES_REQUESTED";
    }
    if exists u :: u in latest && latest[u] == "APPROVED" {
      return "APPROVED";
    }
    return "PENDING";
  }

  /**
   * What the approval status means in terms of the reviews: CHANGES_REQUESTED
   * when some reviewer's last counted review requests changes, APPROVED when
   * none does and some reviewer's last one approves, PENDING otherwise (no
   * counted reviews, or only dismissals last).
   */
  lemma {:induction false} ApprovalStatusMeaning(reviews: seq<Review>)
    ensures ApprovalOf(LatestReviews(reviews)) == "CHANGES_REQUESTED" <==>
              exists u :: LastCountedState(reviews, u, "CHANGES_REQUESTED")
    ensures ApprovalOf(LatestReviews(reviews)) == "APPROVED" <==>
              (exists u :: LastCountedState(reviews, u, "APPROVED")) && !exists u :: LastCountedState(reviews, u, "CHANGES_REQUESTED")
    ensures ApprovalOf(LatestReviews(reviews)) == "PENDING" <==>
              !(exists u :: LastCountedState(reviews, u, "APPROVED")) && !exists u :: LastCountedState(reviews, u, "CHANGES_REQUESTED")
  {
    var latest := LatestReviews(reviews);
    forall u, s ensures u in latest && latest[u] == s <==> LastCountedState(reviews, u, s) {
      LatestReviewIsLast(reviews, u, s);
    }
    if exists u :: LastCountedState(reviews, u, "APPROVED") {
      var u :| LastCountedState(reviews, u, "APPROVED");
      assert u in latest;
    }
    if exists u :: LastCountedState(reviews, u, "CHANGES_REQUESTED") {
      var u :| LastCountedState(reviews, u, "CHANGES_REQUESTED");
      assert u in latest;
    }
    if exists u :: u in latest && latest[u] == "APPROVED" {
      var u :| u in latest && latest[u] == "APPROVED";
      assert LastCountedState(reviews, u, "APPROVED");
    }
    if exists u :: u in latest && latest[u] == "CHANGES_REQUESTED" {
      var u :| u in latest && latest[u] == "CHANGES_REQUESTED";
      assert LastCountedState(reviews, u, "CHANGES_REQUESTED");
    }
  }

  /** A check run: its `status` and its `conclusion` (null until it completes). */
  datatype CheckRun = CheckRun(status: string, conclusion: Option<string>)

  predicate Concluded(run: CheckRun, conclusion: string) {
    run.conclusion == Some(conclusion)
  }

  /**
   * The verdict over the check runs: any failure wins; otherwise a run still
   * going makes it PENDING; otherwise all-success is SUCCESS and anything
   * else (cancelled, skipped, neutral) MIXED.
   */
  function ChecksVerdict(runs: seq<CheckRun>): (verdict: string)
    ensures verdict == "FAILURE" || verdict == "PENDING" || verdict == "SUCCESS" || verdict == "MIXED"
  {
    if exists r :: r in runs && Concluded(r, "failure") then "FAILURE"
    else if exists r :: r in runs && r.status != "completed" then "PENDING"
    else if forall r :: r in runs ==> Concluded(r, "success") then "SUCCESS"
    else "MIXED"
  }

  /** The verdict depends on which runs there are, not on the order they are listed in. */
  lemma {:induction false} ChecksVerdictIgnoresOrder(a: seq<CheckRun>, b: seq<CheckRun>)
    requires multiset(a) == multiset(b)
    ensures ChecksVerdict(a) == ChecksVerdict(b)
  {
    forall r ensures r in a <==> r in b {
      assert r in a <==> r in multiset(a);
      assert r in b <==> r in multiset(b);
    }
  }

  /** One failed run makes the verdict FAILURE whatever the other runs say. */
  lemma FailureDominates(runs: seq<CheckRun>, failed: CheckRun)
    requires Concluded(failed, "failure")
    ensures ChecksVerdict(runs + [failed]) == "FAILURE"
  {
    assert failed in runs + [failed];
  }

  /**
   * `_getCIStatus`, with the two requests' answers as inputs: `runs` is the
   * `check_runs` list of the first answer (empty when that request failed or
   * listed none) and `combined` the second answer (`None` when it failed),
   * only asked for when there are no runs. The combined state is upper-cased,
   * UNKNOWN when absent.
   */
  function CIStatus(runs: seq<CheckRun>, combined: Option<Value>): (r: Result<string>)
    ensures runs != [] ==> r == Ok(ChecksVerdict(runs))
    ensures runs == [] && (combined.None? || !Truthy(combined.value)) ==> r == Ok("NONE")
    ensures runs == [] && combined.Some? && combined.value.Dict? && Truthy(combined.value) ==>
              if "state" !in combined.value.entries then r == Ok("UNKNOWN")
              else if combined.value.entries["state"].Str? then r == Ok(Upper(combined.value.entries["state"].s))
              else r.Err?
  {
    if runs != [] then Ok(ChecksVerdict(runs))
    else if combined.None? || !Truthy(combined.value) then Ok("NONE")
    else
      match Get(combined.value, "state", Str("UNKNOWN"))
      case Err(e) => Err(e)
      case Ok(state) =>
        assert Upper("UNKNOWN") == "UNKNOWN";
        if state.Str? then Ok(Upper(state.s)) else Err(AttributeError("upper"))
  }

  /** `_getApprovalIndicator`'s table. */
  const APPROVAL_INDICATORS: map<string, string> :=
    map["APPROVED" := "[A]", "CHANGES_REQUESTED" := "[R]", "PENDING" := "[?]"]

  /** `_getCIIndicator`'s table. */
  const CI_INDICATORS: map<string, string> :=
    map["SUCCESS" := "[CI:OK]", "FAILURE" := "[CI:!!]", "PENDING" := "[CI:--]",
        "NONE" := "", "MIXED" := "[CI:~]", "UNKNOWN" := "[CI:?]"]

  /** The approval indicator, "[?]" for a status the table lacks. */
  function ApprovalIndicator(status: string): (indicator: string)
    ensures status == "APPROVED" <==> indicator == "[A]"
    ensures status == "CHANGES_REQUESTED" <==> indicator == "[R]"
    ensures status != "APPROVED" && status != "CHANGES_REQUESTED" <==> indicator == "[?]"
  {
    if status in APPROVAL_INDICATORS then APPROVAL_INDICATORS[status] else "[?]"
  }

  /** The CI indicator, empty for a status the table lacks. */
  function CIIndicator(status: string): (indicator: string)
    ensures status in CI_INDICATORS ==> indicator == CI_INDICATORS[status]
    ensures status !in CI_INDICATORS ==> indicator == ""
    ensures indicator == "" <==> status != "SUCCESS" && status != "FAILURE" && status != "PENDING" && status != "MIXED" && status != "UNKNOWN"
  {
    if status in CI_INDICATORS then CI_INDICATORS[status] else ""
  }

  /** Each of the four check-run verdicts shows its own indicator. */
  lemma VerdictIndicatorsDistinct(runs1: seq<CheckRun>, runs2: seq<CheckRun>)
    requires CIIndicator(ChecksVerdict(runs1)) == CIIndicator(ChecksVerdict(runs2))
    ensures ChecksVerdict(runs1) == ChecksVerdict(runs2)
  {
  }

  /**
   * Every combined state whose upper-cased form the table lacks ("error",
   * say) shows no indicator, the same as a commit without CI.
   */
  lemma UnlistedStatusShowsNoIndicator(state: string)
    requires Upper(state) !in CI_INDICATORS
    ensures CIStatus([], Some(Dict(map["state" := Str(state)]))) == Ok(Upper(state))
    ensures CIIndicator(Upper(state)) == CIIndicator("NONE") == ""
  {
    var combined := Dict(map["state" := Str(state)]);
    assert Truthy(combined) by {
      assert "state" in combined.entries;
    }
    assert "state" in combined.entries && combined.entries["state"] == Str(state);
  }

  /**
   * An example of `UnlistedStatusShowsNoIndicator`: a combined status of
   * "error" upper-cases to ERROR, which the table lacks, so it shows no
   * indicator, just like a commit without CI.
   */
  lemma ErroredStatusShowsNoIndicator()
    ensures CIStatus([], Some(Dict(map["state" := Str("error")]))) == Ok("ERROR")
    ensures CIIndicator("ERROR") == CIIndicator("NONE") == ""
  {
    assert Upper("error") == "ERROR";
  }
}

=== FILE: legacy_obs.dfy ===
/**
 * The older OBS client (obs_control/obs.py). It speaks the same protocol as
 * the newer one and reuses its frame routing, request plans and frames. Its
 * state differs: a `_categories` list replaces the menu ids, nothing enables
 * or disables the service, and there is no CurrentProgramSceneChanged branch.
 *
 * Every successful scene-list or status response appends a category and then
 * calls `postMenuUpdate`, which raises on the base class's missing
 * `_menuList`. The rest of the branch never runs, so `_status` never changes
 * and no notification is ever posted.
 */
module LegacyObsClient {
  import opened Runtime
  import opened Messages
  import opened ServiceActor
  import opened LegacyServiceActor
  import opened ObsClient

  /** The `on_*` methods of the older OBS service. */
  const LEGACY_HANDLERS: set<string> := {"on_menu_get_items", "on_obsHello", "on_obsIdentified", "on_obsResponse"}

  /** A `(kind, title)` tuple of `_categories`. A two-element list stands for it; a string equals neither. */
  function Category(kind: string, title: string): (c: Value)
    ensures c.List? && |c.items| == 2 && c.items[1] == Str(title)
  {
    List([Str(kind), Str(title)])
  }

  /**
   * The tail of the two status branches, which `postMenuUpdate` keeps from
   * running: `msg` goes into `_status[i]` and is notified only when it
   * differs from what was there.
   */
  function StatusTail(status: seq<string>, i: nat, msg: string): (r: (seq<string>, Option<string>))
    requires i < |status|
    ensures r.0 == status[i := msg] && |r.0| == |status|
    ensures r.1.Some? <==> msg != status[i]
    ensures r.1.Some? ==> r.1.value == msg
  {
    if msg != status[i] then (status[i := msg], Some(msg)) else (status, None)
  }

  /** Storing the same message twice notifies at most once. */
  lemma {:induction false} StatusTailIdempotent(status: seq<string>, i: nat, msg: string)
    requires i < |status|
    ensures StatusTail(StatusTail(status, i, msg).0, i, msg).1 == None
    ensures StatusTail(StatusTail(status, i, msg).0, i, msg).0 == StatusTail(status, i, msg).0
  {
    var once := StatusTail(status, i, msg).0;
    assert once[i] == msg;
    assert once[i := msg] == once;
  }

  /** The older client's fields a response may touch, bundled to say "nothing else changed". */
  datatype LegacyState = LegacyState(
    curScene: Option<Value>, scenes: Value, categories: seq<Value>, status: seq<string>,
    menus: map<int, Menu>, menuId: int)

  class LegacyObsService {
    const base: LegacyService
    const clock: nat -> string

    var connected: bool
    /** `_categories`: the `(kind, title)` tuples appended so far. */
    var categories: seq<Value>
    var status: seq<string>
    var scenes: Value
    var curScene: Option<Value>
    var reqId: Value
    var clockReads: nat
    var sent: seq<Outgoing>
    var sleeps: seq<nat>

    ghost predicate Valid()
      reads this`status, this`categories, base`menuId, base`menus
    {
      && |status| == 2 && base.Valid() && base.handlers == LEGACY_HANDLERS && base.hasExecute
      && forall c :: c in categories ==> c.List?
    }

    ghost function State(): LegacyState
      reads this`curScene, this`scenes, this`categories, this`status, base`menus, base`menuId
    {
      LegacyState(curScene, scenes, categories, status, base.menus, base.menuId)
    }

    /** `names` and `quit` stand for `events.NAMES` and `events.QUIT`. */
    constructor (clock: nat -> string, names: map<int, string>, quit: int)
      ensures Valid() && fresh(base)
      ensures this.clock == clock && base.names == names && base.quit == quit
      ensures !connected && categories == [] && status == [STREAM_UNKNOWN, RECORD_UNKNOWN]
      ensures curScene == None && scenes == List([]) && reqId == Int(0) && clockReads == 0 && sent == [] && sleeps == []
      ensures base.menus == map[] && base.outqueue == []
    {
      base := new LegacyService("Service", LEGACY_HANDLERS, true, names, quit);
      this.clock := clock;
      connected := false;
      categories := [];
      status := [STREAM_UNKNOWN, RECORD_UNKNOWN];
      scenes := List([]);
      curScene := None;
      reqId := Int(0);
      clockReads := 0;
      sent := [];
      sleeps := [];
    }

    method Terminate()
      modifies base`shouldQuit
      ensures base.shouldQuit
    {
      base.shouldQuit := true;
    }

    /** `disconnect`: like the newer client's, but the service is not disabled. */
    method Disconnect()
      modifies this`connected, this`categories, this`reqId, this`scenes, base`outqueue
      ensures !connected && categories == [] && reqId == Int(0) && scenes == List([])
      ensures base.outqueue == old(base.outqueue) + [Disconnected]
    {
      connected := false;
      categories := [];
      reqId := Int(0);
      scenes := List([]);
      base.PostDisconnected();
    }

    /** `try_connect`: a success is logged, without enabling the service. */
    method TryConnect(ok: bool)
      requires !connected
      modifies this`connected, base`outqueue
      ensures connected == ok
      ensures ok ==> base.outqueue == old(base.outqueue) + [Log(Text("Connected to OBS"))]
      ensures !ok ==> base.outqueue == old(base.outqueue)
    {
      if ok {
        connected := true;
        base.PostLog(Text("Connected to OBS"));
      }
    }

    method ObsRequest(requestType: string, data: map<string, Value>)
      modifies this`reqId, this`clockReads, this`sent
      ensures !connected ==> reqId == old(reqId) && clockReads == old(clockReads) && sent == old(sent)
      ensures connected ==> reqId == Str(clock(old(clockReads))) && clockReads == old(clockReads) + 1
      ensures connected ==> sent == old(sent) + [Request(requestType, reqId, data)]
    {
      if !connected {
        return;
      }
      reqId := Str(clock(clockReads));
      clockReads := clockReads + 1;
      sent := sent + [Request(requestType, reqId, data)];
    }

    method OnHello()
      modifies this`sent
      ensures sent == old(sent) + [IDENTIFY]
    {
      sent := sent + [IDENTIFY];
    }

    /** `on_obsIdentified`, with `getScenesList` and `getStatus` inlined. */
    method OnIdentified()
      requires connected
      modifies this`reqId, this`clockReads, this`sent, base`outqueue
      ensures base.outqueue == old(base.outqueue) + [Log(Text("authenticated")), Ready]
      ensures sent == old(sent) + [Request("GetSceneList", Str(clock(old(clockReads))), map[]),
                                   Request("GetStreamStatus", Str(clock(old(clockReads) + 1)), map[]),
                                   Request("GetRecordStatus", Str(clock(old(clockReads) + 2)), map[])]
      ensures clockReads == old(clockReads) + 3 && reqId == Str(clock(old(clockReads) + 2))
    {
      ghost var sent0, clock0 := sent, clockReads;
      base.PostLog(Text("authenticated"));
      base.PostReady();
      ObsRequest("GetSceneList", map[]);
      assert sent == sent0 + [Request("GetSceneList", Str(clock(clock0)), map[])];
      ObsRequest("GetStreamStatus", map[]);
      ObsRequest("GetRecordStatus", map[]);
    }

    method OnMenuGetItems(args: Value) returns (raised: Option<Exn>)
      modifies base`outqueue
      ensures raised.None? <==> Index(args, "id").Ok? && IntKey(Index(args, "id").value).Ok?
                                && IntKey(Index(args, "id").value).value.Some?
                                && IntKey(Index(args, "id").value).value.value in base.menus
      ensures raised.None? ==> base.outqueue == old(base.outqueue) + [MenuItemsList(base.menus[IntKey(Index(args, "id").value).value.value])]
      ensures raised.Some? ==> base.outqueue == old(base.outqueue)
    {
      match Index(args, "id")
      case Err(e) => raised := Some(e);
      case Ok(id) =>
        match IntKey(id)
        case Err(e) => raised := Some(e);
        case Ok(key) =>
          if key.Some? && key.value in base.menus {
            base.PostMenuItemsList(base.menus[key.value]);
            raised := None;
          } else {
            raised := Some(KeyError(id));
          }
    }

    /**
     * Appends `(kind, title)` after the `title not in _categories` test,
     * then calls `postMenuUpdate`, which raises.
     */
    method AddCategory(kind: string, title: string) returns (raised: Option<Exn>)
      requires Valid()
      modifies this`categories
      ensures Valid()
      ensures categories == old(categories) + [Category(kind, title)]
      ensures raised == Some(MENU_LIST_MISSING)
    {
      // Every entry is a tuple, so the membership test never finds the title.
      assert forall c :: c in categories ==> c != Str(title);
      if Str(title) !in categories {
        categories := categories + [Category(kind, title)];
        raised := base.PostMenuUpdate();
      } else {
        raised := None;
      }
    }

    /** GetSceneList: the scene fields are read, a category is appended, and `postMenuUpdate` raises. */
    method OnSceneList(rdata: Value) returns (raised: Option<Exn>)
      requires Valid()
      modifies this`curScene, this`scenes, this`categories
      ensures Valid()
      ensures raised.Some?
      ensures Index(rdata, "currentProgramSceneName").Err? ==>
                raised == Some(Index(rdata, "currentProgramSceneName").error) && State() == old(State())
      ensures Index(rdata, "currentProgramSceneName").Ok? && Index(rdata, "scenes").Err? ==>
                raised == Some(Index(rdata, "scenes").error)
                && State() == old(State()).(curScene := Some(rdata.entries["currentProgramSceneName"]))
      ensures Index(rdata, "currentProgramSceneName").Ok? && Index(rdata, "scenes").Ok? ==>
                && raised == Some(MENU_LIST_MISSING)
                && State() == old(State()).(curScene := Some(rdata.entries["currentProgramSceneName"]),
                                            scenes := rdata.entries["scenes"],
                                            categories := old(categories) + [Category("scenes", "Scenes")])
    {
      match Index(rdata, "currentProgramSceneName")
      case Err(e) => raised := Some(e);
      case Ok(cur) =>
        curScene := Some(cur);
        match Index(rdata, "scenes")
        case Err(e) => raised := Some(e);
        case Ok(sc) =>
          scenes := sc;
          raised := AddCategory("scenes", "Scenes");
    }

    /**
     * `on_obsResponse`: a failed request and an unknown type (here also
     * CurrentProgramSceneChanged) are logged; the scene list and both status
     * types append a category and raise, leaving `_status` as it was.
     * `plan` is `PlanResponse(args)`; `args` itself is needed only for the
     * log of a CurrentProgramSceneChanged response.
     */
    method OnResponse(plan: ResponsePlan, args: Value) returns (raised: Option<Exn>)
      requires Valid()
      modifies this`curScene, this`scenes, this`categories, base`outqueue
      ensures Valid()
      ensures status == old(status) && base.menus == old(base.menus)
      ensures plan.Raise? ==> raised == Some(plan.error) && State() == old(State()) && base.outqueue == old(base.outqueue)
      ensures plan.RequestFailed? ==>
                raised == None && State() == old(State())
                && base.outqueue == old(base.outqueue) + [Log(Formatted("{} request failed: {}", [plan.requestType, plan.status]))]
      ensures plan.SceneChanged? ==>
                raised == None && State() == old(State())
                && base.outqueue == old(base.outqueue) + [Log(Formatted("{} Unhandled request response: {}", [Str("CurrentProgramSceneChanged"), args]))]
      ensures plan.UnhandledResponse? ==>
                raised == None && State() == old(State())
                && base.outqueue == old(base.outqueue) + [Log(Formatted("{} Unhandled request response: {}", [plan.requestType, plan.args]))]
      ensures plan.StreamStatus? || plan.RecordStatus? ==>
                raised == Some(MENU_LIST_MISSING) && base.outqueue == old(base.outqueue)
                && State() == old(State()).(categories := old(categories) + [Category("status", "Status")])
      ensures plan.SceneList? ==> raised.Some? && base.outqueue == old(base.outqueue)
    {
      match plan
      case Raise(e) =>
        raised := Some(e);
      case RequestFailed(rtype, st) =>
        base.PostLog(Formatted("{} request failed: {}", [rtype, st]));
        raised := None;
      case SceneList(rdata) =>
        raised := OnSceneList(rdata);
      case StreamStatus(_) =>
        raised := AddCategory("status", "Status");
      case RecordStatus(_) =>
        raised := AddCategory("status", "Status");
      case SceneChanged(_) =>
        base.PostLog(Formatted("{} Unhandled request response: {}", [Str("CurrentProgramSceneChanged"), args]));
        raised := None;
      case UnhandledResponse(rtype, a) =>
        base.PostLog(Formatted("{} Unhandled request response: {}", [rtype, a]));
        raised := None;
    }

    /** `on_obsResponse` called from the dispatch of op 7, with what it raises logged. */
    method DispatchResponse(text: string, plan: ResponsePlan, args: Value)
      requires Valid()
      modifies this`curScene, this`scenes, this`categories, base`outqueue
      ensures Valid()
      ensures status == old(status) && base.menus == old(base.menus)
      ensures old(base.outqueue) <= base.outqueue
      ensures forall e :: e in base.outqueue[|old(base.outqueue)|..] ==> e.Log?
    {
      var out0 := base.outqueue;
      var raised := OnResponse(plan, args);
      if raised.Some? {
        base.PostLog(Failed("Exception while handling {}: {}", [Str(text)], raised.value));
        assert base.outqueue[|out0|..] == base.outqueue[|out0|..|base.outqueue| - 1] + [base.outqueue[|base.outqueue| - 1]];
      }
    }

    /** The `try` block of `execute`, as in the newer client. */
    method HandleFrame(text: string, route: Route)
      requires Valid() && connected
      modifies this`curScene, this`scenes, this`categories, this`reqId, this`clockReads, this`sent, base`outqueue
      ensures Valid() && connected
      ensures status == old(status) && base.menus == old(base.menus)
      ensures route.Broken? ==>
                State() == old(State()) && sent == old(sent)
                && base.outqueue == old(base.outqueue) + [Log(Failed("Exception while handling {}: {}", [Str(text)], route.error))]
      ensures route.NotSupported? ==>
                State() == old(State()) && sent == old(sent)
                && base.outqueue == old(base.outqueue) + [Log(Formatted("Op {} not supported yet", [route.op]))]
      ensures route.Routed? && route.handler == ObsEvent ==>
                State() == old(State()) && sent == old(sent)
                && base.outqueue == old(base.outqueue) + [Log(Formatted("{}: Unhandled. data: {}", [route.op, Str(text)]))]
      ensures route.Routed? && route.handler == ObsHello ==>
                State() == old(State()) && sent == old(sent) + [IDENTIFY] && base.outqueue == old(base.outqueue)
    {
      match route
      case Broken(e) =>
        base.PostLog(Failed("Exception while handling {}: {}", [Str(text)], e));
      case NotSupported(op) =>
        base.PostLog(Formatted("Op {} not supported yet", [op]));
      case Routed(op, handler, args) =>
        match handler
        case ObsHello => OnHello();
        case ObsIdentified => OnIdentified();
        case ObsResponse => DispatchResponse(text, PlanResponse(args), args);
        case ObsEvent => base.PostLog(Formatted("{}: Unhandled. data: {}", [op, Str(text)]));
    }

    /** `execute`: connect if needed (3 s sleep after a failure), then receive. */
    method Execute(connectOk: bool, incoming: Incoming)
      requires Valid()
      modifies this, base`outqueue
      ensures Valid()
      ensures status == old(status) && base.menus == old(base.menus)
      ensures !old(connected) && !connectOk ==>
                && !connected && sleeps == old(sleeps) + [RETRY_DELAY_MS] && sent == old(sent)
                && base.outqueue == old(base.outqueue) + [Disconnected]
                && State() == old(State()).(scenes := List([]), categories := [])
      ensures old(connected) || connectOk ==> sleeps == old(sleeps)
      ensures (old(connected) || connectOk) && incoming.TimedOut? ==>
                && connected && sent == old(sent) && State() == old(State())
                && base.outqueue == old(base.outqueue) + (if old(connected) then [] else [Log(Text("Connected to OBS"))])
      ensures (old(connected) || connectOk) && incoming.RecvFailed? ==>
                && !connected && sent == old(sent) && State() == old(State()).(scenes := List([]), categories := [])
                && base.outqueue == old(base.outqueue) + (if old(connected) then [] else [Log(Text("Connected to OBS"))]) + [Disconnected]
      ensures (old(connected) || connectOk) && incoming.Received? ==> connected
    {
      if !connected {
        TryConnect(connectOk);
        if !connected {
          Disconnect();
          sleeps := sleeps + [RETRY_DELAY_MS];
          return;
        }
      }
      match incoming
      case TimedOut =>
      case RecvFailed(_) =>
        Disconnect();
      case Received(text, frame) =>
        HandleFrame(text, RouteFrame(frame));
    }
  }
}

=== FILE: legacy_service.dfy ===
/**
 * The older base service (obs_control/service.py). It has the same queues and
 * loop as the newer one, but it names events through `events.NAMES`, and it
 * never defines `_menuList`: `addMenu`, `removeMenu` and `postMenuUpdate` all
 * raise AttributeError when they reach it.
 *
 * The `events` module this copy imports (obs_control/events.py) is not part
 * of this model. Its `NAMES` table and `QUIT` code are therefore parameters of
 * the service, and the events it posts are the kinds of
 * `ServiceActor.OutEvent`, without numeric codes. Its
 * `CATEGORY_MENU_ITEMS_LIST` tag is `MenuItemsList`.
 */
module LegacyServiceActor {
  import opened Runtime
  import opened Messages
  import opened ServiceActor

  /** What reading the undefined `self._menuList` raises. */
  const MENU_LIST_MISSING := AttributeError("_menuList")

  /** The int the "event" field of `data` stands for as a dictionary key, when it has one. */
  function EventKey(data: Value): Option<int> {
    match Index(data, "event")
    case Err(_) => None
    case Ok(code) =>
      match IntKey(code)
      case Ok(Some(k)) => Some(k)
      case _ => None
  }

  /**
   * The reaction to one event dictionary: QUIT by Python equality, any other
   * code looked up in `names` (a KeyError for a code the table lacks), then
   * `"on_" + name` among the handlers.
   */
  function LegacyReactTo(data: Value, names: map<int, string>, quit: int, handlers: set<string>): (r: InputOutcome)
    ensures r != NoEvent
    ensures r == QuitRequested <==> Index(data, "event").Ok? && EqualsInt(Index(data, "event").value, quit)
    ensures r.Dispatched? ==>
              EventKey(data).Some? && EventKey(data).value in names && r.handler == "on_" + names[EventKey(data).value]
              && r.handler in handlers && r.data == data
    ensures r.Unhandled? ==>
              EventKey(data).Some? && EventKey(data).value in names && r.name == names[EventKey(data).value]
              && "on_" + r.name !in handlers && r.data == data
    ensures Index(data, "event").Ok? && !EqualsInt(Index(data, "event").value, quit) && (EventKey(data).None? || EventKey(data).value !in names) ==>
              r.HandlingFailed?
  {
    match Index(data, "event")
    case Err(e) => HandlingFailed(e)
    case Ok(code) =>
      if EqualsInt(code, quit) then QuitRequested
      else
        match IntKey(code)
        case Err(e) => HandlingFailed(e)
        case Ok(None) => HandlingFailed(KeyError(code))
        case Ok(Some(k)) =>
          if k !in names then HandlingFailed(KeyError(code))
          else if "on_" + names[k] in handlers then Dispatched("on_" + names[k], code, data)
          else Unhandled(names[k], data)
  }

  class LegacyService {
    const className: string
    const handlers: set<string>
    const hasExecute: bool
    /** `events.NAMES` and `events.QUIT` of the module this copy imports. */
    const names: map<int, string>
    const quit: int

    var menus: map<int, Menu>
    var menuId: int
    var inqueue: seq<Value>
    var outqueue: seq<OutEvent>
    /** `should_quit`, the attribute QUIT sets. */
    var shouldQuit: bool
    /** `_should_quit`, the attribute the loop tests. */
    var loopQuit: bool
    var executeEnabled: bool

    /** Every stored menu id was handed out by the counter. */
    ghost predicate Valid()
      reads this`menuId, this`menus
    {
      0 <= menuId && forall id :: id in menus ==> 1 <= id <= menuId
    }

    constructor (className: string, handlers: set<string>, hasExecute: bool, names: map<int, string>, quit: int)
      ensures Valid()
      ensures this.className == className && this.handlers == handlers && this.hasExecute == hasExecute
      ensures this.names == names && this.quit == quit
      ensures menus == map[] && menuId == 0 && inqueue == [] && outqueue == []
      ensures !shouldQuit && !loopQuit && !executeEnabled
    {
      this.className := className;
      this.handlers := handlers;
      this.hasExecute := hasExecute;
      this.names := names;
      this.quit := quit;
      menus := map[];
      menuId := 0;
      inqueue := [];
      outqueue := [];
      shouldQuit := false;
      loopQuit := false;
      executeEnabled := false;
    }

    method PostEvent(e: OutEvent)
      modifies this`outqueue
      ensures outqueue == old(outqueue) + [e]
    {
      outqueue := outqueue + [e];
    }

    method PostDisconnected()
      modifies this`outqueue
      ensures outqueue == old(outqueue) + [Disconnected]
    {
      PostEvent(Disconnected);
    }

    method PostReady()
      modifies this`outqueue
      ensures outqueue == old(outqueue) + [Ready]
    {
      PostEvent(Ready);
    }

    method PostLog(msg: LogMessage)
      modifies this`outqueue
      ensures outqueue == old(outqueue) + [Log(msg)]
    {
      PostEvent(Log(msg));
    }

    method PostUserNotification(text: string)
      modifies this`outqueue
      ensures outqueue == old(outqueue) + [UserNotification(text)]
    {
      PostEvent(UserNotification(text));
    }

    /** `postMenuUpdate`: building its event reads `_menuList`, so it raises and posts nothing. */
    method PostMenuUpdate() returns (raised: Option<Exn>)
      ensures raised == Some(MENU_LIST_MISSING)
    {
      raised := Some(MENU_LIST_MISSING);
    }

    method PostMenuItemsList(menu: Menu)
      modifies this`outqueue
      ensures outqueue == old(outqueue) + [MenuItemsList(menu)]
    {
      PostEvent(MenuItemsList(menu));
    }

    /**
     * `addMenu`: the counter is incremented and the menu stored under the new
     * id, then the append to `_menuList` raises; no MENU_UPDATE is posted
     * and the id is never returned.
     */
    method AddMenu(name: string, initialChoices: seq<MenuItem>) returns (raised: Option<Exn>)
      requires Valid()
      modifies this`menuId, this`menus, this`outqueue
      ensures Valid()
      ensures raised == Some(MENU_LIST_MISSING)
      ensures menuId == old(menuId) + 1 && menuId !in old(menus)
      ensures menus == old(menus)[menuId := Menu(name, initialChoices)]
      ensures outqueue == old(outqueue)
                          + (if name == "" then [Log(Formatted("aedMenu({}, {}): Invalid arguments", [Str(name), ItemsValue(initialChoices)]))] else [])
      ensures forall e :: e in outqueue[|old(outqueue)|..] ==> !e.MenuUpdate?
    {
      if name == "" {
        PostLog(Formatted("aedMenu({}, {}): Invalid arguments", [Str(name), ItemsValue(initialChoices)]));
      }
      menuId := menuId + 1;
      menus := menus[menuId := Menu(name, initialChoices)];
      raised := Some(MENU_LIST_MISSING);
    }

    /**
     * `removeMenu`: an unknown id changes nothing; a known one is logged and
     * deleted from the table, then iterating `_menuList` raises.
     */
    method RemoveMenu(id: int) returns (raised: Option<Exn>)
      requires Valid()
      modifies this`menus, this`outqueue
      ensures Valid()
      ensures id !in old(menus) ==> raised == None && menus == old(menus) && outqueue == old(outqueue)
      ensures id in old(menus) ==>
                && raised == Some(MENU_LIST_MISSING)
                && menus == old(menus) - {id}
                && outqueue == old(outqueue) + [Log(Formatted("Removing menu {}", [Str(old(menus)[id].name)]))]
    {
      if id !in menus {
        return None;
      }
      PostLog(Formatted("Removing menu {}", [Str(menus[id].name)]));
      menus := menus - {id};
      raised := Some(MENU_LIST_MISSING);
    }

    /** `handleInputEvent`, looking names up in `names`. */
    method HandleInputEvent() returns (outcome: InputOutcome)
      modifies this`inqueue, this`outqueue, this`shouldQuit
      ensures old(inqueue) == [] ==> outcome == NoEvent && inqueue == [] && outqueue == old(outqueue) && shouldQuit == old(shouldQuit)
      ensures old(inqueue) != [] ==> outcome == LegacyReactTo(old(inqueue)[0], names, quit, handlers) && inqueue == old(inqueue)[1..]
      ensures outqueue == old(outqueue) + ReactionEvents(outcome)
      ensures shouldQuit == (old(shouldQuit) || outcome == QuitRequested)
    {
      if inqueue == [] {
        return NoEvent;
      }
      var data := inqueue[0];
      inqueue := inqueue[1..];
      outcome := LegacyReactTo(data, names, quit, handlers);
      match outcome
      case QuitRequested =>
        shouldQuit := true;
        PostLog(Text("Exiting"));
      case Unhandled(nm, d) =>
        PostLog(Formatted("Unhandled event {}: {}", [Str(nm), d]));
      case HandlingFailed(e) =>
        PostLog(Failed("Failed to handle event: {}", [], e));
      case Dispatched(_, _, _) =>
      case NoEvent =>
    }

    /** One iteration of `run`'s loop, as in the newer base. */
    method Iteration(outcome: Option<Exn>) returns (called: bool, added: seq<OutEvent>)
      modifies this`inqueue, this`outqueue, this`shouldQuit, this`executeEnabled
      ensures inqueue == if old(inqueue) == [] then [] else old(inqueue)[1..]
      ensures called == old(executeEnabled)
      ensures executeEnabled == (old(executeEnabled) && outcome.None?)
      ensures outqueue == old(outqueue) + added
      ensures CountExecuteFailures(added) == if called && outcome.Some? then 1 else 0
    {
      var reaction := HandleInputEvent();
      added := ReactionEvents(reaction);
      ReactionEventsAreNotExecuteFailures(reaction);
      called := executeEnabled;
      if executeEnabled && outcome.Some? {
        PostLog(Failed("{}.execute() failed: {}.", [Str(className)], outcome.value));
        CountExecuteFailuresAppend(added, [ExecuteFailure(className, outcome.value)]);
        added := added + [ExecuteFailure(className, outcome.value)];
        executeEnabled := false;
      }
    }

    /**
     * `steps` iterations of `run`'s loop with the outcomes of `execute`'s
     * calls given: called until its first raise, logged once, never again.
     */
    method Run(steps: nat, outcomes: seq<Option<Exn>>) returns (calls: nat)
      modifies this`inqueue, this`outqueue, this`shouldQuit, this`loopQuit, this`executeEnabled
      ensures !loopQuit
      ensures steps <= |old(inqueue)| ==> inqueue == old(inqueue)[steps..]
      ensures steps > |old(inqueue)| ==> inqueue == []
      ensures calls <= steps
      ensures !hasExecute ==> calls == 0
      ensures hasExecute ==> calls == steps || (calls > 0 && Raises(outcomes, calls - 1))
      ensures forall k :: 0 <= k < calls - 1 ==> !Raises(outcomes, k)
      ensures executeEnabled <==> hasExecute && forall k :: 0 <= k < calls ==> !Raises(outcomes, k)
      ensures |old(outqueue)| <= |outqueue| && outqueue[..|old(outqueue)|] == old(outqueue)
      ensures CountExecuteFailures(outqueue[|old(outqueue)|..]) == if hasExecute && !executeEnabled then 1 else 0
    {
      ghost var q0 := inqueue;
      ghost var out0 := outqueue;
      ghost var added: seq<OutEvent> := [];
      executeEnabled := hasExecute;
      loopQuit := false;
      calls := 0;
      var i := 0;
      while i < steps
        invariant 0 <= i <= steps
        invariant !loopQuit
        invariant i <= |q0| ==> inqueue == q0[i..]
        invariant i > |q0| ==> inqueue == []
        invariant !hasExecute ==> calls == 0 && !executeEnabled
        invariant executeEnabled ==> calls == i
        invariant calls <= i
        invariant forall k :: 0 <= k < calls - 1 ==> !Raises(outcomes, k)
        invariant hasExecute && !executeEnabled ==> calls > 0 && Raises(outcomes, calls - 1)
        invariant executeEnabled ==> forall k :: 0 <= k < calls ==> !Raises(outcomes, k)
        invariant outqueue == out0 + added
        invariant CountExecuteFailures(added) == if hasExecute && !executeEnabled then 1 else 0
      {
        var result := if calls < |outcomes| then outcomes[calls] else None;
        var called, more := Iteration(result);
        CountExecuteFailuresAppend(added, more);
        added := added + more;
        if called {
          calls := calls + 1;
        }
        i := i + 1;
      }
      assert outqueue[|out0|..] == added;
    }
  }
}

=== FILE: messages.dfy ===
/**
 * The data a service hands to its host: log messages, and the menu model
 * (menus of labelled items, each with an optional action and its data).
 */
module Messages {
  import opened Runtime

  /**
   * A message a service asks the host to log. The source builds it with an
   * f-string; the model keeps the literal parts as a template (`{}` where a
   * value is interpolated), the interpolated values, and for a caught
   * exception the exception itself.
   */
  datatype LogMessage =
    | Text(text: string)
    | Formatted(template: string, values: seq<Value>)
    | Failed(template: string, values: seq<Value>, error: Exn)

  /**
   * One row of a menu: its label, the action activating it triggers (`None`
   * for an informational row or a separator) and that action's data (`None`
   * when the row's dictionary has no "actionData" key at all).
   */
  datatype MenuItem = MenuItem(name: string, action: Option<string>, actionData: Option<map<string, Value>>)

  /** A menu as the `_menus` table stores it: `{"name": ..., "items": ...}`. */
  datatype Menu = Menu(name: string, items: seq<MenuItem>)

  /** An entry of the ordered menu list: `(id, name)`. */
  type MenuEntry = (int, string)

  /** A menu row as the Python dictionary the source builds. */
  function ItemValue(item: MenuItem): (v: Value)
    ensures v.Dict? && "name" in v.entries && v.entries["name"] == Str(item.name)
    ensures "action" in v.entries && v.entries["action"] == (if item.action.Some? then Str(item.action.value) else Null)
    ensures "actionData" in v.entries <==> item.actionData.Some?
    ensures item.actionData.Some? ==> v.entries["actionData"] == Dict(item.actionData.value)
    ensures v.entries.Keys <= {"name", "action", "actionData"}
  {
    var base := map["name" := Str(item.name),
                     "action" := if item.action.Some? then Str(item.action.value) else Null];
    Dict(if item.actionData.Some? then base["actionData" := Dict(item.actionData.value)] else base)
  }

  /** A list of rows as the Python list the source builds (used where it is logged). */
  function ItemsValue(items: seq<MenuItem>): (v: Value)
    ensures v.List? && |v.items| == |items|
    ensures forall i :: 0 <= i < |items| ==> v.items[i] == ItemValue(items[i])
  {
    List(seq(|items|, i requires 0 <= i < |items| => ItemValue(items[i])))
  }
}

=== FILE: obs.dfy ===
/**
 * The OBS Studio client (web_services/services/obs.py): a service that keeps
 * one obs-websocket connection, answers the server's Hello with Identify,
 * asks for the scene list and the stream and record status once identified,
 * and reconciles the responses into its fields, its menus and user
 * notifications.
 *
 * The socket is `connected` plus the frames sent on it (`sent`, as decoded
 * JSON values). What `recv` returns is a parameter of `Execute`; so is the
 * outcome of `create_connection`. `str(time.time())`, the request id, is the
 * next reading of the external `clock`.
 */
module ObsClient {
  import opened Runtime
  import opened Messages
  import opened ServiceActor
  import Events

  const SERVICE_DISPLAY_NAME := "OBS Studio"

  /** The obs-websocket 5.x opcodes (WebSocketOpCode) the client meets. */
  const OP_HELLO := 0
  const OP_IDENTIFY := 1
  const OP_IDENTIFIED := 2
  const OP_EVENT := 5
  const OP_REQUEST := 6
  const OP_RESPONSE := 7

  /** The RequestStatus code of a successful request. */
  const STATUS_SUCCESS := 100

  /** The values of `_supported_ops`; `on_` plus the suffix names the method `getattr` looks for. */
  datatype OpHandler = ObsHello | ObsIdentified | ObsEvent | ObsResponse {
    function Suffix(): string {
      match this
      case ObsHello => "obsHello"
      case ObsIdentified => "obsIdentified"
      case ObsEvent => "obsEvent"
      case ObsResponse => "obsResponse"
    }
  }

  /** `_supported_ops`: the opcodes routed to a handler. */
  const SUPPORTED_OPS: map<int, OpHandler> :=
    map[OP_HELLO := ObsHello, OP_IDENTIFIED := ObsIdentified, OP_EVENT := ObsEvent, OP_RESPONSE := ObsResponse]

  /** The `on_*` methods of the service, the base class's included; there is no `on_obsEvent`. */
  const HANDLERS: set<string> :=
    {"on_menu_update", "on_menu_get_items", "on_obsHello", "on_obsIdentified", "on_obsResponse"}

  /** The initial `_status` strings. */
  const STREAM_UNKNOWN := "Stream status: unknown"
  const RECORD_UNKNOWN := "Recording status: unknown"

  /** The seconds `execute` sleeps after a failed connection, in milliseconds. */
  const RETRY_DELAY_MS := 3000

  /** What `self._socket.recv()` does: return a text (and what `json.loads` makes of it), time out, or fail. */
  datatype Incoming =
    | Received(text: string, frame: Option<Value>)
    | TimedOut
    | RecvFailed(error: string)

  /** The exception `json.loads` raises on a text that is not JSON. */
  const JSON_DECODE_ERROR := ValueError("JSONDecodeError")

  /** A value used as a key of `_supported_ops` finds a handler suffix. */
  predicate Supported(op: Value) {
    IntKey(op).Ok? && IntKey(op).value.Some? && IntKey(op).value.value in SUPPORTED_OPS
  }

  /** Where `execute` sends a received frame. */
  datatype Route =
    | Broken(error: Exn)
    | NotSupported(op: Value)
    | Routed(op: Value, handler: OpHandler, args: Value)

  /**
   * The dispatch of a decoded frame: `jsdata["op"]` and `jsdata["d"]` are
   * both read first; the op is then looked up in `_supported_ops`.
   */
  function RouteFrame(frame: Option<Value>): (r: Route)
    ensures r.Routed? <==> frame.Some? && Index(frame.value, "op").Ok? && Index(frame.value, "d").Ok? && Supported(Index(frame.value, "op").value)
    ensures r.Routed? ==> r.op == Index(frame.value, "op").value && r.args == Index(frame.value, "d").value
    ensures r.Routed? ==> r.handler == SUPPORTED_OPS[IntKey(r.op).value.value]
    ensures r.NotSupported? ==> frame.Some? && Index(frame.value, "op") == Ok(r.op) && Index(frame.value, "d").Ok? && !Supported(r.op)
    ensures frame.None? ==> r == Broken(JSON_DECODE_ERROR)
  {
    match frame
    case None => Broken(JSON_DECODE_ERROR)
    case Some(jsdata) =>
      match Index(jsdata, "op")
      case Err(e) => Broken(e)
      case Ok(op) =>
        match Index(jsdata, "d")
        case Err(e) => Broken(e)
        case Ok(args) =>
          match IntKey(op)
          case Err(e) => Broken(e)
          case Ok(None) => NotSupported(op)
          case Ok(Some(k)) =>
            if k in SUPPORTED_OPS then Routed(op, SUPPORTED_OPS[k], args) else NotSupported(op)
  }

  /** Whether the service has the method `getattr` looks for. */
  predicate Defined(h: OpHandler) {
    "on_" + h.Suffix() in HANDLERS
  }

  /** Every supported op but 5 finds its method. */
  lemma DefinedHandlers(h: OpHandler)
    ensures Defined(h) <==> h != ObsEvent
  {
    if h == ObsEvent {
      var name := "on_" + h.Suffix();
      assert |name| == 11 && name[6] == 'E';
      forall n | n in HANDLERS ensures n != name {
        assert |n| != 11 || n[6] == 'H';
      }
    } else {
      var name := "on_" + h.Suffix();
      assert name == "on_obsHello" || name == "on_obsIdentified" || name == "on_obsResponse";
    }
  }

  /** Only the opcodes 0, 2, 5 and 7 reach a handler. */
  lemma RoutedOpcodes(frame: Option<Value>)
    requires RouteFrame(frame).Routed?
    ensures IntKey(RouteFrame(frame).op).value.value in {OP_HELLO, OP_IDENTIFIED, OP_EVENT, OP_RESPONSE}
  {
  }

  /** A frame the client sends, as the dictionary handed to `json.dumps`. */
  datatype Outgoing =
    | Identify(rpcVersion: int)
    | Request(requestType: string, requestId: Value, data: map<string, Value>)

  /** The frame `on_obsHello` sends. */
  const IDENTIFY := Identify(1)

  /**
   * The dictionary of a frame: op 1 with `{"rpcVersion": n}`, or op 6 with
   * the request type and id, plus "requestData" only for non-empty data.
   */
  function Payload(f: Outgoing): (v: Value)
    ensures v.Dict? && |v.entries| == 2
    ensures Index(v, "op") == Ok(Int(if f.Identify? then OP_IDENTIFY else OP_REQUEST))
    ensures Index(v, "d").Ok? && v.entries["d"].Dict?
    ensures f.Identify? ==> v.entries["d"].entries == map["rpcVersion" := Int(f.rpcVersion)]
    ensures f.Request? ==>
              && Index(v.entries["d"], "requestType") == Ok(Str(f.requestType))
              && Index(v.entries["d"], "requestId") == Ok(f.requestId)
              && (Index(v.entries["d"], "requestData").Ok? <==> |f.data| > 0)
              && (|f.data| > 0 ==> Index(v.entries["d"], "requestData") == Ok(Dict(f.data)))
  {
    match f
    case Identify(n) =>
      Dict(map["op" := Int(OP_IDENTIFY), "d" := Dict(map["rpcVersion" := Int(n)])])
    case Request(t, id, data) =>
      var d := map["requestType" := Str(t), "requestId" := id];
      Dict(map["op" := Int(OP_REQUEST), "d" := Dict(if |data| > 0 then d["requestData" := Dict(data)] else d)])
  }

  /** How the server reads a frame back: by op, then by the fields of "d" ("requestData" defaults to empty). */
  function ParseOutgoing(v: Value): Option<Outgoing> {
    match (Index(v, "op"), Index(v, "d"))
    case (Ok(Int(op)), Ok(d)) =>
      if op == OP_IDENTIFY then
        match Index(d, "rpcVersion")
        case Ok(Int(n)) => Some(Identify(n))
        case _ => None
      else if op == OP_REQUEST then
        match (Index(d, "requestType"), Index(d, "requestId"), Index(d, "requestData"))
        case (Ok(Str(t)), Ok(id), Err(_)) => Some(Request(t, id, map[]))
        case (Ok(Str(t)), Ok(id), Ok(Dict(data))) => if |data| > 0 then Some(Request(t, id, data)) else None
        case _ => None
      else None
    case _ => None
  }

  /** Every frame the client sends reads back as itself. */
  lemma PayloadRoundTrip(f: Outgoing)
    ensures ParseOutgoing(Payload(f)) == Some(f)
  {
    if f.Request? && |f.data| == 0 {
      assert f.data == map[];
    }
  }

  /** What `on_obsResponse` does with a response, once its header is read. */
  datatype ResponsePlan =
    | Raise(error: Exn)
    | RequestFailed(requestType: Value, status: Value)
    | SceneList(data: Value)
    | SceneChanged(data: Value)
    | StreamStatus(data: Value)
    | RecordStatus(data: Value)
    | UnhandledResponse(requestType: Value, args: Value)

  /** `args["requestStatus"]["code"]`. */
  function StatusCode(args: Value): Result<Value> {
    match Index(args, "requestStatus")
    case Err(e) => Err(e)
    case Ok(status) => Index(status, "code")
  }

  /**
   * The header of a response: its type, its status code (any code but 100 is
   * a failure that only gets logged), then its data, chosen by type.
   */
  function PlanResponse(args: Value): (p: ResponsePlan)
    ensures Index(args, "requestType").Ok? && StatusCode(args).Ok? && !EqualsInt(StatusCode(args).value, STATUS_SUCCESS) ==>
              p == RequestFailed(Index(args, "requestType").value, Index(args, "requestStatus").value)
    ensures p.RequestFailed? ==> StatusCode(args).Ok? && !EqualsInt(StatusCode(args).value, STATUS_SUCCESS)
    ensures p.SceneList? || p.SceneChanged? || p.StreamStatus? || p.RecordStatus? || p.UnhandledResponse? ==>
              StatusCode(args).Ok? && EqualsInt(StatusCode(args).value, STATUS_SUCCESS) && Index(args, "responseData").Ok?
  {
    match Index(args, "requestType")
    case Err(e) => Raise(e)
    case Ok(rtype) =>
      match Index(args, "requestStatus")
      case Err(e) => Raise(e)
      case Ok(status) =>
        match Index(status, "code")
        case Err(e) => Raise(e)
        case Ok(code) =>
          if !EqualsInt(code, STATUS_SUCCESS) then RequestFailed(rtype, status)
          else
            match Index(args, "responseData")
            case Err(e) => Raise(e)
            case Ok(rdata) =>
              if rtype == Str("GetSceneList") then SceneList(rdata)
              else if rtype == Str("CurrentProgramSceneChanged") then SceneChanged(rdata)
              else if rtype == Str("GetStreamStatus") then StreamStatus(rdata)
              else if rtype == Str("GetRecordStatus") then RecordStatus(rdata)
              else UnhandledResponse(rtype, args)
  }

  /** A successful response is handled by its type, and its data is what the branch reads. */
  lemma PlanResponseByType(args: Value)
    ensures PlanResponse(args).SceneList? ==> Index(args, "requestType") == Ok(Str("GetSceneList")) && PlanResponse(args).data == Index(args, "responseData").value
    ensures PlanResponse(args).SceneChanged? ==> Index(args, "requestType") == Ok(Str("CurrentProgramSceneChanged")) && PlanResponse(args).data == Index(args, "responseData").value
    ensures PlanResponse(args).StreamStatus? ==> Index(args, "requestType") == Ok(Str("GetStreamStatus")) && PlanResponse(args).data == Index(args, "responseData").value
    ensures PlanResponse(args).RecordStatus? ==> Index(args, "requestType") == Ok(Str("GetRecordStatus")) && PlanResponse(args).data == Index(args, "responseData").value
    ensures PlanResponse(args).UnhandledResponse? ==>
              && PlanResponse(args).args == args
              && PlanResponse(args).requestType !in {Str("GetSceneList"), Str("CurrentProgramSceneChanged"), Str("GetStreamStatus"), Str("GetRecordStatus")}
  {
  }

  /** The exceptions the two status branches hit before their message is complete. */
  const APPENE_ERROR := AttributeError("appene")
  const NOT_CALLABLE := TypeError("'list' object is not callable")

  /**
   * The stream message of a GetStreamStatus response. The four fields are
   * read first; a reconnecting stream hits `strList.appene` and an active
   * stream with skipped frames calls the list, so only the two plain
   * messages are ever built.
   */
  function StreamReport(rdata: Value): (r: Result<string>)
    ensures r.Ok? ==> r.value in {"Stream Status: streaming.", "Stream Status: disconnected."}
    ensures r.Ok? <==>
              && Index(rdata, "outputActive").Ok? && Index(rdata, "outputReconnecting").Ok?
              && Index(rdata, "outputSkippedFrames").Ok? && Index(rdata, "outputTotalFrames").Ok?
              && !Truthy(rdata.entries["outputReconnecting"])
              && !(Truthy(rdata.entries["outputActive"]) && Truthy(rdata.entries["outputSkippedFrames"]))
    ensures r.Ok? ==> (r.value == "Stream Status: streaming." <==> Truthy(rdata.entries["outputActive"]))
  {
    match Index(rdata, "outputActive")
    case Err(e) => Err(e)
    case Ok(active) =>
      match Index(rdata, "outputReconnecting")
      case Err(e) => Err(e)
      case Ok(reconnecting) =>
        match Index(rdata, "outputSkippedFrames")
        case Err(e) => Err(e)
        case Ok(skipped) =>
          match Index(rdata, "outputTotalFrames")
          case Err(e) => Err(e)
          case Ok(_) =>
            if Truthy(reconnecting) then Err(APPENE_ERROR)
            else if Truthy(active) && Truthy(skipped) then Err(NOT_CALLABLE)
            else Ok(if Truthy(active) then "Stream Status: streaming." else "Stream Status: disconnected.")
  }

  /**
   * The record message of a GetRecordStatus response; an active recording
   * with a time code other than "00:00:00.000" calls the list and raises.
   */
  function RecordReport(rdata: Value): (r: Result<string>)
    ensures r.Ok? ==> r.value in {"Record Status: recording.", "Record Status: off."}
    ensures r.Ok? <==>
              && Index(rdata, "outputActive").Ok? && Index(rdata, "outputTimecode").Ok?
              && !(Truthy(rdata.entries["outputActive"]) && rdata.entries["outputTimecode"] != Str("00:00:00.000"))
    ensures r.Ok? ==> (r.value == "Record Status: recording." <==> Truthy(rdata.entries["outputActive"]))
  {
    match Index(rdata, "outputActive")
    case Err(e) => Err(e)
    case Ok(active) =>
      match Index(rdata, "outputTimecode")
      case Err(e) => Err(e)
      case Ok(timecode) =>
        if Truthy(active) && timecode != Str("00:00:00.000") then Err(NOT_CALLABLE)
        else Ok(if Truthy(active) then "Record Status: recording." else "Record Status: off.")
  }

  /**
   * What `on_obsResponse` raises for a planned response, if anything: a
   * malformed header, a scene response missing a field it reads, or a status
   * message computation that raises.
   */
  function ResponseError(plan: ResponsePlan): (e: Option<Exn>)
    ensures plan.RequestFailed? || plan.UnhandledResponse? ==> e.None?
    ensures plan.Raise? ==> e == Some(plan.error)
    ensures plan.SceneChanged? ==> (e.Some? <==> Index(plan.data, "sceneName").Err?)
    ensures plan.SceneList? ==>
              (e.Some? <==> Index(plan.data, "currentProgramSceneName").Err? || Index(plan.data, "scenes").Err?)
    ensures plan.StreamStatus? ==> (e.Some? <==> StreamReport(plan.data).Err?)
    ensures plan.RecordStatus? ==> (e.Some? <==> RecordReport(plan.data).Err?)
  {
    match plan
    case Raise(err) => Some(err)
    case RequestFailed(_, _) => None
    case UnhandledResponse(_, _) => None
    case SceneList(rdata) =>
      if Index(rdata, "currentProgramSceneName").Err? then Some(Index(rdata, "currentProgramSceneName").error)
      else if Index(rdata, "scenes").Err? then Some(Index(rdata, "scenes").error)
      else None
    case SceneChanged(rdata) =>
      if Index(rdata, "sceneName").Err? then Some(Index(rdata, "sceneName").error) else None
    case StreamStatus(rdata) =>
      if StreamReport(rdata).Err? then Some(StreamReport(rdata).error) else None
    case RecordStatus(rdata) =>
      if RecordReport(rdata).Err? then Some(RecordReport(rdata).error) else None
  }

  /** No input event reaches an OBS handler: toString's camel-case names never match them. */
  lemma InputEventsNeverDispatched(data: Value)
    ensures !ReactTo(data, HANDLERS).Dispatched?
  {
    forall c: int ensures "on_" + Events.ToString(c) !in HANDLERS {
      var n := Events.ToString(c);
      assert n in Events.EVT_NAMES.Values || n == Events.UNKNOWN_EVENT;
      assert ("on_" + n)[3..] == n;
      forall h | h in HANDLERS ensures h[3..] != n {
        assert h[3..] in {"menu_update", "menu_get_items", "obsHello", "obsIdentified", "obsResponse"};
      }
    }
    NoDispatchWithoutMatchingHandler(data, HANDLERS);
  }

  /** The OBS fields `on_obsResponse` and its helpers may touch, bundled to say "nothing else changed". */
  datatype Reconciled = Reconciled(
    curScene: Option<Value>, scenes: Value, sceneMenuId: Option<int>, statusMenuId: Option<int>,
    status: seq<string>, menus: map<int, Menu>, menuList: seq<MenuEntry>, menuId: int)

  class ObsService {
    const base: Service
    /** The readings `str(time.time())` gives, in order. */
    const clock: nat -> string

    /** `_socket is not None`. */
    var connected: bool
    /** `_categories`, only ever reset. */
    var categories: seq<Value>
    /** `_status`: the last stream and record messages. */
    var status: seq<string>
    var statusMenuId: Option<int>
    var scenes: Value
    var sceneMenuId: Option<int>
    /** `_curScene`, absent until the first scene list. */
    var curScene: Option<Value>
    /** `_reqId`: 0, or the id of the last request sent. */
    var reqId: Value
    /** How many clock readings request ids have used. */
    var clockReads: nat
    /** The frames sent on the socket, oldest first. */
    var sent: seq<Outgoing>
    /** The `time.sleep` delays `execute` asked for, in milliseconds. */
    var sleeps: seq<nat>

    ghost predicate Valid()
      reads this`status, base`menuId, base`menus, base`menuList
    {
      |status| == 2 && base.Valid() && base.handlers == HANDLERS && base.hasExecute
    }

    ghost function State(): Reconciled
      reads this`curScene, this`scenes, this`sceneMenuId, this`statusMenuId, this`status
      reads base`menus, base`menuList, base`menuId
    {
      Reconciled(curScene, scenes, sceneMenuId, statusMenuId, status, base.menus, base.menuList, base.menuId)
    }

    constructor (clock: nat -> string)
      ensures Valid() && fresh(base)
      ensures this.clock == clock
      ensures !connected && status == [STREAM_UNKNOWN, RECORD_UNKNOWN]
      ensures statusMenuId == None && sceneMenuId == None && curScene == None
      ensures scenes == List([]) && reqId == Int(0) && clockReads == 0 && sent == [] && sleeps == []
      ensures !base.available && base.menus == map[] && base.outqueue == []
    {
      base := new Service(SERVICE_DISPLAY_NAME, "OBS", "Service", HANDLERS, true);
      this.clock := clock;
      connected := false;
      categories := [];
      status := [STREAM_UNKNOWN, RECORD_UNKNOWN];
      statusMenuId := None;
      scenes := List([]);
      sceneMenuId := None;
      curScene := None;
      reqId := Int(0);
      clockReads := 0;
      sent := [];
      sleeps := [];
    }

    /** `terminate`: sets `should_quit`, which the loop never reads. */
    method Terminate()
      modifies base`shouldQuit
      ensures base.shouldQuit
    {
      base.shouldQuit := true;
    }

    /**
     * `disconnect`: drops the socket, empties the categories and scenes,
     * resets the request id, disables the service and posts DISCONNECTED.
     * Menus, menu ids, `_status` and `_curScene` are left as they were.
     */
    method Disconnect()
      modifies this`connected, this`categories, this`reqId, this`scenes, base`outqueue, base`available
      ensures !connected && categories == [] && reqId == Int(0) && scenes == List([])
      ensures !base.available
      ensures base.outqueue == old(base.outqueue) + [Log(Text("Disabled")), Disconnected]
    {
      connected := false;
      categories := [];
      reqId := Int(0);
      scenes := List([]);
      base.Disable();
      base.PostDisconnected();
    }

    /** `try_connect`, with `ok` the outcome of `create_connection`. */
    method TryConnect(ok: bool)
      requires !connected
      modifies this`connected, base`outqueue, base`available
      ensures connected == ok
      ensures ok ==> base.available && base.outqueue == old(base.outqueue) + [Log(Text("Connected to OBS")), Log(Text("enabled"))]
      ensures !ok ==> base.available == old(base.available) && base.outqueue == old(base.outqueue)
    {
      if ok {
        connected := true;
        base.PostLog(Text("Connected to OBS"));
        base.Enable();
      }
    }

    /** `obsRequest`: without a socket nothing happens; otherwise a fresh id is stored and an op-6 frame sent. */
    method ObsRequest(requestType: string, data: map<string, Value>)
      modifies this`reqId, this`clockReads, this`sent
      ensures !connected ==> reqId == old(reqId) && clockReads == old(clockReads) && sent == old(sent)
      ensures connected ==> reqId == Str(clock(old(clockReads))) && clockReads == old(clockReads) + 1
      ensures connected ==> sent == old(sent) + [Request(requestType, reqId, data)]
    {
      if !connected {
        return;
      }
      reqId := Str(clock(clockReads));
      clockReads := clockReads + 1;
      sent := sent + [Request(requestType, reqId, data)];
    }

    method GetScenesList()
      modifies this`reqId, this`clockReads, this`sent
      ensures !connected ==> sent == old(sent) && clockReads == old(clockReads) && reqId == old(reqId)
      ensures connected ==> sent == old(sent) + [Request("GetSceneList", Str(clock(old(clockReads))), map[])]
      ensures connected ==> clockReads == old(clockReads) + 1 && reqId == Str(clock(old(clockReads)))
    {
      if connected {
        ObsRequest("GetSceneList", map[]);
      }
    }

    method GetStatus()
      modifies this`reqId, this`clockReads, this`sent
      ensures !connected ==> sent == old(sent) && clockReads == old(clockReads) && reqId == old(reqId)
      ensures connected ==> sent == old(sent) + [Request("GetStreamStatus", Str(clock(old(clockReads))), map[]),
                                                 Request("GetRecordStatus", Str(clock(old(clockReads) + 1)), map[])]
      ensures connected ==> clockReads == old(clockReads) + 2 && reqId == Str(clock(old(clockReads) + 1))
    {
      ObsRequest("GetStreamStatus", map[]);
      ObsRequest("GetRecordStatus", map[]);
    }

    /** `on_obsHello`: answers with Identify, rpcVersion 1. */
    method OnHello()
      modifies this`sent
      ensures sent == old(sent) + [IDENTIFY]
    {
      sent := sent + [IDENTIFY];
    }

    /** `on_obsIdentified`: logs, posts READY, then asks for the scene list, stream status and record status, in that order. */
    method OnIdentified()
      requires connected
      modifies this`reqId, this`clockReads, this`sent, base`outqueue
      ensures base.outqueue == old(base.outqueue) + [Log(Text("authenticated")), Ready]
      ensures sent == old(sent) + [Request("GetSceneList", Str(clock(old(clockReads))), map[]),
                                   Request("GetStreamStatus", Str(clock(old(clockReads) + 1)), map[]),
                                   Request("GetRecordStatus", Str(clock(old(clockReads) + 2)), map[])]
      ensures clockReads == old(clockReads) + 3 && reqId == Str(clock(old(clockReads) + 2))
    {
      ghost var sent0, clock0 := sent, clockReads;
      base.PostLog(Text("authenticated"));
      base.PostReady();
      GetScenesList();
      assert sent == sent0 + [Request("GetSceneList", Str(clock(clock0)), map[])];
      GetStatus();
    }

    /** `on_menu_get_items`: posts the menu stored under `args["id"]`, raising for an unknown id. */
    method OnMenuGetItems(args: Value) returns (raised: Option<Exn>)
      modifies base`outqueue
      ensures raised.None? <==> Index(args, "id").Ok? && IntKey(Index(args, "id").value).Ok?
                                && IntKey(Index(args, "id").value).value.Some?
                                && IntKey(Index(args, "id").value).value.value in base.menus
      ensures raised.None? ==> base.outqueue == old(base.outqueue) + [MenuItemsList(base.menus[IntKey(Index(args, "id").value).value.value])]
      ensures raised.Some? ==> base.outqueue == old(base.outqueue)
    {
      match Index(args, "id")
      case Err(e) => raised := Some(e);
      case Ok(id) =>
        match IntKey(id)
        case Err(e) => raised := Some(e);
        case Ok(key) =>
          if key.Some? && key.value in base.menus {
            base.PostMenuItemsList(base.menus[key.value]);
            raised := None;
          } else {
            raised := Some(KeyError(id));
          }
    }

    /**
     * GetSceneList: `_curScene`, then `_scenes`, then a new "Scenes" menu on
     * every successful response (the old one is not removed).
     */
    method OnSceneList(rdata: Value) returns (raised: Option<Exn>)
      requires Valid()
      modifies this`curScene, this`scenes, this`sceneMenuId, base`menuId, base`menus, base`menuList, base`outqueue
      ensures Valid()
      ensures Index(rdata, "currentProgramSceneName").Err? ==>
                raised == Some(Index(rdata, "currentProgramSceneName").error) && State() == old(State()) && base.outqueue == old(base.outqueue)
      ensures Index(rdata, "currentProgramSceneName").Ok? && Index(rdata, "scenes").Err? ==>
                && raised == Some(Index(rdata, "scenes").error)
                && State() == old(State()).(curScene := Some(rdata.entries["currentProgramSceneName"]))
                && base.outqueue == old(base.outqueue)
      ensures Index(rdata, "currentProgramSceneName").Ok? && Index(rdata, "scenes").Ok? ==>
                && raised == None
                && curScene == Some(rdata.entries["currentProgramSceneName"]) && scenes == rdata.entries["scenes"]
                && sceneMenuId == Some(old(base.menuId) + 1) && old(base.menuId) + 1 !in old(base.menus)
                && base.menus == old(base.menus)[old(base.menuId) + 1 := Menu("Scenes", [])]
                && base.menuList == old(base.menuList) + [(old(base.menuId) + 1, "Scenes")]
                && base.outqueue == old(base.outqueue) + [MenuUpdate(base.menuList)]
                && statusMenuId == old(statusMenuId) && status == old(status)
    {
      match Index(rdata, "currentProgramSceneName")
      case Err(e) => raised := Some(e);
      case Ok(cur) =>
        curScene := Some(cur);
        match Index(rdata, "scenes")
        case Err(e) => raised := Some(e);
        case Ok(sc) =>
          scenes := sc;
          var id := base.AddMenu("Scenes", []);
          sceneMenuId := Some(id);
          raised := None;
    }

    /** CurrentProgramSceneChanged: only `_curScene` changes. */
    method OnSceneChanged(rdata: Value) returns (raised: Option<Exn>)
      modifies this`curScene
      ensures Index(rdata, "sceneName").Err? ==> raised == Some(Index(rdata, "sceneName").error) && curScene == old(curScene)
      ensures Index(rdata, "sceneName").Ok? ==> raised == None && curScene == Some(rdata.entries["sceneName"])
    {
      match Index(rdata, "sceneName")
      case Err(e) => raised := Some(e);
      case Ok(name) =>
        curScene := Some(name);
        raised := None;
    }

    /**
     * GetStreamStatus, given what the message computation makes of the
     * response data (`StreamReport`): creates the Status menu only when there
     * is none; then notifies the stream message only when it differs from
     * `_status[0]`, which it then stores.
     */
    method OnStreamStatus(report: Result<string>) returns (raised: Option<Exn>)
      requires Valid()
      modifies this`statusMenuId, this`status, base`menuId, base`menus, base`menuList, base`outqueue
      ensures Valid()
      ensures old(statusMenuId).Some? ==>
                statusMenuId == old(statusMenuId) && base.menus == old(base.menus) && base.menuList == old(base.menuList) && base.menuId == old(base.menuId)
      ensures old(statusMenuId).None? ==>
                && statusMenuId == Some(old(base.menuId) + 1)
                && base.menus == old(base.menus)[old(base.menuId) + 1 := Menu("Status", [])]
                && base.menuList == old(base.menuList) + [(old(base.menuId) + 1, "Status")]
      ensures report.Err? ==>
                raised == Some(report.error) && status == old(status)
                && base.outqueue == old(base.outqueue) + CreatedMenu(old(statusMenuId), base.menuList)
      ensures report.Ok? ==> raised == None
      ensures report.Ok? && report.value != old(status)[0] ==>
                status == old(status)[0 := report.value]
                && base.outqueue == old(base.outqueue) + CreatedMenu(old(statusMenuId), base.menuList) + [UserNotification(report.value)]
      ensures report.Ok? && report.value == old(status)[0] ==>
                status == old(status) && base.outqueue == old(base.outqueue) + CreatedMenu(old(statusMenuId), base.menuList)
    {
      if statusMenuId.None? {
        var id := base.AddMenu("Status", []);
        statusMenuId := Some(id);
      }
      match report
      case Err(e) => raised := Some(e);
      case Ok(msg) =>
        if msg != status[0] {
          status := status[0 := msg];
          base.PostUserNotification(msg);
        }
        raised := None;
    }

    /**
     * GetRecordStatus, given `RecordReport` of the response data: like the
     * stream branch for `_status[1]`, but stores the message without
     * notifying.
     */
    method OnRecordStatus(report: Result<string>) returns (raised: Option<Exn>)
      requires Valid()
      modifies this`statusMenuId, this`status, base`menuId, base`menus, base`menuList, base`outqueue
      ensures Valid()
      ensures old(statusMenuId).Some? ==>
                statusMenuId == old(statusMenuId) && base.menus == old(base.menus) && base.menuList == old(base.menuList) && base.menuId == old(base.menuId)
      ensures old(statusMenuId).None? ==>
                && statusMenuId == Some(old(base.menuId) + 1)
                && base.menus == old(base.menus)[old(base.menuId) + 1 := Menu("Status", [])]
                && base.menuList == old(base.menuList) + [(old(base.menuId) + 1, "Status")]
      ensures base.outqueue == old(base.outqueue) + CreatedMenu(old(statusMenuId), base.menuList)
      ensures report.Err? ==> raised == Some(report.error) && status == old(status)
      ensures report.Ok? ==> raised == None && status == old(status)[1 := report.value]
    {
      if statusMenuId.None? {
        var id := base.AddMenu("Status", []);
        statusMenuId := Some(id);
      }
      match report
      case Err(e) => raised := Some(e);
      case Ok(msg) =>
        if msg != status[1] {
          status := status[1 := msg];
        }
        raised := None;
    }

    /**
     * `on_obsResponse`, once `PlanResponse` has read the header of its
     * arguments: a failed request is logged and changes nothing, as does a
     * response of a type the client does not handle; the four known request
     * types update state.
     */
    method OnResponse(plan: ResponsePlan) returns (raised: Option<Exn>)
      requires Valid()
      modifies this`curScene, this`scenes, this`sceneMenuId, this`statusMenuId, this`status
      modifies base`menuId, base`menus, base`menuList, base`outqueue
      ensures Valid()
      ensures old(base.outqueue) <= base.outqueue
      ensures raised == ResponseError(plan)
      ensures plan.Raise? ==>
                raised == Some(plan.error) && State() == old(State()) && base.outqueue == old(base.outqueue)
      ensures plan.RequestFailed? ==>
                raised == None && State() == old(State())
                && base.outqueue == old(base.outqueue) + [Log(Formatted("{} request failed: {}", [plan.requestType, plan.status]))]
      ensures plan.UnhandledResponse? ==>
                raised == None && State() == old(State())
                && base.outqueue == old(base.outqueue) + [Log(Formatted("{} Unhandled request response: {}", [plan.requestType, plan.args]))]
    {
      match plan
      case Raise(e) =>
        raised := Some(e);
      case RequestFailed(rtype, st) =>
        base.PostLog(Formatted("{} request failed: {}", [rtype, st]));
        raised := None;
      case UnhandledResponse(rtype, a) =>
        base.PostLog(Formatted("{} Unhandled request response: {}", [rtype, a]));
        raised := None;
      case _ =>
        raised := ApplyResponse(plan);
    }

    /** The four successful responses the client handles, each by its own branch. */
    method ApplyResponse(plan: ResponsePlan) returns (raised: Option<Exn>)
      requires Valid()
      requires plan.SceneList? || plan.SceneChanged? || plan.StreamStatus? || plan.RecordStatus?
      modifies this`curScene, this`scenes, this`sceneMenuId, this`statusMenuId, this`status
      modifies base`menuId, base`menus, base`menuList, base`outqueue
      ensures Valid()
      ensures old(base.outqueue) <= base.outqueue
      ensures raised == ResponseError(plan)
      ensures plan.SceneChanged? ==>
                base.outqueue == old(base.outqueue) && State() == old(State()).(curScene := curScene)
      ensures plan.SceneList? && Index(plan.data, "currentProgramSceneName").Ok? && Index(plan.data, "scenes").Ok? ==>
                && raised == None && sceneMenuId == Some(old(base.menuId) + 1)
                && base.menus == old(base.menus)[old(base.menuId) + 1 := Menu("Scenes", [])]
                && scenes == plan.data.entries["scenes"]
      ensures plan.StreamStatus? || plan.RecordStatus? ==>
                curScene == old(curScene) && scenes == old(scenes) && sceneMenuId == old(sceneMenuId) && statusMenuId.Some?
      ensures plan.StreamStatus? && StreamReport(plan.data).Ok? ==>
                status[0] == StreamReport(plan.data).value && status[1] == old(status)[1]
      ensures plan.RecordStatus? ==>
                status[0] == old(status)[0] && |base.outqueue| <= |old(base.outqueue)| + 1
    {
      match plan
      case SceneList(rdata) =>
        raised := OnSceneList(rdata);
      case SceneChanged(rdata) =>
        raised := OnSceneChanged(rdata);
      case StreamStatus(rdata) =>
        raised := OnStreamStatus(StreamReport(rdata));
      case RecordStatus(rdata) =>
        raised := OnRecordStatus(RecordReport(rdata));
    }

    /**
     * The `try` block of `execute` after a successful `recv`: route the frame
     * to its handler; an unsupported op and a malformed frame are each logged
     * once.
     */
    method HandleFrame(text: string, route: Route)
      requires Valid() && connected
      modifies this`curScene, this`scenes, this`sceneMenuId, this`statusMenuId, this`status
      modifies this`reqId, this`clockReads, this`sent
      modifies base`menuId, base`menus, base`menuList, base`outqueue
      ensures Valid() && connected
      ensures old(base.outqueue) <= base.outqueue
      ensures route.Broken? ==>
                State() == old(State()) && sent == old(sent)
                && base.outqueue == old(base.outqueue) + [Log(Failed("Exception while handling {}: {}", [Str(text)], route.error))]
      ensures route.NotSupported? ==>
                State() == old(State()) && sent == old(sent)
                && base.outqueue == old(base.outqueue) + [Log(Formatted("Op {} not supported yet", [route.op]))]
      ensures route.Routed? && route.handler == ObsEvent ==>
                State() == old(State()) && sent == old(sent)
                && base.outqueue == old(base.outqueue) + [Log(Formatted("{}: Unhandled. data: {}", [route.op, Str(text)]))]
    {
      match route
      case Broken(e) =>
        base.PostLog(Failed("Exception while handling {}: {}", [Str(text)], e));
      case NotSupported(op) =>
        base.PostLog(Formatted("Op {} not supported yet", [op]));
      case Routed(op, handler, args) =>
        if handler == ObsResponse {
          DispatchResponse(text, PlanResponse(args));
        } else {
          Dispatch(text, op, handler, args);
        }
    }

    /**
     * `getattr(self, "on_" + suffix)(op, args)` for the ops other than 7:
     * op 5 finds no method (see `DefinedHandlers`) and is logged as
     * unhandled. None of these handlers touches the scene or status state.
     */
    method Dispatch(text: string, op: Value, handler: OpHandler, args: Value)
      requires connected && handler != ObsResponse
      modifies this`reqId, this`clockReads, this`sent, base`outqueue
      ensures handler == ObsEvent ==>
                sent == old(sent) && base.outqueue == old(base.outqueue) + [Log(Formatted("{}: Unhandled. data: {}", [op, Str(text)]))]
      ensures handler == ObsHello ==>
                sent == old(sent) + [IDENTIFY] && base.outqueue == old(base.outqueue)
      ensures handler == ObsIdentified ==>
                && base.outqueue == old(base.outqueue) + [Log(Text("authenticated")), Ready]
                && sent == old(sent) + [Request("GetSceneList", Str(clock(old(clockReads))), map[]),
                                        Request("GetStreamStatus", Str(clock(old(clockReads) + 1)), map[]),
                                        Request("GetRecordStatus", Str(clock(old(clockReads) + 2)), map[])]
    {
      match handler
      case ObsHello => OnHello();
      case ObsIdentified => OnIdentified();
      case ObsEvent => base.PostLog(Formatted("{}: Unhandled. data: {}", [op, Str(text)]));
    }

    /** `on_obsResponse` called from the dispatch of op 7, with what it raises logged. */
    method DispatchResponse(text: string, plan: ResponsePlan)
      requires Valid()
      modifies this`curScene, this`scenes, this`sceneMenuId, this`statusMenuId, this`status
      modifies base`menuId, base`menus, base`menuList, base`outqueue
      ensures Valid()
      ensures old(base.outqueue) <= base.outqueue
      ensures plan.Raise? ==>
                State() == old(State())
                && base.outqueue == old(base.outqueue) + [Log(Failed("Exception while handling {}: {}", [Str(text)], plan.error))]
      ensures ResponseError(plan).Some? ==>
                |base.outqueue| > 0
                && base.outqueue[|base.outqueue| - 1] == Log(Failed("Exception while handling {}: {}", [Str(text)], ResponseError(plan).value))
    {
      var raised := OnResponse(plan);
      if raised.Some? {
        base.PostLog(Failed("Exception while handling {}: {}", [Str(text)], raised.value));
      }
    }

    /**
     * `execute`: without a socket, try to connect; on failure disconnect
     * (posting another DISCONNECTED) and sleep 3 s. Then receive.
     */
    method Execute(connectOk: bool, incoming: Incoming)
      requires Valid()
      modifies this, base`menuId, base`menus, base`menuList, base`outqueue, base`available
      ensures Valid()
      ensures old(base.outqueue) <= base.outqueue
      ensures !old(connected) && !connectOk ==>
                && !connected && !base.available && sleeps == old(sleeps) + [RETRY_DELAY_MS]
                && base.outqueue == old(base.outqueue) + [Log(Text("Disabled")), Disconnected]
                && sent == old(sent) && State() == old(State()).(scenes := List([]))
      ensures old(connected) || connectOk ==> sleeps == old(sleeps)
      ensures !old(connected) && connectOk ==> old(base.outqueue) + [Log(Text("Connected to OBS")), Log(Text("enabled"))] <= base.outqueue
      ensures old(connected) && incoming.TimedOut? ==>
                connected && sent == old(sent) && State() == old(State()) && base.outqueue == old(base.outqueue)
      ensures (old(connected) || connectOk) && !incoming.RecvFailed? ==> connected
      ensures (old(connected) || connectOk) && incoming.RecvFailed? ==>
                !connected && base.outqueue == old(base.outqueue) + ConnectLogs(old(connected)) + [Log(Text("Disabled")), Disconnected]
    {
      if !connected {
        TryConnect(connectOk);
        if !connected {
          Disconnect();
          sleeps := sleeps + [RETRY_DELAY_MS];
          return;
        }
      }
      Receive(incoming);
    }

    /**
     * The receiving half of `execute`, with a socket: a timeout changes
     * nothing, any other receive error disconnects, and a text is handled as
     * a frame.
     */
    method Receive(incoming: Incoming)
      requires Valid() && connected
      modifies this`connected, this`categories, this`reqId, this`scenes, this`curScene, this`sceneMenuId
      modifies this`statusMenuId, this`status, this`clockReads, this`sent
      modifies base`menuId, base`menus, base`menuList, base`outqueue, base`available
      ensures Valid()
      ensures old(base.outqueue) <= base.outqueue
      ensures incoming.TimedOut? ==>
                && connected && sent == old(sent) && State() == old(State()) && reqId == old(reqId)
                && base.outqueue == old(base.outqueue) && base.available == old(base.available)
      ensures incoming.RecvFailed? ==>
                && !connected && !base.available && sent == old(sent) && State() == old(State()).(scenes := List([]))
                && categories == [] && reqId == Int(0)
                && base.outqueue == old(base.outqueue) + [Log(Text("Disabled")), Disconnected]
      ensures incoming.Received? ==> connected && base.available == old(base.available)
    {
      match incoming
      case TimedOut =>
      case RecvFailed(_) =>
        Disconnect();
      case Received(text, frame) =>
        HandleFrame(text, RouteFrame(frame));
    }
  }

  /** The MENU_UPDATE a status branch posts when it creates the Status menu. */
  function CreatedMenu(oldStatusMenuId: Option<int>, menuList: seq<MenuEntry>): seq<OutEvent> {
    if oldStatusMenuId.None? then [MenuUpdate(menuList)] else []
  }

  /** What a successful connection attempt logs. */
  function ConnectLogs(wasConnected: bool): seq<OutEvent> {
    if wasConnected then [] else [Log(Text("Connected to OBS")), Log(Text("enabled"))]
  }
}

=== FILE: runtime.dfy ===
/**
 * The slice of the Python runtime the services depend on: the values that
 * JSON decoding and the host hand to a service, the exceptions a lookup on
 * them raises, truthiness, and the few string functions the services call.
 */
module Runtime {

  datatype Option<T> = None | Some(value: T) {
    function GetOr(default: T): T {
      match this
      case Some(v) => v
      case None => default
    }
  }

  /** The outcome of a Python expression that may raise. */
  datatype Result<T> = Ok(value: T) | Err(error: Exn)

  /** A Python exception: its class and the detail its message carries. */
  datatype Exn =
    | KeyError(key: Value)
    | TypeError(detail: string)
    | AttributeError(attribute: string)
    | NameError(name: string)
    | ValueError(detail: string)

  /**
   * A Python value of the kinds a decoded JSON frame or an event dictionary
   * holds. Dictionaries have string keys, as JSON objects do.
   */
  datatype Value =
    | Null
    | Bool(b: bool)
    | Int(i: int)
    | Str(s: string)
    | List(items: seq<Value>)
    | Dict(entries: map<string, Value>)

  /** Python truthiness (`if v:`). */
  predicate Truthy(v: Value) {
    match v
    case Null => false
    case Bool(b) => b
    case Int(i) => i != 0
    case Str(s) => s != ""
    case List(items) => |items| > 0
    case Dict(entries) => |entries| > 0
  }

  /** `v[key]` with a string key. */
  function Index(v: Value, key: string): (r: Result<Value>)
    ensures r.Ok? <==> v.Dict? && key in v.entries
    ensures r.Ok? ==> r.value == v.entries[key]
    ensures v.Dict? && key !in v.entries ==> r == Err(KeyError(Str(key)))
  {
    match v
    case Dict(entries) =>
      if key in entries then Ok(entries[key]) else Err(KeyError(Str(key)))
    case List(_) => Err(TypeError("list indices must be integers or slices, not str"))
    case Str(_) => Err(TypeError("string indices must be integers"))
    case Null => Err(TypeError("'NoneType' object is not subscriptable"))
    case Bool(_) => Err(TypeError("'bool' object is not subscriptable"))
    case Int(_) => Err(TypeError("'int' object is not subscriptable"))
  }

  /** `v.get(key, default)`: only a dictionary has `get`. */
  function Get(v: Value, key: string, default: Value): (r: Result<Value>)
    ensures r.Ok? <==> v.Dict?
    ensures v.Dict? && key in v.entries ==> r == Ok(v.entries[key])
    ensures v.Dict? && key !in v.entries ==> r == Ok(default)
  {
    match v
    case Dict(entries) => Ok(if key in entries then entries[key] else default)
    case _ => Err(AttributeError("get"))
  }

  /**
   * How `v` behaves as the key of a dictionary whose keys are ints:
   * `Some(k)` when it hashes and compares like the int k (True and False are
   * 1 and 0 in Python), `None` when it matches no int key, and a TypeError
   * for the unhashable list and dict.
   */
  function IntKey(v: Value): (r: Result<Option<int>>)
    ensures r.Err? <==> v.List? || v.Dict?
    ensures r.Ok? && r.value.Some? <==> v.Int? || v.Bool?
    ensures v.Int? ==> r == Ok(Some(v.i))
  {
    match v
    case Int(i) => Ok(Some(i))
    case Bool(b) => Ok(Some(if b then 1 else 0))
    case Null => Ok(None)
    case Str(_) => Ok(None)
    case List(_) => Err(TypeError("unhashable type: 'list'"))
    case Dict(_) => Err(TypeError("unhashable type: 'dict'"))
  }

  /** Python's `v == n` for an int n. */
  predicate EqualsInt(v: Value, n: int) {
    match v
    case Int(i) => i == n
    case Bool(b) => (if b then 1 else 0) == n
    case _ => false
  }

  /** The digits of a natural number, most significant first. */
  function NatToString(n: nat): (s: string)
    ensures |s| > 0
    ensures forall i :: 0 <= i < |s| ==> '0' <= s[i] <= '9'
    decreases n
  {
    var d := [(n % 10) as char + '0' as char] ;
    if n < 10 then d else NatToString(n / 10) + d
  }

  /** Python's `str(n)` for an int. */
  function IntToString(n: int): string {
    if n < 0 then "-" + NatToString(-n) else NatToString(n)
  }

  /** Python's `s.upper()` on the ASCII letters. */
  function Upper(s: string): (r: string)
    ensures |r| == |s|
    ensures forall i :: 0 <= i < |s| ==> ('a' <= s[i] <= 'z' ==> r[i] == (s[i] as int - 32) as char)
    ensures forall i :: 0 <= i < |s| ==> (!('a' <= s[i] <= 'z') ==> r[i] == s[i])
  {
    if s == [] then []
    else [if 'a' <= s[0] <= 'z' then (s[0] as int - 32) as char else s[0]] + Upper(s[1..])
  }

  /** Python's `s.replace(a, b)` for one-character `a` and `b`. */
  function ReplaceChar(s: string, from: char, to: char): (r: string)
    ensures |r| == |s|
    ensures forall i :: 0 <= i < |s| ==> r[i] == (if s[i] == from then to else s[i])
  {
    if s == [] then [] else [if s[0] == from then to else s[0]] + ReplaceChar(s[1..], from, to)
  }

  /** Python's `a <= b` on strings: lexicographic by code point. */
  predicate LexLe(a: string, b: string)
    decreases |a|
  {
    a == [] || (b != [] && (a[0] < b[0] || (a[0] == b[0] && LexLe(a[1..], b[1..]))))
  }

  lemma {:induction false} LexLeTotal(a: string, b: string)
    ensures LexLe(a, b) || LexLe(b, a)
    decreases |a|
  {
    if a != [] && b != [] && a[0] == b[0] {
      LexLeTotal(a[1..], b[1..]);
    }
  }

  lemma {:induction false} LexLeTransitive(a: string, b: string, c: string)
    requires LexLe(a, b) && LexLe(b, c)
    ensures LexLe(a, c)
    decreases |a|
  {
    if a != [] && b != [] && c != [] && a[0] == b[0] && b[0] == c[0] {
      LexLeTransitive(a[1..], b[1..], c[1..]);
    }
  }
}

=== FILE: service.dfy ===
/**
 * The base of every service (web_services/service.py): a sequential actor
 * with an input queue of event dictionaries from the host, an output queue of
 * events to the host, a loop that takes at most one input event and runs the
 * service's `execute` once per iteration, and an id-addressed menu table.
 *
 * The concrete services hold one `Service` as their `base`; what Python does
 * through inheritance (`self.addMenu`, `self.postLog`) they do by calling it.
 */
module ServiceActor {
  import opened Runtime
  import opened Messages
  import Events

  /** The base's log lines and exception details, named once. */
  const ENABLED := "enabled"
  const DISABLED := "Disabled"
  const INVALID_MENU_ARGS := "aedMenu({}, {}): Invalid arguments"
  const REMOVING_MENU := "Removing menu {}"
  const NOT_IN_LIST := "list.remove(x): x not in list"

  /** An event on the output queue; `Code` is the "event" field it carries. */
  datatype OutEvent =
    | Disconnected
    | Ready
    | Log(message: LogMessage)
    | UserNotification(text: string)
    | MenuUpdate(menus: seq<MenuEntry>)
    | MenuItemsList(menu: Menu)
  {
    function Code(): (c: int)
      ensures Events.Known(c) && c != Events.QUIT
      ensures c == Events.LOG <==> Log?
      ensures c == Events.MENU_UPDATE <==> MenuUpdate?
    {
      match this
      case Disconnected => Events.DISCONNECTED
      case Ready => Events.READY
      case Log(_) => Events.LOG
      case UserNotification(_) => Events.USER_NOTIFICATION
      case MenuUpdate(_) => Events.MENU_UPDATE
      case MenuItemsList(_) => Events.MENU_GET_ITEMS
    }
  }

  /** What `handleInputEvent` did with the event it took from the input queue. */
  datatype InputOutcome =
    | NoEvent
    | QuitRequested
    | Dispatched(handler: string, code: Value, data: Value)
    | Unhandled(name: string, data: Value)
    | HandlingFailed(error: Exn)

  /**
   * The reaction to one event dictionary `data`, for a service whose handler
   * methods are named `handlers`: QUIT is recognised by Python equality,
   * any other code is looked up as `"on_" + toString(code)`.
   */
  function ReactTo(data: Value, handlers: set<string>): (r: InputOutcome)
    ensures r != NoEvent
    ensures r == QuitRequested <==> Index(data, "event").Ok? && EqualsInt(Index(data, "event").value, Events.QUIT)
    ensures r.Dispatched? ==> r.handler in handlers && r.data == data
    ensures r.HandlingFailed? <==> Index(data, "event").Err? ||
                                   (!EqualsInt(Index(data, "event").value, Events.QUIT) && Events.ToStringValue(Index(data, "event").value).Err?)
  {
    match Index(data, "event")
    case Err(e) => HandlingFailed(e)
    case Ok(code) =>
      if EqualsInt(code, Events.QUIT) then QuitRequested
      else
        match Events.ToStringValue(code)
        case Err(e) => HandlingFailed(e)
        case Ok(name) =>
          if "on_" + name in handlers then Dispatched("on_" + name, code, data)
          else Unhandled(name, data)
  }

  /** The events `handleInputEvent` itself posts for an outcome. */
  function ReactionEvents(r: InputOutcome): seq<OutEvent> {
    match r
    case NoEvent => []
    case QuitRequested => [Log(Text("Exiting"))]
    case Dispatched(_, _, _) => []
    case Unhandled(name, data) => [Log(Formatted("Unhandled event {}: {}", [Str(name), data]))]
    case HandlingFailed(e) => [Log(Failed("Failed to handle event: {}", [], e))]
  }

  /**
   * When none of the names toString can produce, prefixed with "on_", names a
   * handler, no input event is ever dispatched: each is QUIT, unhandled or a
   * failure.
   */
  lemma {:induction false} NoDispatchWithoutMatchingHandler(data: Value, handlers: set<string>)
    requires forall c: int :: "on_" + Events.ToString(c) !in handlers
    ensures !ReactTo(data, handlers).Dispatched?
  {
    match Index(data, "event")
    case Err(_) =>
    case Ok(code) =>
      if !EqualsInt(code, Events.QUIT) {
        match IntKey(code)
        case Err(_) =>
        case Ok(Some(k)) =>
          assert "on_" + Events.ToString(k) !in handlers;
        case Ok(None) =>
          assert "on_" + Events.ToString(-1) !in handlers;
      }
  }

  /** The log `run` posts when `execute` raises. */
  function ExecuteFailure(className: string, e: Exn): OutEvent {
    Log(Failed("{}.execute() failed: {}.", [Str(className)], e))
  }

  predicate IsExecuteFailure(e: OutEvent) {
    e.Log? && e.message.Failed? && e.message.template == "{}.execute() failed: {}."
  }

  /** How many "execute() failed" logs a run of events holds. */
  function CountExecuteFailures(es: seq<OutEvent>): nat {
    if es == [] then 0
    else CountExecuteFailures(es[..|es| - 1]) + (if IsExecuteFailure(es[|es| - 1]) then 1 else 0)
  }

  lemma {:induction false} CountExecuteFailuresAppend(a: seq<OutEvent>, b: seq<OutEvent>)
    ensures CountExecuteFailures(a + b) == CountExecuteFailures(a) + CountExecuteFailures(b)
    decreases |b|
  {
    if b != [] {
      assert (a + b)[..|a + b| - 1] == a + b[..|b| - 1];
      CountExecuteFailuresAppend(a, b[..|b| - 1]);
    } else {
      assert a + b == a;
    }
  }

  /** The events `handleInputEvent` posts never include an "execute() failed" log. */
  lemma ReactionEventsAreNotExecuteFailures(r: InputOutcome)
    ensures CountExecuteFailures(ReactionEvents(r)) == 0
  {
    var es := ReactionEvents(r);
    if es != [] {
      assert es[..|es| - 1] == [];
    }
  }

  /** Whether the k-th call of `execute` (from 0) raises, given the outcomes of its calls. */
  predicate Raises(outcomes: seq<Option<Exn>>, k: nat) {
    k < |outcomes| && outcomes[k].Some?
  }

  class Service {
    /** `_display_name`, `name` (the thread's name) and `__class__.__name__`. */
    const displayName: string
    const name: string
    const className: string
    /** The names of the service's `on_*` handler methods, found by `getattr`. */
    const handlers: set<string>
    /** Whether the service defines `execute`. */
    const hasExecute: bool

    var available: bool
    var menus: map<int, Menu>
    var menuList: seq<MenuEntry>
    var menuId: int
    var inqueue: seq<Value>
    var outqueue: seq<OutEvent>
    /** `should_quit`, the attribute QUIT sets. */
    var shouldQuit: bool
    /** `_should_quit`, the attribute the loop tests. */
    var loopQuit: bool
    /** `service_inloop is not None` in the loop. */
    var executeEnabled: bool

    /** Menu ids are handed out by the counter and listed in increasing order. */
    ghost predicate Valid()
      reads this`menuId, this`menus, this`menuList
    {
      && 0 <= menuId
      && (forall id :: id in menus ==> 1 <= id <= menuId)
      && (forall i :: 0 <= i < |menuList| ==> 1 <= menuList[i].0 <= menuId)
      && (forall i, j :: 0 <= i < j < |menuList| ==> menuList[i].0 < menuList[j].0)
    }

    /** Every menu of the table has its `(id, name)` pair in the list. */
    ghost predicate Listed()
      reads this`menus, this`menuList
    {
      forall id :: id in menus ==> (id, menus[id].name) in menuList
    }

    constructor (displayName: string, name: string, className: string, handlers: set<string>, hasExecute: bool)
      ensures Valid() && Listed()
      ensures this.displayName == displayName && this.name == name && this.className == className
      ensures this.handlers == handlers && this.hasExecute == hasExecute
      ensures !available && menus == map[] && menuList == [] && menuId == 0
      ensures inqueue == [] && outqueue == []
      ensures !shouldQuit && !loopQuit && !executeEnabled
    {
      this.displayName := displayName;
      this.name := name;
      this.className := className;
      this.handlers := handlers;
      this.hasExecute := hasExecute;
      available := false;
      menus := map[];
      menuList := [];
      menuId := 0;
      inqueue := [];
      outqueue := [];
      shouldQuit := false;
      loopQuit := false;
      executeEnabled := false;
    }

    /** `__str__`: the display name, marked when the service is unavailable. */
    function Describe(): (s: string)
      reads this
      ensures |s| >= |displayName| && s[..|displayName|] == displayName
      ensures |s| == |displayName| <==> available
      ensures !available ==> s == displayName + " disabled"
    {
      if available then displayName else displayName + " disabled"
    }

    method PostEvent(e: OutEvent)
      modifies this`outqueue
      ensures outqueue == old(outqueue) + [e]
    {
      outqueue := outqueue + [e];
    }

    method PostDisconnected()
      modifies this`outqueue
      ensures outqueue == old(outqueue) + [Disconnected]
      ensures outqueue[|outqueue| - 1].Code() == Events.DISCONNECTED
    {
      PostEvent(Disconnected);
    }

    method PostReady()
      modifies this`outqueue
      ensures outqueue == old(outqueue) + [Ready]
      ensures outqueue[|outqueue| - 1].Code() == Events.READY
    {
      PostEvent(Ready);
    }

    method PostLog(msg: LogMessage)
      modifies this`outqueue
      ensures outqueue == old(outqueue) + [Log(msg)]
      ensures outqueue[|outqueue| - 1].Code() == Events.LOG
    {
      PostEvent(Log(msg));
    }

    method PostUserNotification(text: string)
      modifies this`outqueue
      ensures outqueue == old(outqueue) + [UserNotification(text)]
      ensures outqueue[|outqueue| - 1].Code() == Events.USER_NOTIFICATION
    {
      PostEvent(UserNotification(text));
    }

    /** Posts the current ordered `(id, name)` list. */
    method PostMenuUpdate()
      modifies this`outqueue
      ensures outqueue == old(outqueue) + [MenuUpdate(menuList)]
      ensures outqueue[|outqueue| - 1].Code() == Events.MENU_UPDATE
    {
      PostEvent(MenuUpdate(menuList));
    }

    method PostMenuItemsList(menu: Menu)
      modifies this`outqueue
      ensures outqueue == old(outqueue) + [MenuItemsList(menu)]
      ensures outqueue[|outqueue| - 1].Code() == Events.MENU_GET_ITEMS
    {
      PostEvent(MenuItemsList(menu));
    }

    method Enable()
      modifies this`outqueue, this`available
      ensures available
      ensures outqueue == old(outqueue) + [Log(Text(ENABLED))]
    {
      PostLog(Text(ENABLED));
      available := true;
    }

    method Disable()
      modifies this`outqueue, this`available
      ensures !available
      ensures outqueue == old(outqueue) + [Log(Text(DISABLED))]
    {
      PostLog(Text(DISABLED));
      available := false;
    }

    /** `on_menu_update`: reposts the menu list. */
    method OnMenuUpdate()
      modifies this`outqueue
      ensures outqueue == old(outqueue) + [MenuUpdate(menuList)]
    {
      PostMenuUpdate();
    }

    /**
     * `addMenu`: the new id is the old counter plus one, so it is fresh; the
     * menu is stored under it, `(id, name)` goes to the end of the list and
     * one MENU_UPDATE carries the new list. An empty name is only logged.
     */
    method AddMenu(name: string, initialChoices: seq<MenuItem>) returns (id: int)
      requires Valid()
      modifies this`menuId, this`menus, this`menuList, this`outqueue
      ensures Valid()
      ensures id == old(menuId) + 1 && menuId == id
      ensures id !in old(menus)
      ensures menus == old(menus)[id := Menu(name, initialChoices)]
      ensures menuList == old(menuList) + [(id, name)]
      ensures outqueue == old(outqueue)
                          + (if name == "" then [Log(Formatted(INVALID_MENU_ARGS, [Str(name), ItemsValue(initialChoices)]))] else [])
                          + [MenuUpdate(menuList)]
      ensures old(Listed()) ==> Listed()
    {
      if name == "" {
        PostLog(Formatted(INVALID_MENU_ARGS, [Str(name), ItemsValue(initialChoices)]));
      }
      menuId := menuId + 1;
      menus := menus[menuId := Menu(name, initialChoices)];
      menuList := menuList + [(menuId, name)];
      PostMenuUpdate();
      id := menuId;
    }

    /**
     * `removeMenu`: an unknown id changes nothing. A known id is logged and
     * dropped from the table; the search of the list then calls
     * `_menuList.remove(0)` on the matching pair, and since 0 is no
     * `(id, name)` tuple that raises ValueError, leaving the list as it was.
     */
    method RemoveMenu(id: int) returns (raised: Option<Exn>)
      requires Valid()
      modifies this`menus, this`outqueue
      ensures Valid()
      ensures id !in old(menus) ==> raised == None && menus == old(menus) && outqueue == old(outqueue)
      ensures id in old(menus) ==> menus == old(menus) - {id}
      ensures id in old(menus) ==> outqueue == old(outqueue) + [Log(Formatted(REMOVING_MENU, [Str(old(menus)[id].name)]))]
      ensures id in old(menus) ==> (raised.Some? <==> exists i :: 0 <= i < |menuList| && menuList[i].0 == id)
      ensures raised.Some? ==> raised.value == ValueError(NOT_IN_LIST)
      ensures old(Listed()) ==> Listed()
    {
      raised := None;
      if id !in menus {
        return;
      }
      PostLog(Formatted(REMOVING_MENU, [Str(menus[id].name)]));
      menus := menus - {id};
      var k := 0;
      while k < |menuList|
        invariant 0 <= k <= |menuList|
        invariant forall i :: 0 <= i < k ==> menuList[i].0 != id
      {
        if menuList[k].0 == id {
          // `self._menuList.remove(i)` with i == 0: no element equals 0.
          raised := Some(ValueError(NOT_IN_LIST));
          return;
        }
        k := k + 1;
      }
    }

    /** With every menu listed, removing a known menu always raises. */
    lemma RemovingAListedMenuFinds(id: int)
      requires Listed() && id in menus
      ensures exists i :: 0 <= i < |menuList| && menuList[i].0 == id
    {
      var i :| 0 <= i < |menuList| && menuList[i] == (id, menus[id].name);
      assert menuList[i].0 == id;
    }

    /**
     * `handleInputEvent`: takes at most one event; an empty queue changes
     * nothing. QUIT sets `should_quit` (not the loop's `_should_quit`).
     */
    method HandleInputEvent() returns (outcome: InputOutcome)
      modifies this`inqueue, this`outqueue, this`shouldQuit
      ensures old(inqueue) == [] ==> outcome == NoEvent && inqueue == [] && outqueue == old(outqueue) && shouldQuit == old(shouldQuit)
      ensures old(inqueue) != [] ==> outcome == ReactTo(old(inqueue)[0], handlers) && inqueue == old(inqueue)[1..]
      ensures outqueue == old(outqueue) + ReactionEvents(outcome)
      ensures shouldQuit == (old(shouldQuit) || outcome == QuitRequested)
    {
      if inqueue == [] {
        return NoEvent;
      }
      var data := inqueue[0];
      inqueue := inqueue[1..];
      outcome := ReactTo(data, handlers);
      match outcome
      case QuitRequested =>
        shouldQuit := true;
        PostLog(Text("Exiting"));
      case Unhandled(nm, d) =>
        PostLog(Formatted("Unhandled event {}: {}", [Str(nm), d]));
      case HandlingFailed(e) =>
        PostLog(Failed("Failed to handle event: {}", [], e));
      case Dispatched(_, _, _) =>
      case NoEvent =>
    }

    /**
     * One iteration of `run`'s loop: take at most one input event, then, while
     * `execute` is still enabled, call it once; `outcome` is what that call
     * does. A raise is logged once and disables `execute`.
     */
    method Iteration(outcome: Option<Exn>) returns (called: bool, added: seq<OutEvent>)
      modifies this`inqueue, this`outqueue, this`shouldQuit, this`executeEnabled
      ensures inqueue == if old(inqueue) == [] then [] else old(inqueue)[1..]
      ensures called == old(executeEnabled)
      ensures executeEnabled == (old(executeEnabled) && outcome.None?)
      ensures outqueue == old(outqueue) + added
      ensures CountExecuteFailures(added) == if called && outcome.Some? then 1 else 0
    {
      var reaction := HandleInputEvent();
      added := ReactionEvents(reaction);
      ReactionEventsAreNotExecuteFailures(reaction);
      called := executeEnabled;
      if executeEnabled && outcome.Some? {
        PostLog(Failed("{}.execute() failed: {}.", [Str(className)], outcome.value));
        CountExecuteFailuresAppend(added, [ExecuteFailure(className, outcome.value)]);
        added := added + [ExecuteFailure(className, outcome.value)];
        executeEnabled := false;
      }
    }

    /**
     * `steps` iterations of `run`'s loop, where the k-th call of `execute`
     * (from 0) has outcome `outcomes[k]` (None: it returned; calls past the
     * end of `outcomes` return). `execute` is called until its first raise
     * and never after; input draining goes on; nothing the loop does sets
     * `_should_quit`. A dispatched input event runs a handler of the
     * concrete service, which is not part of this loop.
     */
    method Run(steps: nat, outcomes: seq<Option<Exn>>) returns (calls: nat)
      modifies this`inqueue, this`outqueue, this`shouldQuit, this`loopQuit, this`executeEnabled
      ensures !loopQuit
      ensures steps <= |old(inqueue)| ==> inqueue == old(inqueue)[steps..]
      ensures steps > |old(inqueue)| ==> inqueue == []
      ensures calls <= steps
      ensures !hasExecute ==> calls == 0
      ensures hasExecute ==> calls == steps || (calls > 0 && Raises(outcomes, calls - 1))
      ensures forall k :: 0 <= k < calls - 1 ==> !Raises(outcomes, k)
      ensures executeEnabled <==> hasExecute && forall k :: 0 <= k < calls ==> !Raises(outcomes, k)
      ensures |old(outqueue)| <= |outqueue| && outqueue[..|old(outqueue)|] == old(outqueue)
      ensures CountExecuteFailures(outqueue[|old(outqueue)|..]) == if hasExecute && !executeEnabled then 1 else 0
    {
      ghost var q0 := inqueue;
      ghost var out0 := outqueue;
      ghost var added: seq<OutEvent> := [];
      executeEnabled := hasExecute;
      loopQuit := false;
      calls := 0;
      var i := 0;
      while i < steps
        invariant 0 <= i <= steps
        invariant !loopQuit
        invariant i <= |q0| ==> inqueue == q0[i..]
        invariant i > |q0| ==> inqueue == []
        invariant !hasExecute ==> calls == 0 && !executeEnabled
        invariant executeEnabled ==> calls == i
        invariant calls <= i
        invariant forall k :: 0 <= k < calls - 1 ==> !Raises(outcomes, k)
        invariant hasExecute && !executeEnabled ==> calls > 0 && Raises(outcomes, calls - 1)
        invariant executeEnabled ==> forall k :: 0 <= k < calls ==> !Raises(outcomes, k)
        invariant outqueue == out0 + added
        invariant CountExecuteFailures(added) == if hasExecute && !executeEnabled then 1 else 0
      {
        var result := if calls < |outcomes| then outcomes[calls] else None;
        var called, more := Iteration(result);
        CountExecuteFailuresAppend(added, more);
        added := added + more;
        if called {
          calls := calls + 1;
        }
        i := i + 1;
      }
      assert outqueue[|out0|..] == added;
    }
  }
}
